=== FILE: README.md ===
# Pet adoption app — a Dafny model of its logic

The app is a single-page React client for a pet adoption service. Pets,
adoption applications, favorites and chat messages live in four tables of a
hosted Postgres store. Generative-model calls write pet stories, chat
answers and adoption news. This project models the part of the app that
decides things:

- the four **services**: each call is a pure function from a store state and
  the store's outcome to a new store state and an `ApiResponse`;
- the **hooks**: each keeps `{ value, loading, error }` and splices its list
  after a mutation;
- the **navigation** state machine in `App.tsx`;
- the **page workflows**: the AI chat, the discovery filter and news panel,
  the story generator, the adoption form and the toast list.

Each file holds one module:

| file | module | source |
|---|---|---|
| wrappers.dfy | `Wrappers` | `Option` |
| types.dfy | `Types` | types-extended.ts, plus `Generation` for model calls |
| seqs.dfy, text.dfy | `Seqs`, `Text` | filtering, sorting, `toLowerCase`, `includes`, `join`, `trim` |
| store.dfy | `Store` | the four tables and `.single()` |
| pet_service.dfy | `PetService` | services/petService.ts |
| application_service.dfy | `ApplicationService` | services/applicationService.ts |
| favorite_service.dfy | `FavoriteService` | services/favoriteService.ts |
| message_service.dfy | `MessageService` | services/messageService.ts |
| fetch_state.dfy | `FetchState` | the fetch lifecycle shared by every hook |
| applications_hook.dfy, favorites_hook.dfy, messages_hook.dfy, pets_hook.dfy | one per hook | hooks/*.ts |
| navigation.dfy | `Navigation` | App.tsx |
| catalog.dfy | `Catalog` | constants.tsx |
| ai_chat.dfy, discovery.dfy, pet_details.dfy, adoption_form.dfy | one per page | pages/*.tsx |
| toast.dfy | `Toasts` | components/Toast.tsx |

How the outside world enters the model:

- **Store calls.** Each call gets an `Option<StoreError>` parameter: `None`
  means the call succeeded, `Some(e)` is the error it returned.
- **Ids and timestamps.** The store assigns them; the model takes them as
  `newId` and `now` parameters.
- **Duplicate ids.** An insert whose id is already taken fails with the
  primary-key error, code 23505.
- **`.single()`.** It returns the row when exactly one row matches. Otherwise
  it returns the "no rows" error, code PGRST116.
- **Generative-model calls.** Each is an outcome: `Replied(text)`, where an
  empty or missing text is `""`, or `Threw`.

## Model

| member | source | states |
|---|---|---|
| Types.PageNamesRoundTrip | types-extended.ts:1 | the seven page names are distinct and each reads back as its page |
| Types.PetStatusRoundTrip | types-extended.ts:15 | each pet status label (待领养, 审核中, 已通过) reads back as its status |
| Types.AppStatusRoundTrip | types-extended.ts:22 | each application status label (审核中, 已通过, 已完成, 已拒绝) reads back as its status |
| Types.SomeData | hooks/usePets.ts:47-53 | wrapping a response's data as "the item or null" keeps success, failure and the error as they were |
| Store.Single | services/petService.ts:62-66 | a single-row read yields a row exactly when one row has the id, and that row has the id |
| Store.SingleFindsUnique | services/applicationService.ts:62-66 | with unique ids, a single-row read by a stored row's id yields that row |
| Store.SingleMissesAbsent | services/applicationService.ts:62-68 | a single-row read of an id no row has finds nothing |
| Store.UpdateWithId | services/applicationService.ts:146-151 | an update by id changes exactly the rows with that id and keeps the table's length |
| Store.UpdatedWithId | services/petService.ts:110-115 | after an id-preserving update, the rows with an id are the old rows with that id, updated, in order |
| Store.LookupAfterStatus | services/applicationService.ts:115-119 | setting a pet's status keeps it the single pet with its id, now with the new status |
| Store.UpdateKeepsUnique | services/applicationService.ts:146-151 | an update that keeps ids keeps them unique |
| Store.AppendKeepsUnique | services/applicationService.ts:107-111 | inserting a row under a fresh id keeps ids unique |
| Store.LookupFindsUniquePet | services/petService.ts:60-66 | with unique pet ids, the lookup of a stored pet's id finds that pet |
| PetService.ConditionsOnePerGivenField | services/petService.ts:18-40 | no filter adds no predicate; each given (truthy) field adds one predicate with its value; missing, '', 0 and [] add none; the predicates follow field order with no kind twice |
| PetService.ConditionsMeanAdmits | services/petService.ts:18-40 | the conjunction of the built predicates is exactly the field-by-field reading of the filter: inclusive price bounds, all tags, search over name/breed/description |
| PetService.GetAllPets | services/petService.ts:10-57 | on a store error, the list-failure message carrying that error; otherwise the stored pets the filter admits, each as often as it is stored and no other, newest first |
| PetService.GetPetById | services/petService.ts:60-81 | the pet when exactly one row has the id; otherwise the detail-failure message, with the no-rows code when the store itself did not fail |
| PetService.UpdatePetStatus | services/petService.ts:108-130 | on success only the status of the pet with that id changes; any failure leaves the store alone and is returned as the update-failure message, never thrown |
| PetService.GetRecommendedPets | services/petService.ts:156-178 | at most `limit` pets, all stored and 待领养, each at most as often as stored, newest first; when fewer than `limit` are returned, every 待领养 pet exactly as often as stored |
| PetService.RecommendedAreNewest | services/petService.ts:160-163 | an available pet left out of the recommendation is no newer than any pet kept |
| PetService.NewestAvailable | services/petService.ts:160-163 | the first `limit` 待领养 pets by age are stored, each at most as often as stored, and all of them when fewer than `limit` |
| PetService.SearchPets | services/petService.ts:181-202 | the stored pets whose name, breed or description contains the query ignoring case, each as often as it is stored and no other, newest first |
| PetService.SearchIsTheSearchFilter | services/petService.ts:181-187 | `searchPets(q)` returns the same list as `getAllPets({ search: q })`, the empty query included |
| ApplicationService.CalculateProgress | services/applicationService.ts:201-214 | progress lies in 0..100; it is 0 exactly for 已拒绝 and unknown strings, and 100 exactly for 已完成 |
| ApplicationService.ProgressIdentifiesStatus | services/applicationService.ts:201-214 | progress is 50/75/100/0 for 审核中/已通过/已完成/已拒绝, and every status but 已拒绝 can be recovered from its progress |
| ApplicationService.StatusAtProgress | services/applicationService.ts:201-214 | the status read back from a progress value is never 已拒绝, whose progress 0 it shares with unknown strings |
| ApplicationService.Attach | services/applicationService.ts:33-44 | each read application carries its row, the pet looked up by its pet id (or none), and the progress of its status |
| ApplicationService.SelectedRows | services/applicationService.ts:15-26 | the rows with the given user email and the given status (each only when given), each as often as it is stored and no other, newest first |
| ApplicationService.GetAllApplications | services/applicationService.ts:10-57 | on a store error, the list-failure message; otherwise the wanted rows, each as often as it is stored, newest first, each with its pet (or none) and its progress; a missing pet keeps the row |
| ApplicationService.GetApplicationById | services/applicationService.ts:60-90 | the application when exactly one row has the id, with the progress of its status and the pet its `pet_id` names (none when that lookup fails); otherwise the detail-failure message |
| ApplicationService.CreateApplication | services/applicationService.ts:93-138 | the call fails exactly when the insert fails, and then nothing changes; the row appended holds the form verbatim with status 审核中, progress 50, and the store's id and time as both its creation and update time; only the referenced pet becomes 审核中, and only when its update succeeds; a failed pet update does not fail the call; the returned pet is read after that update |
| ApplicationService.CreatedApplicationCarriesPet | services/applicationService.ts:115-124 | when the pet exists, the created application carries it as 审核中 if its update succeeded, and unchanged if the update failed |
| ApplicationService.UpdateApplicationStatus | services/applicationService.ts:141-175 | when one row has the id, only its status changes, the returned progress is that of the new status and the returned pet is the one its `pet_id` names (none when that lookup fails); otherwise nothing changes and the update-failure message is returned |
| ApplicationService.DeleteApplication | services/applicationService.ts:178-198 | removes every row with the id and answers `{}`; every other row stays as often as it was stored, in order; a store error changes nothing |
| ApplicationService.CreatedApplicationReadsBack | services/applicationService.ts:93-127 | a created application reads back by its id exactly as created |
| ApplicationService.UpdatedStatusReadsBack | services/applicationService.ts:141-163 | after a status update the application reads back as the update returned it |
| ApplicationService.DeletedApplicationIsGone | services/applicationService.ts:178-187 | after a delete, reading the id gives the no-rows error |
| FavoriteService.UserRows | services/favoriteService.ts:12-16 | the user's favorite rows, each as often as it is stored and no other, newest first |
| FavoriteService.GetUserFavorites | services/favoriteService.ts:10-44 | on a store error, the list-failure message; otherwise the user's rows, each as often as it is stored and no other, newest first, each with its pet looked up |
| FavoriteService.AddFavorite | services/favoriteService.ts:47-81 | fails exactly when the insert fails, leaving the store alone; otherwise appends one row holding that user and pet, changes nothing else, and returns it with the pet `getPetById` reads from the updated store (none when that read fails) |
| FavoriteService.RemoveFavorite | services/favoriteService.ts:84-105 | deletes exactly the rows of that user and pet; every other row stays as often as it was stored, in order |
| FavoriteService.IsFavorite | services/favoriteService.ts:108-130 | true exactly when one row holds the pair; a PGRST116 error means false; any other error gives the check-failure message |
| FavoriteService.ToggleFavorite | services/favoriteService.ts:133-153 | a pair reported present is removed, with answer `null` even if the removal fails; otherwise, including when the check fails, the pair is added: the store gains exactly that row and the answer carries it with its looked-up pet |
| FavoriteService.ToggleFlips | services/favoriteService.ts:133-142 | a toggle of a pair stored at most once flips whether it is stored |
| FavoriteService.TwoTogglesRestore | services/favoriteService.ts:133-142 | two toggles of such a pair restore whether it is stored |
| FavoriteService.DuplicatesOnlyGrow | services/favoriteService.ts:108-142 | a pair stored twice reads as not a favorite, and each toggle adds yet another row |
| MessageService.OwnOldestFirst | services/messageService.ts:11-15 | exactly the user's messages, oldest first |
| MessageService.GetUserMessages | services/messageService.ts:9-31 | on a store error, the fetch-failure message; otherwise at most `limit` of the user's messages, each at most as often as stored, oldest first; a message left out is no older than any listed one; when fewer than `limit` are returned, all of them, each exactly as often as stored |
| MessageService.OldestListed | services/messageService.ts:13-16 | the first `limit` of the user's messages by age come before every message they leave out, each at most as often as stored |
| MessageService.Send | services/messageService.ts:34-61 | fails exactly when the insert fails, leaving the store alone; otherwise appends one message with the given user, content and role |
| MessageService.SendUserMessage | services/messageService.ts:34-61 | stores the content under role `user` and returns it; a failure returns the send-failure message |
| MessageService.SendAssistantMessage | services/messageService.ts:64-91 | stores the content under role `assistant`, with the same failure message as the user send |
| MessageService.DeleteMessage | services/messageService.ts:94-114 | removes exactly the messages with that id; every other message stays as often as it was stored, in order |
| MessageService.ClearUserMessages | services/messageService.ts:117-137 | removes exactly the user's messages; every other user's message stays as often as it was stored, in order; a store error changes nothing |
| MessageService.SentMessageIsListed | services/messageService.ts:9-61 | a message sent by a user with fewer than `limit` messages is in that user's list afterwards |
| MessageService.LateMessageIsNotListed | services/messageService.ts:9-61 | a message sent later than every stored one by a user who already has `limit` messages is not in that user's list afterwards |
| MessageService.DeletedMessageIsGone | services/messageService.ts:94-114 | after a delete no user's list shows a message with that id, and each of the user's other messages is still stored |
| MessageService.ClearEmptiesUser | services/messageService.ts:117-122 | after a clear, the user's list is empty |
| MessageService.ClearKeepsOthers | services/messageService.ts:117-122 | a clear leaves every other user's list as it was |
| FetchState.Start | hooks/useApplications.ts:14-16 | a fetch starts loading with the error cleared and the value kept |
| FetchState.Settle | hooks/useApplications.ts:20-26 | settling ends loading; data replaces the value; an error keeps the value and holds the service's message |
| FetchState.Fetch | hooks/useApplications.ts:14-27 | a fetch ends not loading; data replaces the value and clears the error; an error keeps the value and shows its message |
| FetchState.FetchForgetsStatus | hooks/useFavorites.ts:16-28 | a fetch's result does not depend on the loading flag or error it started from, and repeating it changes nothing |
| ApplicationsHook.Refetch | hooks/useApplications.ts:14-27 | a fetch holds the service's list as it is: each application of the user (of everyone when the user is undefined or empty) as often as it is stored, and no other; or it keeps the list and shows the list-failure message |
| ApplicationsHook.MountWithoutUserListsAll | hooks/useApplications.ts:10-18 | mounted without a user, the hook still fetches and lists every application |
| ApplicationsHook.Create | hooks/useApplications.ts:29-38 | a successful create puts exactly the new application in front; a failed one leaves the list and returns the error |
| ApplicationsHook.CreatePrepends | hooks/useApplications.ts:32-34 | after a create, the new application heads the list and the old list follows unchanged |
| ApplicationsHook.MountItem | hooks/useApplications.ts:43-67 | `useApplication` fetches only for a non-empty id, and then holds the application with that id when it exists |
| ApplicationsHook.UpdateStatus | hooks/useApplications.ts:69-78 | on success the held application becomes the updated one; on failure it is unchanged |
| ApplicationsHook.UpdateStatusAgreesWithRefetch | hooks/useApplications.ts:54-78 | after a successful status change the held application is what a refetch loads |
| FavoritesHook.Refetch | hooks/useFavorites.ts:16-29 | a fetch holds the service's list as it is: each of the user's stored favorites as often as it is stored, and no other; or it keeps the list and shows the failure message |
| FavoritesHook.Mount | hooks/useFavorites.ts:10-14 | no fetch happens for an empty user |
| FavoritesHook.WithoutPet | hooks/useFavorites.ts:38 | drops exactly the favorites of that pet and keeps each other favorite as often as it was held, in order |
| FavoritesHook.Toggle | hooks/useFavorites.ts:31-43 | a returned favorite goes in front and `isFavorite` holds: it is the new (user, pet) row with its looked-up pet, and the store gained exactly that row; `null` removes every favorite of the pet, the store has lost that pair's rows, and `isFavorite` fails; an error leaves the list alone |
| FavoritesHook.ToggleKeepsSync | hooks/useFavorites.ts:31-47 | from a list matching the store, a toggle keeps it matching, and `isFavorite` then agrees with the store's check |
| MessagesHook.Refetch | hooks/useMessages.ts:16-29 | a fetch holds the user's messages with the default limit, or keeps the list and shows the failure message |
| MessagesHook.Mount | hooks/useMessages.ts:10-14 | no fetch happens for an empty user; otherwise only the user's messages are held |
| MessagesHook.Append | hooks/useMessages.ts:34-39 | a stored message is appended after the unchanged list; a failed send changes nothing and returns the error |
| MessagesHook.SendUser | hooks/useMessages.ts:31-40 | a successful send appends the stored user message; a failed one changes nothing and returns the error |
| MessagesHook.SendAssistant | hooks/useMessages.ts:42-51 | the same for an assistant message |
| MessagesHook.SendKeepsEarlier | hooks/useMessages.ts:35-46 | a send keeps every earlier message where it was |
| MessagesHook.Clear | hooks/useMessages.ts:53-62 | the list is emptied only when the service reports no error |
| MessagesHook.ClearAgreesWithRefetch | hooks/useMessages.ts:53-62 | after a successful clear the empty list is what a refetch shows |
| PetsHook.Refetch | hooks/usePets.ts:14-27 | the whole filter goes to the service: a fetch holds the service's list as it is, each stored pet the filter admits as often as it is stored and no other; or it keeps the list and shows the failure message |
| PetsHook.Rerender | hooks/usePets.ts:10-12 | a new render refetches only when status, breed, gender or search changed, and otherwise keeps its list |
| PetsHook.PriceChangeKeepsStaleList | hooks/usePets.ts:10-12 | for any stored pet, raising the minimum price above its price does not refetch, so the pet stays listed although the new filter rejects it |
| PetsHook.MountPet | hooks/usePets.ts:32-56 | `usePet` starts null and loading, fetches only for a non-empty id, and then holds the pet with that id when it exists |
| Navigation.Render | App.tsx:26-57 | the details and form pages render nothing exactly when no pet is selected; otherwise they show the selected pet |
| Navigation.Step | App.tsx:16-57 | a callback the page lacks changes nothing; only selecting a pet changes the selection, opening its details; pages that need a pet keep having one |
| Navigation.SelectThenAdopt | App.tsx:16-24 | selecting a pet opens its details; adopting opens the form with the same pet |
| Navigation.BackAndForth | App.tsx:29-53 | back from details and from the AI chat goes home, back from the form returns to details, completion opens the profile, start-AI opens the chat, and none changes the selected pet |
| Navigation.AiChatOnlyGoesBack | App.tsx:53 | the AI chat page is handed `onSelectPet` but never calls it, so only Back leaves it |
| Navigation.SelectionNeverCleared | App.tsx:14-24 | once a pet is selected, a pet stays selected |
| Navigation.AlwaysRendersSomething | App.tsx:13-49 | from the start, whatever the user does, the details and form pages always have a pet to show |
| Navigation.StartIsGuarded | App.tsx:13-14 | the app starts on home with no selected pet |
| Catalog.CatalogWellFormed | constants.tsx:4-50 | the three catalog pets have distinct ids and are all 待领养 |
| AiChat.Reply | pages/AIChat.tsx:55-60 | the answer is the model's text, the apology when it is empty, or the network message when the call threw; never empty |
| AiChat.Begin | pages/AIChat.tsx:33-39 | send does nothing unless the input is non-blank and nothing is pending; otherwise it appends the raw input as a user entry, clears the input and sets typing |
| AiChat.Finish | pages/AIChat.tsx:55-61 | the settled call appends exactly one assistant entry and ends typing |
| AiChat.Exchange | pages/AIChat.tsx:33-61 | a whole send adds the user's entry then the answer, and asks the model with the prompt for the raw input |
| AiChat.Step | pages/AIChat.tsx:33-146 | the transcript only grows, by at most one entry; editing and tapping a suggestion leave the transcript and the pending flag alone; an answer with nothing pending changes nothing |
| AiChat.TapOnlyFillsInput | pages/AIChat.tsx:117-124 | tapping a suggestion only fills the input, which can then be sent |
| AiChat.StepKeepsShape | pages/AIChat.tsx:33-60 | any action keeps the transcript shaped: greeting first, then alternating non-blank user and non-empty assistant entries, typing exactly when the last entry is the user's |
| AiChat.RunKeepsShape | pages/AIChat.tsx:18-60 | any sequence of actions from a shaped chat keeps it shaped |
| AiChat.StartIsShaped | pages/AIChat.tsx:18-22 | the chat starts with the greeting alone |
| AiChat.QuickRepliesOnlyAtFirst | pages/AIChat.tsx:117 | in a shaped chat, suggestions show exactly until the first message is sent |
| AiChat.AskMentions | pages/AIChat.tsx:43-50 | for any list of pets, the prompt quotes the raw user text and contains every pet's line |
| AiChat.PromptMentions | pages/AIChat.tsx:43-50 | the prompt quotes the raw user text and holds one line per catalog pet, newline-joined in catalog order |
| Discovery.FilteredPets | pages/Discovery.tsx:52-59 | an order-preserving sub-list of the pets: exactly those matching both the search and the category, each as often as it occurs |
| Discovery.NoNarrowingShowsAll | pages/Discovery.tsx:52-58 | an empty search with 全部 shows every pet |
| Discovery.OtherCategoriesShowNothing | pages/Discovery.tsx:55-57 | a chip other than 全部, 狗狗 and 猫咪, such as 兔子 or 鸟类, shows nothing |
| Discovery.SearchIgnoresCase | pages/Discovery.tsx:53-54 | the search ignores case: a lower-cased query shows the same pets |
| Discovery.LunaIsCat | pages/Discovery.tsx:55-57 | Luna, a 英国短毛猫, is under 猫咪 and not under 狗狗 |
| Discovery.MaxIsDog | pages/Discovery.tsx:55-57 | Max, a 金毛寻回犬, is under 狗狗 and not under 猫咪 |
| Discovery.CharlieIsNeither | pages/Discovery.tsx:55-57 | Charlie, a 串串, is under neither 猫咪 nor 狗狗 |
| Discovery.CatsShowLuna | pages/Discovery.tsx:52-58 | on the catalog, 猫咪 shows only Luna |
| Discovery.DogsShowMax | pages/Discovery.tsx:52-58 | on the catalog, 狗狗 shows only Max |
| Discovery.Links | pages/Discovery.tsx:31-38 | the links are exactly the web sources of the chunks that have one, no more links than chunks |
| Discovery.LinksConcat | pages/Discovery.tsx:33-38 | the links follow chunk order |
| Discovery.BeginInsights | pages/Discovery.tsx:21 | starting the call shows the spinner and keeps the earlier insights |
| Discovery.SettleInsights | pages/Discovery.tsx:30-45 | an answer replaces the insights with its text and links; a throw keeps them; loading ends either way |
| Discovery.RenderPanel | pages/Discovery.tsx:146-175 | a spinner exactly while loading; otherwise the news with exactly its first two links (all of them when there are fewer), or the fallback when there is none |
| Discovery.InsightsLifecycle | pages/Discovery.tsx:18-45 | the panel spins during the call, then shows news exactly when the call answered, with the first two of its web sources in chunk order (all when there are fewer) |
| PetDetails.StoryPromptMentions | pages/PetDetails.tsx:21 | the story request names the pet, its breed and age, and quotes its description |
| PetDetails.BeginStory | pages/PetDetails.tsx:16-17 | starting generation shows the spinner and keeps the earlier story until the call settles |
| PetDetails.SettleStory | pages/PetDetails.tsx:15-30 | the story becomes the model's text, the fallback when it is empty, or the apology when the call threw; generation ends |
| PetDetails.RenderStory | pages/PetDetails.tsx:107-133 | a spinner exactly while generating; otherwise the story when there is one, else the invitation naming the pet |
| PetDetails.StoryLifecycle | pages/PetDetails.tsx:15-30 | generating shows the spinner, then a non-empty story that replaces any earlier one, and the generate button does not come back |
| PetDetails.StartsWithInvite | pages/PetDetails.tsx:12-13 | the card starts with the generate button and the invitation |
| AdoptionForm.Open | pages/AdoptionForm.tsx:17-28 | the form opens with empty text answers, 普通公寓, 租房 and 有过经验 chosen, nothing submitting and no error |
| AdoptionForm.Mount | pages/AdoptionForm.tsx:13-25 | the page asks useApplications for the fixed user user@example.com: the list it loads holds exactly that user's applications, each as often as stored, or stays empty with the list-failure message; the answers start at their defaults |
| AdoptionForm.Set | pages/AdoptionForm.tsx:88-227 | an edit changes the edited answer and no other |
| AdoptionForm.EditLaws | pages/AdoptionForm.tsx:88-227 | writing back an answer changes nothing, and a later edit of an input overrides an earlier one |
| AdoptionForm.PayloadRoundTrip | pages/AdoptionForm.tsx:249-258 | the payload is the pet's id with every answer copied verbatim |
| AdoptionForm.Submit | pages/AdoptionForm.tsx:244-268 | ignored while submitting; otherwise it completes exactly when the insert succeeds, storing the answers as a 审核中 application heading the hook's list; on failure it shows the service's message; submitting ends either way |
| AdoptionForm.SubmitNavigates | pages/AdoptionForm.tsx:260-262 | a successful submit leads to the profile with the same pet selected; a failed one stays on the form |
| Toasts.RemoveToast | components/Toast.tsx:109-111 | closing removes every toast with the id and keeps each other toast as often as it was shown, in order |
| Toasts.ShowToastAt | components/Toast.tsx:104-107 | the hook's show appends one toast with the clock reading as its id |
| Toasts.SameMillisecondCollides | components/Toast.tsx:104-111 | two toasts shown in the same millisecond share an id, and closing either closes both |
| Toasts.FreshId | components/Toast.tsx:105 | the corrected id is at least the clock reading and above every id in use |
| Toasts.ShowToast | components/Toast.tsx:104-107 | the corrected show appends exactly one toast of the given type and message and keeps ids unique |
| Toasts.ShowSuccess | components/Toast.tsx:116 | appends one success toast with the message, under an id no earlier toast has |
| Toasts.ShowError | components/Toast.tsx:117 | appends one error toast with the message, under an id no earlier toast has |
| Toasts.ShowWarning | components/Toast.tsx:118 | appends one warning toast with the message, under an id no earlier toast has |
| Toasts.ShowInfo | components/Toast.tsx:119 | appends one info toast with the message, under an id no earlier toast has |
| Toasts.CloseUndoesShow | components/Toast.tsx:104-111 | with corrected ids, closing the toast just shown restores the list |
| Toasts.CloseRemovesOne | components/Toast.tsx:109-111 | with unique ids, closing a toast removes exactly that entry |
| Toasts.RemoveKeepsUnique | components/Toast.tsx:109-111 | closing toasts keeps ids unique |
| Toasts.RunKeepsUnique | components/Toast.tsx:97-120 | any run of corrected shows and closes keeps ids unique |

## Left out

- Supabase client construction and its environment check (lib/supabase.ts):
  the store is the in-memory `Db`, and every call's outcome is a parameter.
- `createPet` and `deletePet` (services/petService.ts:84-105, 133-153): the
  app never calls them. Of `updatePet`, the model keeps the one update the app
  makes, setting a pet's status.
- PostgREST's exact semantics:
  - `ILIKE` is read as a case-insensitive substring test;
  - lower-casing (`toLowerCase` and ILIKE's case folding) covers ASCII letters only;
  - `contains` on tags means "every requested tag is present";
  - `.single()` treats zero rows and several rows alike.
- `PetService.GetRecommendedPets`, `MessageService.GetUserMessages`: `limit` is a `nat`. The model does not
  cover a negative or fractional limit.
- Failures of the per-row pet lookup inside the list reads of applications
  and favorites: each row's pet comes from the table. The single-item reads
  do take that lookup's outcome as a parameter.
- `updated_at` is not changed by an update. The store's triggers are not
  part of this model.
- A unique (user, pet) constraint on favorites: the model has none, as the
  client assumes none. `FavoriteService.DuplicatesOnlyGrow` shows what
  duplicates do.
- `toggleFavorite`'s own failure message 切换收藏状态失败: it is produced only
  when a callee throws, and the callees report every error in their result.
  The branch is therefore left out of `FavoriteService.ToggleFavorite`.
- `renderPage`'s default branch: `Page` is a datatype, so no unknown page
  exists.
- The tab bars: a tab may name any of home, discovery, messages and profile.
  Those are the only pages the tab bars of pages/Home.tsx, Discovery.tsx,
  Messages.tsx and Profile.tsx link to.
- Presentation: pages/Home.tsx, Messages.tsx and Profile.tsx;
  ErrorBoundary, LoadingSpinner; the Toast component's visibility timers;
  scrolling.
- `Toasts`: the 5000 ms display time is kept only as `ContainerDuration`; timers
  are not modelled.
- `AdoptionForm`: the `step` counter, which is never changed.
- Concurrency: every async call is one atomic step. Overlapping fetches,
  double toggles, and updates after unmount are not modelled, and neither is
  typing into the AI chat's input while an answer is pending beyond keeping
  what was typed.
- Generative-model content: a reply is an arbitrary string, and the grounded
  news answer is its text plus its chunks.
- `Catalog`: the pets carry no creation time in constants.tsx, so each gets
  `createdAt` 0. Their photo URLs are left empty: no behaviour depends on
  them.
- Toasts.ShowSuccess, Toasts.ShowError, Toasts.ShowWarning, Toasts.ShowInfo:
  the four shortcuts call the corrected show, so their ids never collide. As
  written they call `showToast` and take the clock reading as the id, which
  `Toasts.ShowToastAt` models.
- `Toasts`: ids are `Date.now().toString()` in the source and clock readings
  (`nat`) here. Decimal rendering is injective, so comparing ids is unaffected.
- scripts/init-db.js and scripts/run-migrations.js: operator I/O.
- types.ts: an older duplicate of types-extended.ts.

## Findings

| source | as written | input that shows it | evidently intended | confidence | as-written member | corrected member |
|---|---|---|---|---|---|---|
| components/Toast.tsx:105 | a toast's id is `Date.now().toString()`, and `removeToast` removes every toast with that id | two toasts shown in the same millisecond, e.g. a success and an error at clock 7: both get id "7", React sees duplicate keys, and closing either removes both | every toast has its own id, so closing one removes only that one | not executed | Toasts.SameMillisecondCollides | Toasts.CloseUndoesShow |

The corrected `Toasts.ShowToast` uses the clock reading when it is newer
than every id in use, and otherwise one past the largest id.
`Toasts.RunKeepsUnique` proves that ids then stay unique, and
`Toasts.CloseRemovesOne` proves that closing removes exactly one toast.

Two behaviours of the source look unintended but are not counted as
findings:

- A favorite pair stored twice can never be removed by toggling:
  `FavoriteService.DuplicatesOnlyGrow`.
- `usePets` keeps a stale list when only the price bounds or the tags change:
  `PetsHook.PriceChangeKeepsStaleList`.

=== FILE: adoption_form.dfy ===
/**
 * The adoption form (pages/AdoptionForm.tsx): the applicant's answers,
 * their submission through useApplications, and the page's reaction to the
 * outcome.
 */
module AdoptionForm {
  import opened Wrappers
  import opened Types
  import opened Store
  import ApplicationService
  import ApplicationsHook
  import Navigation

  /** The form always applies as this user. */
  const FormUser: string := "user@example.com"

  /** Shown when a failed submission carries no message. */
  const SubmitFallback: string := "提交失败,请重试"

  /** The choices the form's select and radio groups offer. */
  const HouseTypes: seq<string> := ["普通公寓", "独栋房屋", "住宅小区", "联排别墅"]
  const OwnershipTypes: seq<string> := ["租房", "自有"]
  const Experiences: seq<string> := ["首次养宠", "有过经验", "现有宠物"]

  /** `formData`: every answer is free text as far as the page is concerned;
      nothing is validated before submission. */
  datatype Fields = Fields(
    userName: string,
    userEmail: string,
    userPhone: string,
    houseType: string,
    ownershipType: string,
    experience: string,
    reason: string)

  /** Blank contact fields and reason; the first house type, renting, and
      some experience preselected. */
  const DefaultFields := Fields("", "", "", HouseTypes[0], OwnershipTypes[0], Experiences[1], "")

  /** The input each `onChange` handler writes. */
  datatype Field = UserName | UserEmail | UserPhone | HouseType | Ownership | Experience | Reason

  function Get(f: Fields, which: Field): string {
    match which
    case UserName => f.userName
    case UserEmail => f.userEmail
    case UserPhone => f.userPhone
    case HouseType => f.houseType
    case Ownership => f.ownershipType
    case Experience => f.experience
    case Reason => f.reason
  }

  /** `setFormData({ ...formData, [field]: value })`: the edited answer
      changes and no other. */
  function Set(f: Fields, which: Field, value: string): (r: Fields)
    ensures Get(r, which) == value
    ensures forall other :: other != which ==> Get(r, other) == Get(f, other)
  {
    match which
    case UserName => f.(userName := value)
    case UserEmail => f.(userEmail := value)
    case UserPhone => f.(userPhone := value)
    case HouseType => f.(houseType := value)
    case Ownership => f.(ownershipType := value)
    case Experience => f.(experience := value)
    case Reason => f.(reason := value)
  }

  /** Writing back what an input already holds changes nothing, and a later
      edit of the same input overrides an earlier one. */
  lemma EditLaws(f: Fields, which: Field, v: string, w: string)
    ensures Set(f, which, Get(f, which)) == f
    ensures Set(Set(f, which, v), which, w) == Set(f, which, w)
  {
  }

  /** The payload passed to `createApplication`. */
  function Payload(pet: Pet, f: Fields): AdoptionFormData {
    AdoptionFormData(pet.id, f.userName, f.userEmail, f.userPhone, f.houseType, f.ownershipType, f.experience, f.reason)
  }

  /** The answers a payload carries. */
  function FieldsOf(d: AdoptionFormData): Fields {
    Fields(d.userName, d.userEmail, d.userPhone, d.houseType, d.ownershipType, d.experience, d.reason)
  }

  /** The payload is the pet's id with every answer copied verbatim: the
      answers read back unchanged, and a payload for the pet is determined by
      its answers. */
  lemma PayloadRoundTrip(pet: Pet, f: Fields, d: AdoptionFormData)
    ensures FieldsOf(Payload(pet, f)) == f && Payload(pet, f).petId == pet.id
    ensures d.petId == pet.id ==> Payload(pet, FieldsOf(d)) == d
  {
  }

  /** The page state: answers, `isSubmitting`, `submitError`, and the
      application list useApplications keeps for the form's user. */
  datatype FormState = FormState(
    fields: Fields,
    submitting: bool,
    error: Option<string>,
    apps: ApplicationsHook.ListState)

  /** The page opens with empty text answers, the first house and ownership
      choices, the middle experience choice, nothing submitting and no
      error. */
  function Open(apps: ApplicationsHook.ListState): (s: FormState)
    ensures s.fields.userName == "" && s.fields.userEmail == "" && s.fields.userPhone == "" && s.fields.reason == ""
    ensures s.fields.houseType == HouseTypes[0] && s.fields.ownershipType == OwnershipTypes[0]
    ensures s.fields.experience == Experiences[1]
    ensures !s.submitting && s.error.None? && s.apps == apps
  {
    FormState(DefaultFields, false, None, apps)
  }

  /** The page as it mounts: the default answers, and useApplications
      called for the fixed user, so the list it loads holds exactly that
      user's applications, each as often as it is stored. */
  function Mount(db: Db, fault: Option<StoreError>): (s: FormState)
    ensures s.fields == DefaultFields && !s.submitting && s.error.None? && !s.apps.loading
    ensures fault.None? ==> s.apps.error.None?
    ensures fault.None? ==>
              forall a :: multiset(ApplicationService.RowsOf(s.apps.value))[a] ==
                (if a.userEmail == FormUser then multiset(db.applications)[a] else 0)
    ensures fault.Some? ==> s.apps.value == [] && s.apps.error == Some(ApplicationService.ListFailed)
  {
    Open(ApplicationsHook.Mount(db, Some(FormUser), fault))
  }

  /** The 继续 button. It is disabled while a submission is running, so a
      click then does nothing. Otherwise the answers are submitted; on
      success the page completes, and on failure it shows the error's
      message, or the fallback when the message is empty. Either way
      submitting ends. The answers are never reset. */
  function Submit(s: FormState, db: Db, pet: Pet, newId: string, now: int,
                  insertFault: Option<StoreError>, updateFault: Option<StoreError>,
                  petFault: Option<StoreError>): (res: (Db, FormState, bool))
    ensures s.submitting ==> res == (db, s, false)
    ensures !s.submitting ==> (res.2 <==> insertFault.None? && !IdTaken(db.applications, ApplicationId, newId))
    ensures !res.1.submitting || s.submitting
    ensures res.1.fields == s.fields
    ensures !s.submitting && res.2 ==>
              && res.1.error.None?
              && |res.0.applications| == |db.applications| + 1
              && res.0.applications[..|db.applications|] == db.applications
              && res.0.applications[|db.applications|].status == InReview
              && ApplicationService.FormOf(res.0.applications[|db.applications|]) == Payload(pet, s.fields)
              && |res.1.apps.value| == |s.apps.value| + 1
              && res.1.apps.value[0].row == res.0.applications[|db.applications|]
    ensures !s.submitting && !res.2 ==>
              res.0 == db && res.1.apps == s.apps && res.1.error == Some(ApplicationService.CreateFailed)
  {
    if s.submitting then (db, s, false)
    else
      var (db', apps', outcome) :=
        ApplicationsHook.Create(s.apps, db, Payload(pet, s.fields), newId, now, insertFault, updateFault, petFault);
      if outcome.Success? then
        assert db'.applications[..|db.applications|] == db.applications;
        (db', FormState(s.fields, false, None, apps'), true)
      else
        (db', FormState(s.fields, false, Some(OrElse(outcome.error.message, SubmitFallback)), apps'), false)
  }

  /** A successful submission from the form page leads to the profile page
      with the same pet still selected; a failed one stays on the form. */
  lemma SubmitNavigates(s: FormState, db: Db, pet: Pet, newId: string, now: int,
                        insertFault: Option<StoreError>, updateFault: Option<StoreError>,
                        petFault: Option<StoreError>)
    requires !s.submitting
    ensures var here := Navigation.AppState(Form, Some(pet));
            var completed := Submit(s, db, pet, newId, now, insertFault, updateFault, petFault).2;
            var next := if completed then Navigation.Step(here, Navigation.Complete) else here;
            && (completed ==> next == Navigation.AppState(Profile, Some(pet)))
            && (!completed ==> Navigation.Render(next) == Navigation.FormView(pet))
  {
  }
}

=== FILE: ai_chat.dfy ===
/**
 * The AI matching chat (pages/AIChat.tsx): a transcript that opens with the
 * assistant's greeting, an input box, and a send that appends the user's
 * text, asks the generative model about the catalog pets, and appends its
 * answer.
 */
module AiChat {
  import opened Wrappers
  import opened Types
  import Text
  import Catalog

  /** One bubble of the transcript. */
  datatype Entry = Entry(role: Role, content: string)

  const Greeting: string := "您好！我是您的 AI 领养助手。告诉我您的居住环境、生活节奏以及对理想伙伴的期待，我会为您推荐最合适的毛孩子！"

  /** Shown when the model answers with no text. */
  const EmptyReply: string := "抱歉，我刚才走神了，能再说一遍吗？"

  /** Shown when the call throws. */
  const FailedReply: string := "连接服务器失败，请检查您的网络。"

  /** The three suggestions offered before the first exchange. */
  const QuickReplies: seq<string> := ["我想要一只活泼的狗", "有没有适合公寓养的猫？", "我平时工作很忙"]

  /** `messages`, `inputValue`, `isTyping`. */
  datatype Chat = Chat(transcript: seq<Entry>, input: string, typing: bool)

  const Start := Chat([Entry(Assistant, Greeting)], "", false)

  /** The send button is enabled, and Enter sends, only for an input that
      is not blank while no answer is pending. */
  predicate CanSend(c: Chat) {
    Text.Trim(c.input) != "" && !c.typing
  }

  /** One catalog pet as the prompt describes it. */
  function PetLine(p: Pet): string {
    "- " + p.name + ": " + p.breed + ", " + p.age + ", 性格: " + p.description
  }

  /** The catalog, one pet per line. */
  function PetContext(pets: seq<Pet>): string {
    Text.Join(seq(|pets|, i requires 0 <= i < |pets| => PetLine(pets[i])), "\n")
  }

  const PromptOpening: string := "你是一个专业的宠物领养助手。现有以下宠物待领养：\n"
  const PromptQuoteOpen: string := "\n\n用户说：\""
  const PromptClosing: string := "\"\n\n请以亲切、专业的口吻回复。如果用户提到生活习惯，请从现有宠物中推荐最合适的一只，并解释原因。如果没有合适的推荐，请给予温馨的建议。回复请尽量简短。"

  /** The single user turn asking about `pets` for the message `userMsg`. */
  function Ask(pets: seq<Pet>, userMsg: string): string {
    PromptOpening + PetContext(pets) + PromptQuoteOpen + userMsg + PromptClosing
  }

  /** The prompt the page sends: it always describes the catalog. */
  function Prompt(userMsg: string): string {
    Ask(Catalog.MockPets, userMsg)
  }

  /** The assistant's answer: the model's text, a fixed apology when the
      text is empty, or a fixed network message when the call threw. */
  function Reply(g: Generation): (r: string)
    ensures r != ""
    ensures g.Replied? && g.text != "" ==> r == g.text
    ensures g.Replied? && g.text == "" ==> r == EmptyReply
    ensures g.Threw? ==> r == FailedReply
  {
    match g
    case Replied(text) => OrElse(text, EmptyReply)
    case Threw => FailedReply
  }

  /** The first half of `handleSend`: ignored unless the chat can send;
      otherwise the raw input (not trimmed) becomes a user entry, the input
      is cleared and the answer is pending. */
  function Begin(c: Chat): (r: Chat)
    ensures !CanSend(c) ==> r == c
    ensures CanSend(c) ==> r.typing && r.input == "" && |r.transcript| == |c.transcript| + 1
    ensures CanSend(c) ==> (r.transcript[..|c.transcript|] == c.transcript
                            && r.transcript[|c.transcript|] == Entry(User, c.input))
  {
    if !CanSend(c) then c
    else Chat(c.transcript + [Entry(User, c.input)], "", true)
  }

  /** The second half: the answer is appended and nothing is pending. The
      input box stays usable while waiting, so whatever was typed meanwhile
      is kept. */
  function Finish(c: Chat, g: Generation): (r: Chat)
    ensures !r.typing && r.input == c.input
    ensures r.transcript == c.transcript + [Entry(Assistant, Reply(g))]
  {
    Chat(c.transcript + [Entry(Assistant, Reply(g))], c.input, false)
  }

  /** A whole `handleSend` with no edit while waiting: the prompt sent to
      the model and the chat after its answer. */
  function Exchange(c: Chat, g: Generation): (r: (Chat, Option<string>))
    ensures !CanSend(c) ==> r == (c, None)
    ensures CanSend(c) ==> && r.1 == Some(Prompt(c.input))
                           && r.0.transcript == c.transcript + [Entry(User, c.input), Entry(Assistant, Reply(g))]
                           && !r.0.typing && r.0.input == ""
  {
    if !CanSend(c) then (c, None) else (Finish(Begin(c), g), Some(Prompt(c.input)))
  }

  /** The quick replies are shown while nothing is pending and the
      transcript is shorter than three entries. */
  predicate ShowsQuickReplies(c: Chat) {
    !c.typing && |c.transcript| < 3
  }

  /** What the user (and the model's answer) can do on the page. */
  datatype Action =
    | Edit(text: string)      // typing into the input box
    | TapQuickReply(i: nat)   // one of the suggestions
    | Send                    // the send button or Enter
    | Answer(g: Generation)   // the pending model call settles

  /** One action. The transcript only grows, by at most one entry; editing
      and tapping a suggestion never touch it or the pending flag. */
  function Step(c: Chat, a: Action): (r: Chat)
    ensures |c.transcript| <= |r.transcript| <= |c.transcript| + 1
    ensures r.transcript[..|c.transcript|] == c.transcript
    ensures a.Edit? || a.TapQuickReply? ==> r.transcript == c.transcript && r.typing == c.typing
    ensures a.Answer? && !c.typing ==> r == c
  {
    match a
    case Edit(text) => c.(input := text)
    case TapQuickReply(i) =>
      if ShowsQuickReplies(c) && i < |QuickReplies| then c.(input := QuickReplies[i]) else c
    case Send => Begin(c)
    case Answer(g) => if c.typing then Finish(c, g) else c
  }

  /** None of the suggestions is blank. */
  lemma QuickRepliesVisible()
    ensures forall i :: 0 <= i < |QuickReplies| ==> Text.Trim(QuickReplies[i]) != ""
  {
    Text.VisibleFirstNotBlank(QuickReplies[0]);
    Text.VisibleFirstNotBlank(QuickReplies[1]);
    Text.VisibleFirstNotBlank(QuickReplies[2]);
  }

  /** Tapping a suggestion only fills the input box: nothing is sent. */
  lemma TapOnlyFillsInput(c: Chat, i: nat)
    requires ShowsQuickReplies(c) && i < |QuickReplies|
    ensures Step(c, TapQuickReply(i)) == c.(input := QuickReplies[i])
    ensures Step(c, TapQuickReply(i)).transcript == c.transcript
    ensures CanSend(Step(c, TapQuickReply(i)))
  {
    QuickRepliesVisible();
  }

  /** What entry `i` of a well-shaped transcript looks like: the greeting
      first, then user entries at odd positions, never blank, and assistant
      entries at even positions, never empty. */
  predicate EntryFits(i: nat, e: Entry) {
    if i == 0 then e == Entry(Assistant, Greeting)
    else if i % 2 == 1 then e.role == User && Text.Trim(e.content) != ""
    else e.role == Assistant && e.content != ""
  }

  /** The transcript is the greeting followed by alternating user and
      assistant entries, and an answer is pending exactly when the last
      entry is the user's. */
  predicate Shaped(c: Chat) {
    && |c.transcript| >= 1
    && (forall i :: 0 <= i < |c.transcript| ==> EntryFits(i, c.transcript[i]))
    && (c.typing <==> |c.transcript| % 2 == 0)
  }

  /** Appending an entry that fits the next position keeps every entry
      fitting its position. */
  lemma AppendFits(t: seq<Entry>, e: Entry)
    requires forall i :: 0 <= i < |t| ==> EntryFits(i, t[i])
    requires EntryFits(|t|, e)
    ensures forall i :: 0 <= i < |t + [e]| ==> EntryFits(i, (t + [e])[i])
  {
    forall i | 0 <= i < |t + [e]| ensures EntryFits(i, (t + [e])[i]) {
      if i < |t| {
        assert (t + [e])[i] == t[i];
      }
    }
  }

  /** A send extends a well-shaped chat with a non-blank user entry. */
  lemma BeginKeepsShape(c: Chat)
    requires Shaped(c)
    ensures Shaped(Begin(c))
  {
    if CanSend(c) {
      var n := |c.transcript|;
      var e := Entry(User, c.input);
      assert n % 2 == 1;
      assert EntryFits(n, e);
      AppendFits(c.transcript, e);
      assert Begin(c) == Chat(c.transcript + [e], "", true);
    }
  }

  /** An answer completes the pending exchange. */
  lemma FinishKeepsShape(c: Chat, g: Generation)
    requires Shaped(c) && c.typing
    ensures Shaped(Finish(c, g))
  {
    var n := |c.transcript|;
    assert n % 2 == 0 && n != 0;
    AppendFits(c.transcript, Entry(Assistant, Reply(g)));
  }

  lemma StepKeepsShape(c: Chat, a: Action)
    requires Shaped(c)
    ensures Shaped(Step(c, a))
  {
    match a
    case Send => BeginKeepsShape(c);
    case Answer(g) => if c.typing { FinishKeepsShape(c, g); }
    case _ =>
  }

  function Run(c: Chat, actions: seq<Action>): Chat
    decreases |actions|
  {
    if |actions| == 0 then c else Run(Step(c, actions[0]), actions[1..])
  }

  /** Whatever the user does from the opening state, the transcript keeps
      its shape. */
  lemma {:induction false} RunKeepsShape(c: Chat, actions: seq<Action>)
    requires Shaped(c)
    ensures Shaped(Run(c, actions))
    decreases |actions|
  {
    if |actions| > 0 {
      StepKeepsShape(c, actions[0]);
      RunKeepsShape(Step(c, actions[0]), actions[1..]);
    }
  }

  lemma StartIsShaped()
    ensures Shaped(Start)
  {
  }

  /** In a well-shaped chat the suggestions are shown exactly until the
      first message is sent. */
  lemma QuickRepliesOnlyAtFirst(c: Chat)
    requires Shaped(c)
    ensures ShowsQuickReplies(c) <==> |c.transcript| == 1
  {
  }

  /** A prompt quotes the raw user text and describes every pet. */
  lemma AskMentions(pets: seq<Pet>, userMsg: string)
    ensures Text.Contains(Ask(pets, userMsg), PromptQuoteOpen + userMsg + PromptClosing)
    ensures forall i :: 0 <= i < |pets| ==> Text.Contains(Ask(pets, userMsg), PetLine(pets[i]))
  {
    var ctx := PetContext(pets);
    var rest := PromptQuoteOpen + userMsg + PromptClosing;
    assert Ask(pets, userMsg) == PromptOpening + ctx + rest;
    Text.ContainsInfix(PromptOpening + ctx, rest, "");
    assert PromptOpening + ctx + rest + "" == Ask(pets, userMsg);
    var lines := seq(|pets|, i requires 0 <= i < |pets| => PetLine(pets[i]));
    forall i | 0 <= i < |pets|
      ensures Text.Contains(Ask(pets, userMsg), PetLine(pets[i]))
    {
      Text.JoinContainsEach(lines, "\n", i);
      Text.ContainsPrepend(PromptOpening, ctx, PetLine(pets[i]));
      Text.ContainsAppend(PromptOpening + ctx, rest, PetLine(pets[i]));
    }
  }

  /** Three pets are described on three lines, in order. */
  lemma ContextOfThree(a: Pet, b: Pet, c: Pet)
    ensures PetContext([a, b, c]) == PetLine(a) + "\n" + PetLine(b) + "\n" + PetLine(c)
  {
    var lines := seq(3, i requires 0 <= i < 3 => PetLine([a, b, c][i]));
    assert lines == [PetLine(a), PetLine(b), PetLine(c)];
    assert lines[1..][1..] == [PetLine(c)];
    assert Text.Join(lines[1..][1..], "\n") == PetLine(c);
    assert Text.Join(lines[1..], "\n") == PetLine(b) + "\n" + PetLine(c);
  }

  /** The prompt the page sends quotes the raw user text and holds one line
      per catalog pet, joined by newlines in catalog order. */
  lemma PromptMentions(userMsg: string)
    ensures Text.Contains(Prompt(userMsg), PromptQuoteOpen + userMsg + PromptClosing)
    ensures forall i :: 0 <= i < |Catalog.MockPets| ==> Text.Contains(Prompt(userMsg), PetLine(Catalog.MockPets[i]))
    ensures PetContext(Catalog.MockPets) ==
              PetLine(Catalog.Luna) + "\n" + PetLine(Catalog.Max) + "\n" + PetLine(Catalog.Charlie)
  {
    AskMentions(Catalog.MockPets, userMsg);
    ContextOfThree(Catalog.Luna, Catalog.Max, Catalog.Charlie);
  }
}

=== FILE: application_service.dfy ===
/**
 * ApplicationService (services/applicationService.ts): adoption
 * applications. Every application a read returns carries the pet it
 * refers to (looked up separately, absent when that lookup fails) and a
 * progress percentage derived from its status.
 */
module ApplicationService {
  import opened Wrappers
  import opened Types
  import opened Store
  import Seqs
  import PetService

  const ListFailed := "获取申请列表失败"
  const DetailFailed := "获取申请详情失败"
  const CreateFailed := "创建申请失败"
  const UpdateFailed := "更新申请状态失败"
  const DeleteFailed := "删除申请失败"

  /** `calculateProgress(status)`: how far along an application is, in
      percent. It takes any string; one that is not an application status
      has progress 0, like a rejected application. */
  function CalculateProgress(status: string): (r: int)
    ensures 0 <= r <= 100
    ensures r == 0 <==> ParseAppStatus(status) == None || ParseAppStatus(status) == Some(Rejected)
    ensures r == 100 <==> ParseAppStatus(status) == Some(Completed)
  {
    if status == "审核中" then 50
    else if status == "已通过" then 75
    else if status == "已完成" then 100
    else if status == "已拒绝" then 0
    else 0
  }

  /** The progress of an application in a given status. */
  function Progress(s: AppStatus): int {
    CalculateProgress(AppStatusLabel(s))
  }

  /** Reads a status back from a progress value; 0 is ambiguous (rejected,
      or not a status at all) and reads back as nothing. */
  function StatusAtProgress(n: int): (r: Option<AppStatus>)
    ensures r.Some? ==> r.value != Rejected
  {
    if n == 50 then Some(InReview)
    else if n == 75 then Some(Approved)
    else if n == 100 then Some(Completed)
    else None
  }

  /** Progress rises along the review pipeline — 50, 75, 100 — and
      identifies every status except 已拒绝, which shares 0 with any
      unknown string. */
  lemma ProgressIdentifiesStatus(s: AppStatus)
    ensures Progress(InReview) == 50 && Progress(Approved) == 75 && Progress(Completed) == 100
    ensures Progress(Rejected) == 0
    ensures s != Rejected ==> StatusAtProgress(Progress(s)) == Some(s)
    ensures s == Rejected ==> StatusAtProgress(Progress(s)) == None
  {
  }

  /** The optional filters of `getAllApplications`. */
  datatype ApplicationFilter = ApplicationFilter(userId: Option<string>, status: Option<string>)

  /** The row passes the filters: a given (non-empty) user id must equal the
      applicant's e-mail, and a given status must equal the row's status. */
  predicate Wanted(filters: Option<ApplicationFilter>, a: ApplicationRow) {
    filters.None? ||
    var f := filters.value;
    && (f.userId.Some? && f.userId.value != "" ==> a.userEmail == f.userId.value)
    && (f.status.Some? && f.status.value != "" ==> AppStatusLabel(a.status) == f.status.value)
  }

  /** `{ ...row, pet, progress }`, where `pet` is the data of a
      `getPetById` call that may fail with `petFault`. */
  function Attach(db: Db, row: ApplicationRow, petFault: Option<StoreError>): (a: Application)
    ensures a.row == row && a.progress == Progress(row.status)
    ensures a.pet == (if petFault.Some? then None else LookupPet(db, row.petId))
  {
    var pet := DataOf(PetService.GetPetById(db, row.petId, petFault));
    Application(row, pet, CalculateProgress(AppStatusLabel(row.status)))
  }

  /** The rows of a list of applications. */
  function RowsOf(apps: seq<Application>): seq<ApplicationRow> {
    Seqs.Map(apps, (a: Application) => a.row)
  }

  /** The filters, as a test of one row. */
  function WantedBy(filters: Option<ApplicationFilter>): ApplicationRow -> bool {
    (a: ApplicationRow) => Wanted(filters, a)
  }

  /** The rows `getAllApplications` selects, newest first: each wanted row
      as often as it is stored, and no other. */
  function SelectedRows(db: Db, filters: Option<ApplicationFilter>): (r: seq<ApplicationRow>)
    ensures forall a :: a in r <==> a in db.applications && Wanted(filters, a)
    ensures forall a :: multiset(r)[a] == if Wanted(filters, a) then multiset(db.applications)[a] else 0
    ensures forall i, j :: 0 <= i < j < |r| ==> r[i].createdAt >= r[j].createdAt
  {
    var rows := Seqs.Filter(db.applications, WantedBy(filters));
    var r := NewestFirst(rows, (a: ApplicationRow) => a.createdAt);
    forall a ensures multiset(r)[a] == if Wanted(filters, a) then multiset(db.applications)[a] else 0 {
      Seqs.FilterCount(db.applications, WantedBy(filters), a);
    }
    assert forall a :: a in r <==> a in multiset(rows);
    r
  }

  /** `getAllApplications(filters)`: the rows the filters keep, newest
      first, none dropped for a missing pet; each carries its pet (when
      the store has exactly one with that id) and its progress. A store
      error comes back under this method's message. */
  function GetAllApplications(db: Db, filters: Option<ApplicationFilter>, fault: Option<StoreError>): (r: ApiResponse<seq<Application>>)
    ensures fault.Some? ==> r.Err? && r.error.message == ListFailed && r.error.details == fault.value
    ensures fault.None? ==> r.Ok?
    ensures r.Ok? ==> forall a :: a in RowsOf(r.data) <==> a in db.applications && Wanted(filters, a)
    ensures r.Ok? ==> forall a :: multiset(RowsOf(r.data))[a] == if Wanted(filters, a) then multiset(db.applications)[a] else 0
    ensures r.Ok? ==> forall i, j :: 0 <= i < j < |r.data| ==> r.data[i].row.createdAt >= r.data[j].row.createdAt
    ensures r.Ok? ==> forall i :: 0 <= i < |r.data| ==>
              r.data[i].progress == Progress(r.data[i].row.status) && r.data[i].pet == LookupPet(db, r.data[i].row.petId)
  {
    match fault
    case Some(e) => Fail(ListFailed, e)
    case None =>
      Ok(AttachAll(db, SelectedRows(db, filters)))
  }

  /** Each row with its pet and progress, in order. */
  function AttachAll(db: Db, rows: seq<ApplicationRow>): (apps: seq<Application>)
    ensures RowsOf(apps) == rows
    ensures forall i :: 0 <= i < |apps| ==>
              && apps[i].row == rows[i] && apps[i].progress == Progress(rows[i].status)
              && apps[i].pet == LookupPet(db, rows[i].petId)
  {
    var apps := seq(|rows|, i requires 0 <= i < |rows| => Attach(db, rows[i], None));
    assert RowsOf(apps) == rows;
    apps
  }

  /** The single application row with id `id`. */
  function LookupApplication(db: Db, id: string): Option<ApplicationRow> {
    Single(db.applications, ApplicationId, id)
  }

  /** `getApplicationById(id)`: the application when exactly one row has
      that id, with its pet and progress; otherwise the store's "no rows"
      error under this method's message. */
  function GetApplicationById(db: Db, id: string, fault: Option<StoreError>, petFault: Option<StoreError>): (r: ApiResponse<Application>)
    ensures r.Ok? || r.Err?
    ensures r.Ok? <==> fault.None? && |WithId(db.applications, ApplicationId, id)| == 1
    ensures r.Ok? ==> r.data.row in db.applications && r.data.row.id == id && r.data.progress == Progress(r.data.row.status)
    ensures r.Ok? ==> r.data.pet == (if petFault.Some? then None else LookupPet(db, r.data.row.petId))
    ensures r.Err? ==> r.error.message == DetailFailed
    ensures r.Err? && fault.None? ==> r.error.code == NoRowsCode
  {
    match fault
    case Some(e) => Fail(DetailFailed, e)
    case None =>
      match LookupApplication(db, id)
      case Some(row) => Ok(Attach(db, row, petFault))
      case None => Fail(DetailFailed, NoRows)
  }

  /** The row `createApplication` inserts: the form's fields verbatim and the
      status 审核中, whatever the form holds. */
  function NewRow(form: AdoptionFormData, id: string, now: int): ApplicationRow {
    ApplicationRow(id, form.petId, form.userName, form.userEmail, form.userPhone,
      form.houseType, form.ownershipType, form.experience, form.reason, InReview, now, now)
  }

  /** The form data an application row was made from. */
  function FormOf(a: ApplicationRow): AdoptionFormData {
    AdoptionFormData(a.petId, a.userName, a.userEmail, a.userPhone,
      a.houseType, a.ownershipType, a.experience, a.reason)
  }

  /** `createApplication(formData)`. The store assigns the id `newId` and
      the time `now`; `insertFault`, `updateFault` and `petFault` are the
      outcomes of the insert, of `updatePet` and of `getPetById`. Only the
      insert can fail the call: then nothing changes. After the insert the
      pet is set to 审核中 when that update succeeds; its error is dropped. */
  function CreateApplication(db: Db, form: AdoptionFormData, newId: string, now: int,
                             insertFault: Option<StoreError>, updateFault: Option<StoreError>,
                             petFault: Option<StoreError>): (res: (Db, ApiResponse<Application>))
    ensures res.1.Ok? || res.1.Err?
    ensures res.1.Ok? <==> insertFault.None? && !IdTaken(db.applications, ApplicationId, newId)
    ensures res.1.Err? ==> res.0 == db && res.1.error.message == CreateFailed
    ensures res.1.Err? && insertFault.None? ==> res.1.error.code == UniqueViolationCode
    ensures res.1.Ok? ==>
              && res.1.data.row.status == InReview && res.1.data.progress == 50
              && FormOf(res.1.data.row) == form && res.1.data.row.id == newId
              && res.1.data.row.createdAt == now && res.1.data.row.updatedAt == now
              && res.0.applications == db.applications + [res.1.data.row]
              && res.0.favorites == db.favorites && res.0.messages == db.messages
    ensures res.1.Ok? ==> res.1.data.pet == (if petFault.Some? then None else LookupPet(res.0, form.petId))
    ensures res.1.Ok? ==> |res.0.pets| == |db.pets| && forall i :: 0 <= i < |db.pets| ==>
              res.0.pets[i] == (if db.pets[i].id == form.petId && updateFault.None? && LookupPet(db, form.petId).Some?
                                then db.pets[i].(status := UnderReview) else db.pets[i])
  {
    if insertFault.Some? then (db, Fail(CreateFailed, insertFault.value))
    else if IdTaken(db.applications, ApplicationId, newId) then (db, Fail(CreateFailed, UniqueViolation))
    else
      var row := NewRow(form, newId, now);
      var inserted := db.(applications := db.applications + [row]);
      assert PetsWithId(inserted, form.petId) == PetsWithId(db, form.petId);
      var updated := PetService.UpdatePetStatus(inserted, form.petId, UnderReview, updateFault).0;
      var pet := DataOf(PetService.GetPetById(updated, form.petId, petFault));
      (updated, Ok(Application(row, pet, CalculateProgress("审核中"))))
  }

  /** `updateApplicationStatus(id, status)`: when exactly one row has the
      id, its status (and nothing else, in no other row) becomes `status`
      and the returned progress is that of the new status; otherwise
      nothing changes and the error comes back under this method's
      message. */
  function UpdateApplicationStatus(db: Db, id: string, status: AppStatus, fault: Option<StoreError>,
                                   petFault: Option<StoreError>): (res: (Db, ApiResponse<Application>))
    ensures res.1.Ok? || res.1.Err?
    ensures res.1.Ok? <==> fault.None? && LookupApplication(db, id).Some?
    ensures res.1.Err? ==> res.0 == db && res.1.error.message == UpdateFailed
    ensures res.1.Ok? ==>
              && res.1.data.row == LookupApplication(db, id).value.(status := status)
              && res.1.data.progress == Progress(status)
              && res.1.data.pet == (if petFault.Some? then None else LookupPet(db, res.1.data.row.petId))
              && res.0 == db.(applications := res.0.applications)
              && |res.0.applications| == |db.applications|
              && forall i :: 0 <= i < |db.applications| ==>
                   res.0.applications[i] == (if db.applications[i].id == id
                                             then db.applications[i].(status := status) else db.applications[i])
  {
    match fault
    case Some(e) => (db, Fail(UpdateFailed, e))
    case None =>
      match LookupApplication(db, id)
      case Some(row) =>
        var updated := db.(applications := UpdateWithId(db.applications, ApplicationId, id,
                                                        (a: ApplicationRow) => a.(status := status)));
        assert PetsWithId(updated, row.petId) == PetsWithId(db, row.petId);
        var pet := DataOf(PetService.GetPetById(updated, row.petId, petFault));
        (updated, Ok(Application(row.(status := status), pet, CalculateProgress(AppStatusLabel(status)))))
      case None => (db, Fail(UpdateFailed, NoRows))
  }

  /** `deleteApplication(id)`: removes every row with that id (none is not
      an error) and answers `{}`; a store error changes nothing. */
  function DeleteApplication(db: Db, id: string, fault: Option<StoreError>): (res: (Db, ApiResponse<()>))
    ensures fault.Some? ==> res.0 == db && res.1.Err? && res.1.error.message == DeleteFailed
    ensures fault.None? ==> res.1.NoContent?
    ensures res.0 == db.(applications := res.0.applications)
    ensures Seqs.IsSubsequence(res.0.applications, db.applications)
    ensures fault.None? ==> forall a :: a in res.0.applications <==> a in db.applications && a.id != id
    ensures fault.None? ==> forall a :: multiset(res.0.applications)[a] == if a.id != id then multiset(db.applications)[a] else 0
  {
    match fault
    case Some(e) =>
      Seqs.SubsequenceReflexive(db.applications);
      (db, Fail(DeleteFailed, e))
    case None =>
      var keep := (a: ApplicationRow) => a.id != id;
      Seqs.FilterIsSubsequence(db.applications, keep);
      forall a ensures multiset(Seqs.Filter(db.applications, keep))[a] == if a.id != id then multiset(db.applications)[a] else 0 {
        Seqs.FilterCount(db.applications, keep, a);
      }
      (db.(applications := Seqs.Filter(db.applications, keep)), NoContent)
  }

  /** A created application can be read back by its id, as created, as long
      as the application ids were unique. */
  lemma CreatedApplicationReadsBack(db: Db, form: AdoptionFormData, newId: string, now: int,
                                    updateFault: Option<StoreError>, petFault: Option<StoreError>)
    requires UniqueIds(db.applications, ApplicationId)
    requires CreateApplication(db, form, newId, now, None, updateFault, petFault).1.Ok?
    ensures var (db', r) := CreateApplication(db, form, newId, now, None, updateFault, petFault);
            && UniqueIds(db'.applications, ApplicationId)
            && GetApplicationById(db', newId, None, petFault).Ok?
            && GetApplicationById(db', newId, None, petFault).data.row == r.data.row
            && GetApplicationById(db', newId, None, petFault).data.progress == r.data.progress
  {
    var (db', r) := CreateApplication(db, form, newId, now, None, updateFault, petFault);
    AppendKeepsUnique(db.applications, ApplicationId, r.data.row);
    SingleFindsUnique(db'.applications, ApplicationId, r.data.row);
  }

  /** When the pet exists, the created application carries it as read after
      its status update: 审核中 when that update succeeded, as it was when
      the update failed. */
  lemma CreatedApplicationCarriesPet(db: Db, form: AdoptionFormData, newId: string, now: int,
                                     updateFault: Option<StoreError>)
    requires CreateApplication(db, form, newId, now, None, updateFault, None).1.Ok?
    requires LookupPet(db, form.petId).Some?
    ensures var pet := LookupPet(db, form.petId).value;
            CreateApplication(db, form, newId, now, None, updateFault, None).1.data.pet
              == Some(if updateFault.None? then pet.(status := UnderReview) else pet)
  {
    var inserted := db.(applications := db.applications + [NewRow(form, newId, now)]);
    assert PetsWithId(inserted, form.petId) == PetsWithId(db, form.petId);
    LookupAfterStatus(inserted, form.petId, UnderReview);
  }

  /** After a successful status update the application reads back with the
      new status and its progress. */
  lemma UpdatedStatusReadsBack(db: Db, id: string, status: AppStatus, petFault: Option<StoreError>)
    requires UniqueIds(db.applications, ApplicationId)
    requires UpdateApplicationStatus(db, id, status, None, petFault).1.Ok?
    ensures var (db', r) := UpdateApplicationStatus(db, id, status, None, petFault);
            && GetApplicationById(db', id, None, petFault) == Ok(r.data)
            && r.data.row.status == status
  {
    var (db', r) := UpdateApplicationStatus(db, id, status, None, petFault);
    var f := (a: ApplicationRow) => a.(status := status);
    UpdateKeepsUnique(db.applications, ApplicationId, id, f);
    var k :| 0 <= k < |db.applications| && db.applications[k] == LookupApplication(db, id).value;
    assert db'.applications[k] == r.data.row;
    SingleFindsUnique(db'.applications, ApplicationId, r.data.row);
  }

  /** After a delete, the application is gone. */
  lemma DeletedApplicationIsGone(db: Db, id: string)
    ensures var db' := DeleteApplication(db, id, None).0;
            && !IdTaken(db'.applications, ApplicationId, id)
            && GetApplicationById(db', id, None, None).Err?
            && GetApplicationById(db', id, None, None).error.code == NoRowsCode
  {
    var db' := DeleteApplication(db, id, None).0;
    assert forall i :: 0 <= i < |db'.applications| ==> ApplicationId(db'.applications[i]) != id;
    SingleMissesAbsent(db'.applications, ApplicationId, id);
  }
}

=== FILE: applications_hook.dfy ===
/**
 * useApplications and useApplication (hooks/useApplications.ts): the
 * application list of a user, and one application, kept in component
 * state and spliced after each mutation.
 */
module ApplicationsHook {
  import opened Wrappers
  import opened Types
  import opened Store
  import opened FetchState
  import opened ApplicationService

  /** What a mutation returns to its caller: `{ success: true, data }` or
      `{ success: false, error }`. */
  datatype Outcome<T> = Success(data: T) | Failure(error: ApiError)

  type ListState = State<seq<Application>>

  /** `[]`, loading, no error. */
  const InitialList: ListState := Initial([])

  /** `fetchApplications()`: `getAllApplications({ userId })`. An undefined
      or empty `userId` applies no user filter, and no status filter is
      ever passed. */
  function Refetch(s: ListState, db: Db, userId: Option<string>, fault: Option<StoreError>): (t: ListState)
    ensures !t.loading
    ensures fault.None? ==> t.error.None? && forall a :: a in RowsOf(t.value) <==>
              a in db.applications && (userId.Some? && userId.value != "" ==> a.userEmail == userId.value)
    ensures fault.None? ==> t.value == GetAllApplications(db, Some(ApplicationFilter(userId, None)), None).data
    ensures fault.None? ==>
              forall a :: multiset(RowsOf(t.value))[a] ==
                (if userId.Some? && userId.value != "" ==> a.userEmail == userId.value then multiset(db.applications)[a] else 0)
    ensures fault.Some? ==> t.value == s.value && t.error == Some(ApplicationService.ListFailed)
  {
    Fetch(s, GetAllApplications(db, Some(ApplicationFilter(userId, None)), fault))
  }

  /** The effect on mount: it fetches whatever `userId` is. */
  function Mount(db: Db, userId: Option<string>, fault: Option<StoreError>): ListState {
    Refetch(InitialList, db, userId, fault)
  }

  /** Mounted without a user, the hook lists every application. */
  lemma MountWithoutUserListsAll(db: Db)
    ensures !Mount(db, None, None).loading
    ensures forall a :: a in RowsOf(Mount(db, None, None).value) <==> a in db.applications
  {
  }

  /** `createApplication(formData)`: on success the new application is put
      in front of the list, which is otherwise unchanged; on failure the
      list stays as it was and the service's error is returned. */
  function Create(s: ListState, db: Db, form: AdoptionFormData, newId: string, now: int,
                  insertFault: Option<StoreError>, updateFault: Option<StoreError>,
                  petFault: Option<StoreError>): (res: (Db, ListState, Outcome<Application>))
    ensures res.2.Success? <==> insertFault.None? && !IdTaken(db.applications, ApplicationId, newId)
    ensures res.2.Success? ==>
              && res.1 == s.(value := [res.2.data] + s.value)
              && res.2.data.row.status == InReview && FormOf(res.2.data.row) == form
              && res.0.applications == db.applications + [res.2.data.row]
    ensures res.2.Failure? ==> res.0 == db && res.1 == s && res.2.error.message == CreateFailed
  {
    var (db', r) := CreateApplication(db, form, newId, now, insertFault, updateFault, petFault);
    if r.Ok? then (db', s.(value := [r.data] + s.value), Success(r.data))
    else (db', s, Failure(r.error))
  }

  /** A freshly created application heads the list; every application held
      before follows it in its old order. */
  lemma CreatePrepends(s: ListState, db: Db, form: AdoptionFormData, newId: string, now: int)
    requires !IdTaken(db.applications, ApplicationId, newId)
    ensures var (_, t, o) := Create(s, db, form, newId, now, None, None, None);
            && o.Success? && |t.value| == |s.value| + 1 && t.value[0] == o.data
            && t.value[1..] == s.value && t.loading == s.loading && t.error == s.error
  {
    var (_, t, o) := Create(s, db, form, newId, now, None, None, None);
    assert t.value[1..] == s.value;
  }

  type ItemState = State<Option<Application>>

  /** `null`, loading, no error. */
  const InitialItem: ItemState := Initial(None)

  /** `useApplication(id)` on mount: it fetches only for a non-empty id, so
      with an empty id it keeps loading with no application. */
  function MountItem(db: Db, id: string, fault: Option<StoreError>, petFault: Option<StoreError>): (t: ItemState)
    ensures id == "" ==> t == InitialItem
    ensures id != "" ==> !t.loading
    ensures id != "" ==> (t.value.Some? <==> fault.None? && LookupApplication(db, id).Some?)
    ensures t.value.Some? ==> t.value.value.row.id == id && t.value.value.row in db.applications
  {
    if id == "" then InitialItem
    else Fetch(InitialItem, SomeData(GetApplicationById(db, id, fault, petFault)))
  }

  /** `updateStatus(status)`: on success the held application becomes the
      updated one; on failure it stays as it was. */
  function UpdateStatus(s: ItemState, db: Db, id: string, status: AppStatus, fault: Option<StoreError>,
                        petFault: Option<StoreError>): (res: (Db, ItemState, Outcome<()>))
    ensures res.2.Success? <==> fault.None? && LookupApplication(db, id).Some?
    ensures res.2.Success? ==>
              && res.1 == s.(value := res.1.value)
              && res.1.value.Some?
              && res.1.value.value.row == LookupApplication(db, id).value.(status := status)
              && res.1.value.value.progress == Progress(status)
    ensures res.2.Failure? ==> res.0 == db && res.1 == s && res.2.error.message == ApplicationService.UpdateFailed
  {
    var (db', r) := UpdateApplicationStatus(db, id, status, fault, petFault);
    if r.Ok? then (db', s.(value := Some(r.data)), Success(()))
    else (db', s, Failure(r.error))
  }

  /** After a successful status change the held application is exactly what
      a refetch would load (for a non-empty id; with an empty id the hook
      never loads anything). */
  lemma UpdateStatusAgreesWithRefetch(s: ItemState, db: Db, id: string, status: AppStatus, petFault: Option<StoreError>)
    requires id != ""
    requires UniqueIds(db.applications, ApplicationId)
    requires UpdateStatus(s, db, id, status, None, petFault).2.Success?
    ensures var (db', t, _) := UpdateStatus(s, db, id, status, None, petFault);
            t.value == MountItem(db', id, None, petFault).value
  {
    UpdatedStatusReadsBack(db, id, status, petFault);
  }
}

=== FILE: catalog.dfy ===
/**
 * MOCK_PETS (constants.tsx): the three pets the AI chat describes to the
 * model and the discovery page lists. They carry no creation time, so the
 * model gives each `createdAt` 0. Their photo URLs play no part in any
 * behaviour and are left empty.
 */
module Catalog {
  import opened Types

  const Luna: Pet := Pet(
    "1", "Luna", "英国短毛猫", "2 岁", Female,
    "4.2 公斤", "2.4 英里", "幸福市, 庇护所路 123 号",
    "",
    ["已接种疫苗", "已绝育", "习惯良好"],
    "Luna 性格温顺，喜欢阳光充足的地方和安静的午后。刚开始她可能会有点害羞，但一旦熟悉起来，她会是你最忠诚的伙伴。她特别喜欢羽毛玩具和零食！",
    Available, 75.0, 0)

  const Max: Pet := Pet(
    "2", "Max", "金毛寻回犬", "2 岁", Male,
    "25 公斤", "2.5 公里", "快乐社区 8 号",
    "",
    ["活泼", "友善", "已培训"],
    "Max 是一个精力充沛的男孩，他喜欢在草地上奔跑，对每一个人都很友好。",
    Available, 120.0, 0)

  const Charlie: Pet := Pet(
    "3", "Charlie", "串串", "4 个月", Male,
    "3 公斤", "1.2 公里", "路边救助站",
    "",
    ["幼犬", "乖巧"],
    "Charlie 是个害羞但非常温柔的小家伙，正在寻找一个永远的家。",
    Available, 50.0, 0)

  const MockPets: seq<Pet> := [Luna, Max, Charlie]

  /** The catalog's ids are distinct and every pet is up for adoption. */
  lemma CatalogWellFormed()
    ensures forall i, j :: 0 <= i < j < |MockPets| ==> MockPets[i].id != MockPets[j].id
    ensures forall i :: 0 <= i < |MockPets| ==> MockPets[i].status == Available
  {
  }
}

=== FILE: discovery.dfy ===
/**
 * The discovery page (pages/Discovery.tsx): the catalog narrowed by a
 * search box and a category chip, and an adoption-news panel filled from a
 * search-grounded model call on mount.
 */
module Discovery {
  import opened Wrappers
  import opened Types
  import Text
  import Seqs
  import Catalog

  const AllCategory: string := "全部"
  const DogCategory: string := "狗狗"
  const CatCategory: string := "猫咪"

  /** The name or the breed contains the query, ignoring ASCII case. */
  predicate MatchesSearch(p: Pet, query: string) {
    || Text.Contains(Text.Lower(p.name), Text.Lower(query))
    || Text.Contains(Text.Lower(p.breed), Text.Lower(query))
  }

  /** 全部 admits every pet, 狗狗 a breed containing 犬, 猫咪 a breed
      containing 猫; any other chip admits none. */
  predicate MatchesCategory(p: Pet, category: string) {
    || category == AllCategory
    || (category == DogCategory && Text.Contains(p.breed, "犬"))
    || (category == CatCategory && Text.Contains(p.breed, "猫"))
  }

  predicate Shown(p: Pet, query: string, category: string) {
    MatchesSearch(p, query) && MatchesCategory(p, category)
  }

  /** `filteredPets`: the pets the grid shows, in catalog order; the result
      count is its length. */
  function FilteredPets(pets: seq<Pet>, query: string, category: string): (r: seq<Pet>)
    ensures Seqs.IsSubsequence(r, pets)
    ensures forall p :: p in r <==> p in pets && Shown(p, query, category)
    ensures forall p :: multiset(r)[p] == if Shown(p, query, category) then multiset(pets)[p] else 0
  {
    var keep := (p: Pet) => Shown(p, query, category);
    Seqs.FilterIsSubsequence(pets, keep);
    forall p ensures multiset(Seqs.Filter(pets, keep))[p] == if Shown(p, query, category) then multiset(pets)[p] else 0 {
      Seqs.FilterCount(pets, keep, p);
    }
    Seqs.Filter(pets, keep)
  }

  /** With an empty search and the 全部 chip every pet is shown. */
  lemma NoNarrowingShowsAll(pets: seq<Pet>)
    ensures FilteredPets(pets, "", AllCategory) == pets
  {
    forall p | p in pets ensures Shown(p, "", AllCategory) {
      assert Text.Lower("") == "";
      assert "" <= Text.Lower(p.name);
    }
    Seqs.FilterKeepsAll(pets, (p: Pet) => Shown(p, "", AllCategory));
  }

  /** A chip other than 全部, 狗狗 and 猫咪 shows no pet. */
  lemma OtherCategoriesShowNothing(pets: seq<Pet>, query: string, category: string)
    requires category != AllCategory && category != DogCategory && category != CatCategory
    ensures FilteredPets(pets, query, category) == []
  {
    Seqs.FilterKeepsNone(pets, (p: Pet) => Shown(p, query, category));
  }

  lemma LowerIdempotent(s: string)
    ensures Text.Lower(Text.Lower(s)) == Text.Lower(s)
  {
  }

  /** The search ignores ASCII case: a lower-cased query shows the same
      pets. */
  lemma SearchIgnoresCase(pets: seq<Pet>, query: string, category: string)
    ensures FilteredPets(pets, Text.Lower(query), category) == FilteredPets(pets, query, category)
  {
    LowerIdempotent(query);
    Seqs.FilterCongruent(pets, (p: Pet) => Shown(p, Text.Lower(query), category),
                               (p: Pet) => Shown(p, query, category));
  }

  /** An empty search matches every pet. */
  lemma EmptySearchMatches(p: Pet)
    ensures MatchesSearch(p, "")
  {
    assert Text.Lower("") == "";
    assert "" <= Text.Lower(p.name);
  }

  /** Luna's breed, 英国短毛猫, is a cat's. */
  lemma LunaIsCat()
    ensures MatchesCategory(Catalog.Luna, CatCategory) && !MatchesCategory(Catalog.Luna, DogCategory)
  {
    var breed := Catalog.Luna.breed;
    assert breed[4..] == "猫";
    NotContains(breed, '犬');
  }

  /** Max's breed, 金毛寻回犬, is a dog's. */
  lemma MaxIsDog()
    ensures MatchesCategory(Catalog.Max, DogCategory) && !MatchesCategory(Catalog.Max, CatCategory)
  {
    var breed := Catalog.Max.breed;
    assert breed[4..] == "犬";
    NotContains(breed, '猫');
  }

  /** Charlie's breed, 串串, names neither. */
  lemma CharlieIsNeither()
    ensures !MatchesCategory(Catalog.Charlie, CatCategory) && !MatchesCategory(Catalog.Charlie, DogCategory)
  {
    NotContains(Catalog.Charlie.breed, '猫');
    NotContains(Catalog.Charlie.breed, '犬');
  }

  /** On a three-pet list, the grid shows exactly the first pet when only
      that one is shown. */
  lemma ShowsOnlyFirst(a: Pet, b: Pet, c: Pet, query: string, category: string)
    requires Shown(a, query, category) && !Shown(b, query, category) && !Shown(c, query, category)
    ensures FilteredPets([a, b, c], query, category) == [a]
  {
    Seqs.FilterThree(a, b, c, (p: Pet) => Shown(p, query, category));
  }

  /** On a three-pet list, the grid shows exactly the second pet when only
      that one is shown. */
  lemma ShowsOnlySecond(a: Pet, b: Pet, c: Pet, query: string, category: string)
    requires !Shown(a, query, category) && Shown(b, query, category) && !Shown(c, query, category)
    ensures FilteredPets([a, b, c], query, category) == [b]
  {
    Seqs.FilterThree(a, b, c, (p: Pet) => Shown(p, query, category));
  }

  /** In the catalog, 猫咪 shows only Luna. */
  lemma CatsShowLuna()
    ensures FilteredPets(Catalog.MockPets, "", CatCategory) == [Catalog.Luna]
  {
    LunaIsCat();
    MaxIsDog();
    CharlieIsNeither();
    EmptySearchMatches(Catalog.Luna);
    ShowsOnlyFirst(Catalog.Luna, Catalog.Max, Catalog.Charlie, "", CatCategory);
  }

  /** In the catalog, 狗狗 shows only Max. */
  lemma DogsShowMax()
    ensures FilteredPets(Catalog.MockPets, "", DogCategory) == [Catalog.Max]
  {
    LunaIsCat();
    MaxIsDog();
    CharlieIsNeither();
    EmptySearchMatches(Catalog.Max);
    ShowsOnlySecond(Catalog.Luna, Catalog.Max, Catalog.Charlie, "", DogCategory);
  }

  /** A one-character needle occurs only where that character does. */
  lemma {:induction false} NotContains(hay: string, c: char)
    requires forall i :: 0 <= i < |hay| ==> hay[i] != c
    ensures !Text.Contains(hay, [c])
    decreases |hay|
  {
    if |hay| > 0 {
      assert hay[0] != c;
      NotContains(hay[1..], c);
    }
  }

  const InsightsPrompt: string := "提供关于2024-2025年上海地区最新的宠物领养活动或流浪动物公益新闻。请给出一个简短的摘要。"

  /** Shown when no news could be fetched. */
  const Unavailable: string := "暂时无法获取最新资讯，请稍后再试。"

  /** A web source cited by the grounded answer. */
  datatype Link = Link(title: string, uri: string)

  /** A grounding chunk; only some carry a web source. */
  datatype Chunk = Chunk(web: Option<Link>)

  /** The grounded call's outcome: its text ("" when it has none) and the
      first candidate's grounding chunks (none when absent), or a throw. */
  datatype SearchAnswer = Answered(text: string, chunks: seq<Chunk>) | SearchThrew

  datatype Insights = Insights(text: string, links: seq<Link>)

  /** `insights` and `isLoadingInsights`. */
  datatype Panel = Panel(insights: Option<Insights>, loading: bool)

  const InitialPanel := Panel(None, false)

  /** The web sources of the chunks that have one, in chunk order. */
  function Links(chunks: seq<Chunk>): (r: seq<Link>)
    ensures |r| <= |chunks|
    ensures forall l :: l in r <==> exists j :: 0 <= j < |chunks| && chunks[j].web == Some(l)
    decreases |chunks|
  {
    if |chunks| == 0 then []
    else
      var rest := Links(chunks[1..]);
      assert forall l :: (exists j :: 0 <= j < |chunks[1..]| && chunks[1..][j].web == Some(l)) <==>
                         (exists j :: 1 <= j < |chunks| && chunks[j].web == Some(l)) by {
        forall l ensures (exists j :: 0 <= j < |chunks[1..]| && chunks[1..][j].web == Some(l)) ==>
                         (exists j :: 1 <= j < |chunks| && chunks[j].web == Some(l)) {
          if exists j :: 0 <= j < |chunks[1..]| && chunks[1..][j].web == Some(l) {
            var j :| 0 <= j < |chunks[1..]| && chunks[1..][j].web == Some(l);
            assert chunks[j + 1].web == Some(l);
          }
        }
        forall l ensures (exists j :: 1 <= j < |chunks| && chunks[j].web == Some(l)) ==>
                         (exists j :: 0 <= j < |chunks[1..]| && chunks[1..][j].web == Some(l)) {
          if exists j :: 1 <= j < |chunks| && chunks[j].web == Some(l) {
            var j :| 1 <= j < |chunks| && chunks[j].web == Some(l);
            assert chunks[1..][j - 1].web == Some(l);
          }
        }
      }
      match chunks[0].web
      case Some(l) => [l] + rest
      case None => rest
  }

  /** Links keep the chunks' order: the sources of a concatenation are the
      sources of each part, one after the other. */
  lemma {:induction false} LinksConcat(a: seq<Chunk>, b: seq<Chunk>)
    ensures Links(a + b) == Links(a) + Links(b)
    decreases |a|
  {
    if |a| == 0 {
      assert a + b == b;
    } else {
      assert (a + b)[1..] == a[1..] + b;
      LinksConcat(a[1..], b);
    }
  }

  /** The effect starts the call: the panel shows the spinner and keeps
      whatever insights it had. */
  function BeginInsights(p: Panel): (r: Panel)
    ensures r.loading && r.insights == p.insights
    ensures RenderPanel(r).Searching?
  {
    p.(loading := true)
  }

  /** The call settles: an answer replaces the insights, a throw keeps
      what was there; loading ends either way. */
  function SettleInsights(p: Panel, a: SearchAnswer): (r: Panel)
    ensures !r.loading
    ensures a.Answered? ==> r.insights == Some(Insights(a.text, Links(a.chunks)))
    ensures a.SearchThrew? ==> r.insights == p.insights
  {
    match a
    case Answered(text, chunks) => Panel(Some(Insights(text, Links(chunks))), false)
    case SearchThrew => p.(loading := false)
  }

  /** What the panel shows. */
  datatype PanelView = Searching | News(text: string, links: seq<Link>) | NoNews(message: string)

  /** A spinner while loading; otherwise the news text with its first two
      sources (all of them when there are fewer), or the fallback message. */
  function RenderPanel(p: Panel): (v: PanelView)
    ensures p.loading <==> v.Searching?
    ensures v.News? ==> (&& p.insights.Some? && v.text == p.insights.value.text
                         && |v.links| == (if |p.insights.value.links| < 2 then |p.insights.value.links| else 2)
                         && v.links == p.insights.value.links[..|v.links|])
    ensures v.NoNews? ==> p.insights.None? && v.message == Unavailable
  {
    if p.loading then Searching
    else if p.insights.Some? then News(p.insights.value.text, Seqs.Take(p.insights.value.links, 2))
    else NoNews(Unavailable)
  }

  /** The mount sequence: while the call runs the panel shows a spinner;
      once it settles the panel shows news exactly when the call answered,
      citing the first two of the answer's web sources in chunk order (all
      of them when there are fewer). */
  lemma InsightsLifecycle(a: SearchAnswer)
    ensures RenderPanel(BeginInsights(InitialPanel)).Searching?
    ensures var v := RenderPanel(SettleInsights(BeginInsights(InitialPanel), a));
            && (v.News? <==> a.Answered?)
            && (v.NoNews? <==> a.SearchThrew?)
            && (v.News? ==> && v.text == a.text
                            && |v.links| == (if |Links(a.chunks)| < 2 then |Links(a.chunks)| else 2)
                            && v.links == Links(a.chunks)[..|v.links|]
                            && forall l :: l in v.links ==> exists j :: 0 <= j < |a.chunks| && a.chunks[j].web == Some(l))
  {
  }
}

=== FILE: favorite_service.dfy ===
/**
 * FavoriteService (services/favoriteService.ts): a user's favorite pets.
 * A favorite is a (user, pet) row; `toggleFavorite` checks whether the
 * pair is stored and then removes or adds it.
 */
module FavoriteService {
  import opened Wrappers
  import opened Types
  import opened Store
  import Seqs
  import PetService

  const ListFailed := "获取收藏列表失败"
  const AddFailed := "添加收藏失败"
  const RemoveFailed := "移除收藏失败"
  const CheckFailed := "检查收藏状态失败"

  /** The row belongs to user `userId` and pet `petId`. */
  predicate IsPair(r: FavoriteRow, userId: string, petId: string) {
    r.userId == userId && r.petId == petId
  }

  /** The rows of the pair (user, pet). */
  function PairRows(db: Db, userId: string, petId: string): seq<FavoriteRow> {
    Seqs.Filter(db.favorites, (r: FavoriteRow) => IsPair(r, userId, petId))
  }

  /** `{ ...row, pet }`, where `pet` is the data of a `getPetById` call that
      may fail with `petFault`. */
  function AttachPet(db: Db, row: FavoriteRow, petFault: Option<StoreError>): (f: Favorite)
    ensures f.row == row
    ensures f.pet == (if petFault.Some? then None else LookupPet(db, row.petId))
  {
    Favorite(row, DataOf(PetService.GetPetById(db, row.petId, petFault)))
  }

  /** The rows of a list of favorites. */
  function RowsOf(favs: seq<Favorite>): seq<FavoriteRow> {
    Seqs.Map(favs, (f: Favorite) => f.row)
  }

  /** `.eq('user_id', userId)`. */
  function OwnedBy(userId: string): FavoriteRow -> bool {
    (x: FavoriteRow) => x.userId == userId
  }

  /** The user's rows, newest first: each as often as it is stored. */
  function UserRows(db: Db, userId: string): (r: seq<FavoriteRow>)
    ensures forall x :: x in r <==> x in db.favorites && x.userId == userId
    ensures forall x :: multiset(r)[x] == if x.userId == userId then multiset(db.favorites)[x] else 0
    ensures forall i, j :: 0 <= i < j < |r| ==> r[i].createdAt >= r[j].createdAt
  {
    var rows := Seqs.Filter(db.favorites, OwnedBy(userId));
    var r := NewestFirst(rows, (x: FavoriteRow) => x.createdAt);
    forall x ensures multiset(r)[x] == if x.userId == userId then multiset(db.favorites)[x] else 0 {
      Seqs.FilterCount(db.favorites, OwnedBy(userId), x);
    }
    assert forall x :: x in r <==> x in multiset(rows);
    r
  }

  /** `getUserFavorites(userId)`: exactly that user's favorites, newest
      first, each with the pet its `pet_id` names (absent when the store
      does not have exactly one such pet). */
  function GetUserFavorites(db: Db, userId: string, fault: Option<StoreError>): (r: ApiResponse<seq<Favorite>>)
    ensures fault.Some? ==> r.Err? && r.error.message == ListFailed && r.error.details == fault.value
    ensures fault.None? ==> r.Ok?
    ensures r.Ok? ==> forall x :: x in RowsOf(r.data) <==> x in db.favorites && x.userId == userId
    ensures r.Ok? ==> forall x :: multiset(RowsOf(r.data))[x] == if x.userId == userId then multiset(db.favorites)[x] else 0
    ensures r.Ok? ==> forall i :: 0 <= i < |r.data| ==> r.data[i].pet == LookupPet(db, r.data[i].row.petId)
    ensures r.Ok? ==> forall i, j :: 0 <= i < j < |r.data| ==> r.data[i].row.createdAt >= r.data[j].row.createdAt
  {
    match fault
    case Some(e) => Fail(ListFailed, e)
    case None =>
      Ok(WithPets(db, UserRows(db, userId)))
  }

  /** Each row with its pet, in order. */
  function WithPets(db: Db, rows: seq<FavoriteRow>): (favs: seq<Favorite>)
    ensures RowsOf(favs) == rows
    ensures forall i :: 0 <= i < |favs| ==> favs[i].row == rows[i] && favs[i].pet == LookupPet(db, rows[i].petId)
  {
    var favs := seq(|rows|, i requires 0 <= i < |rows| => AttachPet(db, rows[i], None));
    assert RowsOf(favs) == rows;
    favs
  }

  /** `addFavorite(userId, petId)`: inserts one row for the pair with the
      store-assigned id `newId` and time `now`, and returns it with its
      pet. An insert error (including a taken id) changes nothing. */
  function AddFavorite(db: Db, userId: string, petId: string, newId: string, now: int,
                       insertFault: Option<StoreError>, petFault: Option<StoreError>): (res: (Db, ApiResponse<Favorite>))
    ensures res.1.Ok? || res.1.Err?
    ensures res.1.Ok? <==> insertFault.None? && !IdTaken(db.favorites, FavoriteId, newId)
    ensures res.1.Err? ==> res.0 == db && res.1.error.message == AddFailed
    ensures res.1.Ok? ==>
              && res.1.data.row == FavoriteRow(newId, userId, petId, now)
              && res.0 == db.(favorites := db.favorites + [res.1.data.row])
    ensures res.1.Ok? ==> res.1.data.pet == (if petFault.Some? then None else LookupPet(res.0, petId))
  {
    if insertFault.Some? then (db, Fail(AddFailed, insertFault.value))
    else if IdTaken(db.favorites, FavoriteId, newId) then (db, Fail(AddFailed, UniqueViolation))
    else
      var row := FavoriteRow(newId, userId, petId, now);
      var db' := db.(favorites := db.favorites + [row]);
      (db', Ok(AttachPet(db', row, petFault)))
  }

  /** `removeFavorite(userId, petId)`: deletes every row of the pair and
      keeps every other row, in order; a store error changes nothing. */
  function RemoveFavorite(db: Db, userId: string, petId: string, fault: Option<StoreError>): (res: (Db, ApiResponse<()>))
    ensures fault.Some? ==> res.0 == db && res.1.Err? && res.1.error.message == RemoveFailed
    ensures fault.None? ==> res.1.NoContent?
    ensures res.0 == db.(favorites := res.0.favorites)
    ensures Seqs.IsSubsequence(res.0.favorites, db.favorites)
    ensures fault.None? ==> forall r :: r in res.0.favorites <==> r in db.favorites && !IsPair(r, userId, petId)
    ensures fault.None? ==> forall r :: multiset(res.0.favorites)[r] == if !IsPair(r, userId, petId) then multiset(db.favorites)[r] else 0
  {
    match fault
    case Some(e) =>
      Seqs.SubsequenceReflexive(db.favorites);
      (db, Fail(RemoveFailed, e))
    case None =>
      var keep := (r: FavoriteRow) => !IsPair(r, userId, petId);
      Seqs.FilterIsSubsequence(db.favorites, keep);
      forall r ensures multiset(Seqs.Filter(db.favorites, keep))[r] == if !IsPair(r, userId, petId) then multiset(db.favorites)[r] else 0 {
        Seqs.FilterCount(db.favorites, keep, r);
      }
      (db.(favorites := Seqs.Filter(db.favorites, keep)), NoContent)
  }

  /** `isFavorite(userId, petId)`: the single-row lookup of the pair. The
      "no rows" error (code PGRST116, which the store also reports for more
      than one row) means false; any other error is reported. */
  function IsFavorite(db: Db, userId: string, petId: string, fault: Option<StoreError>): (r: ApiResponse<bool>)
    ensures r.Ok? || r.Err?
    ensures r.Err? <==> fault.Some? && fault.value.code != NoRowsCode
    ensures r.Err? ==> r.error.message == CheckFailed && r.error.details == fault.value
    ensures r.Ok? ==> (r.data <==> fault.None? && |PairRows(db, userId, petId)| == 1)
  {
    match fault
    case Some(e) => if e.code == NoRowsCode then Ok(false) else Fail(CheckFailed, e)
    case None => Ok(|PairRows(db, userId, petId)| == 1)
  }

  /** `toggleFavorite(userId, petId)`. When the check reports the pair
      present, the pair is removed and the answer is `{ data: null }`
      (`Ok(None)`) even if the removal fails. Otherwise — the pair absent,
      or the check failing — the pair is added and the answer is that of
      `addFavorite`. Neither callee throws, so the toggle's own failure
      message is never produced. */
  function ToggleFavorite(db: Db, userId: string, petId: string,
                          checkFault: Option<StoreError>, removeFault: Option<StoreError>,
                          newId: string, now: int, insertFault: Option<StoreError>,
                          petFault: Option<StoreError>): (res: (Db, ApiResponse<Option<Favorite>>))
    ensures res.1.Ok? || res.1.Err?
    ensures res.1.Err? ==> res.0 == db && res.1.error.message == AddFailed
    ensures IsFavorite(db, userId, petId, checkFault) == Ok(true) ==>
              && res.1 == Ok(None)
              && res.0 == RemoveFavorite(db, userId, petId, removeFault).0
    ensures IsFavorite(db, userId, petId, checkFault) != Ok(true) ==>
              && (res.1.Ok? <==> insertFault.None? && !IdTaken(db.favorites, FavoriteId, newId))
              && (res.1.Ok? ==> res.1.data.Some?
                                && res.1.data.value.row == FavoriteRow(newId, userId, petId, now)
                                && res.0 == db.(favorites := db.favorites + [res.1.data.value.row])
                                && res.1.data.value.pet == (if petFault.Some? then None else LookupPet(res.0, petId)))
  {
    var check := IsFavorite(db, userId, petId, checkFault);
    if check.Ok? && check.data then
      (RemoveFavorite(db, userId, petId, removeFault).0, Ok(None))
    else
      var (db', added) := AddFavorite(db, userId, petId, newId, now, insertFault, petFault);
      if added.Ok? then (db', Ok(Some(added.data))) else (db', Err(added.error))
  }

  /** Whether the check sees the pair as stored. */
  predicate Stored(db: Db, userId: string, petId: string) {
    IsFavorite(db, userId, petId, None) == Ok(true)
  }

  /** A fault-free toggle of a pair stored at most once flips whether the
      pair is stored, and keeps it stored at most once. */
  lemma {:induction false} ToggleFlips(db: Db, userId: string, petId: string, newId: string, now: int)
    requires |PairRows(db, userId, petId)| <= 1
    requires !IdTaken(db.favorites, FavoriteId, newId)
    ensures var db' := ToggleFavorite(db, userId, petId, None, None, newId, now, None, None).0;
            && (Stored(db', userId, petId) <==> !Stored(db, userId, petId))
            && |PairRows(db', userId, petId)| <= 1
  {
    var db' := ToggleFavorite(db, userId, petId, None, None, newId, now, None, None).0;
    var pair := (r: FavoriteRow) => IsPair(r, userId, petId);
    if Stored(db, userId, petId) {
      var kept := Seqs.Filter(db.favorites, (r: FavoriteRow) => !IsPair(r, userId, petId));
      assert db'.favorites == kept;
      Seqs.FilterKeepsNone(kept, pair);
    } else {
      var row := FavoriteRow(newId, userId, petId, now);
      assert db'.favorites == db.favorites + [row];
      Seqs.FilterConcat(db.favorites, [row], pair);
      assert |PairRows(db, userId, petId)| == 0;
    }
  }

  /** Two fault-free toggles of a pair stored at most once restore whether
      it is stored. */
  lemma TwoTogglesRestore(db: Db, userId: string, petId: string, id1: string, id2: string, t1: int, t2: int)
    requires |PairRows(db, userId, petId)| <= 1
    requires !IdTaken(db.favorites, FavoriteId, id1)
    requires !IdTaken(ToggleFavorite(db, userId, petId, None, None, id1, t1, None, None).0.favorites, FavoriteId, id2)
    ensures var db1 := ToggleFavorite(db, userId, petId, None, None, id1, t1, None, None).0;
            var db2 := ToggleFavorite(db1, userId, petId, None, None, id2, t2, None, None).0;
            Stored(db2, userId, petId) <==> Stored(db, userId, petId)
  {
    var db1 := ToggleFavorite(db, userId, petId, None, None, id1, t1, None, None).0;
    ToggleFlips(db, userId, petId, id1, t1);
    ToggleFlips(db1, userId, petId, id2, t2);
  }

  /** A pair stored twice never reads as a favorite: each toggle adds yet
      another row, so the duplicates are never removed. */
  lemma {:induction false} DuplicatesOnlyGrow(db: Db, userId: string, petId: string, newId: string, now: int)
    requires |PairRows(db, userId, petId)| >= 2
    requires !IdTaken(db.favorites, FavoriteId, newId)
    ensures !Stored(db, userId, petId)
    ensures var db' := ToggleFavorite(db, userId, petId, None, None, newId, now, None, None).0;
            |PairRows(db', userId, petId)| == |PairRows(db, userId, petId)| + 1
  {
    var row := FavoriteRow(newId, userId, petId, now);
    Seqs.FilterConcat(db.favorites, [row], (r: FavoriteRow) => IsPair(r, userId, petId));
  }
}

=== FILE: favorites_hook.dfy ===
/**
 * useFavorites (hooks/useFavorites.ts): a user's favorites kept in
 * component state. A toggle splices the list from the toggle's answer
 * instead of refetching it.
 */
module FavoritesHook {
  import opened Wrappers
  import opened Types
  import opened Store
  import Seqs
  import opened FetchState
  import opened FavoriteService

  type FavState = State<seq<Favorite>>

  /** `fetchFavorites()`. */
  function Refetch(s: FavState, db: Db, userId: string, fault: Option<StoreError>): (t: FavState)
    ensures !t.loading
    ensures fault.None? ==> t.error.None? && Synced(t.value, db, userId)
    ensures fault.None? ==> t.value == GetUserFavorites(db, userId, None).data
    ensures fault.None? ==> forall x :: multiset(RowsOf(t.value))[x] == if x.userId == userId then multiset(db.favorites)[x] else 0
    ensures fault.Some? ==> t.value == s.value && t.error == Some(FavoriteService.ListFailed)
  {
    Fetch(s, GetUserFavorites(db, userId, fault))
  }

  /** The effect on mount fetches only for a non-empty user; with an empty
      one the hook stays loading with an empty list. */
  function Mount(db: Db, userId: string, fault: Option<StoreError>): (t: FavState)
    ensures userId == "" ==> t == Initial([])
    ensures userId != "" ==> !t.loading
  {
    if userId == "" then Initial([]) else Refetch(Initial([]), db, userId, fault)
  }

  /** The held list has exactly the user's stored rows. */
  ghost predicate Synced(favs: seq<Favorite>, db: Db, userId: string) {
    forall x :: x in RowsOf(favs) <==> x in db.favorites && x.userId == userId
  }

  /** `isFavorite(petId)`: some held favorite is of that pet. */
  predicate HeldFavorite(favs: seq<Favorite>, petId: string) {
    exists i :: 0 <= i < |favs| && favs[i].row.petId == petId
  }

  /** What `toggleFavorite` returns: `{ success: true, isFavorite }` or
      `{ success: false, error }`. */
  datatype ToggleOutcome = Toggled(isFavorite: bool) | ToggleFailed(error: ApiError)

  /** Keeps the favorites of other pets, in order. */
  function WithoutPet(favs: seq<Favorite>, petId: string): (r: seq<Favorite>)
    ensures Seqs.IsSubsequence(r, favs)
    ensures forall f :: f in r <==> f in favs && f.row.petId != petId
    ensures forall f :: multiset(r)[f] == if f.row.petId != petId then multiset(favs)[f] else 0
  {
    var keep := (f: Favorite) => f.row.petId != petId;
    Seqs.FilterIsSubsequence(favs, keep);
    forall f ensures multiset(Seqs.Filter(favs, keep))[f] == if f.row.petId != petId then multiset(favs)[f] else 0 {
      Seqs.FilterCount(favs, keep, f);
    }
    Seqs.Filter(favs, keep)
  }

  /** `toggleFavorite(petId)`: a returned favorite goes in front of the
      list; an answer of `null` removes every favorite of that pet; an
      error leaves the list alone. */
  function Toggle(s: FavState, db: Db, userId: string, petId: string,
                  checkFault: Option<StoreError>, removeFault: Option<StoreError>,
                  newId: string, now: int, insertFault: Option<StoreError>,
                  petFault: Option<StoreError>): (res: (Db, FavState, ToggleOutcome))
    ensures res.2.Toggled? && res.2.isFavorite ==>
              |res.1.value| == |s.value| + 1 && res.1.value[1..] == s.value
              && res.1.value[0].row == FavoriteRow(newId, userId, petId, now)
              && res.1.value[0].pet == (if petFault.Some? then None else LookupPet(res.0, petId))
              && res.0 == db.(favorites := db.favorites + [res.1.value[0].row])
              && HeldFavorite(res.1.value, petId)
    ensures res.2.Toggled? && !res.2.isFavorite ==>
              res.1.value == WithoutPet(s.value, petId) && !HeldFavorite(res.1.value, petId)
              && res.0 == RemoveFavorite(db, userId, petId, removeFault).0
    ensures res.2.ToggleFailed? ==> res.0 == db && res.1 == s
    ensures res.1.loading == s.loading && res.1.error == s.error
  {
    var (db', r) := ToggleFavorite(db, userId, petId, checkFault, removeFault, newId, now, insertFault, petFault);
    if r.Err? then (db', s, ToggleFailed(r.error))
    else if r.data.Some? then
      var t := s.(value := [r.data.value] + s.value);
      assert t.value[1..] == s.value;
      (db', t, Toggled(true))
    else (db', s.(value := WithoutPet(s.value, petId)), Toggled(false))
  }

  /** A row of a kept favorite is a row of the list, of another pet ... */
  lemma KeptRowsAreRows(favs: seq<Favorite>, petId: string, x: FavoriteRow)
    requires x in RowsOf(WithoutPet(favs, petId))
    ensures x in RowsOf(favs) && x.petId != petId
  {
    var kept := WithoutPet(favs, petId);
    var i :| 0 <= i < |kept| && RowsOf(kept)[i] == x;
    assert kept[i] in favs;
    var j :| 0 <= j < |favs| && favs[j] == kept[i];
    assert RowsOf(favs)[j] == x;
  }

  /** ... and every row of another pet's favorite is kept. */
  lemma OtherRowsAreKept(favs: seq<Favorite>, petId: string, x: FavoriteRow)
    requires x in RowsOf(favs) && x.petId != petId
    ensures x in RowsOf(WithoutPet(favs, petId))
  {
    var kept := WithoutPet(favs, petId);
    var j :| 0 <= j < |favs| && RowsOf(favs)[j] == x;
    assert favs[j] in kept;
    var i :| 0 <= i < |kept| && kept[i] == favs[j];
    assert RowsOf(kept)[i] == x;
  }

  /** The rows of the favorites kept are the rows of other pets. */
  lemma RowsWithoutPet(favs: seq<Favorite>, petId: string)
    ensures forall x :: x in RowsOf(WithoutPet(favs, petId)) <==> x in RowsOf(favs) && x.petId != petId
  {
    forall x ensures x in RowsOf(WithoutPet(favs, petId)) <==> x in RowsOf(favs) && x.petId != petId {
      if x in RowsOf(WithoutPet(favs, petId)) {
        KeptRowsAreRows(favs, petId, x);
      }
      if x in RowsOf(favs) && x.petId != petId {
        OtherRowsAreKept(favs, petId, x);
      }
    }
  }

  /** Dropping a pet's favorites from a matching list matches the store
      after that pair's rows are removed. */
  lemma RemoveKeepsSync(favs: seq<Favorite>, db: Db, userId: string, petId: string)
    requires Synced(favs, db, userId)
    ensures Synced(WithoutPet(favs, petId), RemoveFavorite(db, userId, petId, None).0, userId)
  {
    RowsWithoutPet(favs, petId);
  }

  /** Putting the user's new favorite in front of a matching list matches
      the store after the row is appended. */
  lemma AddKeepsSync(favs: seq<Favorite>, db: Db, userId: string, f: Favorite)
    requires Synced(favs, db, userId)
    requires f.row.userId == userId
    ensures Synced([f] + favs, db.(favorites := db.favorites + [f.row]), userId)
  {
    assert RowsOf([f] + favs) == [f.row] + RowsOf(favs);
  }

  /** Starting from a list that matches the store, a fault-free toggle of a
      pair stored at most once keeps the list matching the store, and the
      hook's `isFavorite` then agrees with the store's check. */
  lemma ToggleKeepsSync(s: FavState, db: Db, userId: string, petId: string, newId: string, now: int)
    requires Synced(s.value, db, userId)
    requires |PairRows(db, userId, petId)| <= 1
    requires !IdTaken(db.favorites, FavoriteId, newId)
    ensures var (db', t, o) := Toggle(s, db, userId, petId, None, None, newId, now, None, None);
            && o.Toggled?
            && Synced(t.value, db', userId)
            && (HeldFavorite(t.value, petId) <==> Stored(db', userId, petId))
  {
    var (db', r) := ToggleFavorite(db, userId, petId, None, None, newId, now, None, None);
    ToggleFlips(db, userId, petId, newId, now);
    if Stored(db, userId, petId) {
      RemoveKeepsSync(s.value, db, userId, petId);
    } else {
      AddKeepsSync(s.value, db, userId, r.data.value);
    }
  }
}

=== FILE: fetch_state.dfy ===
/**
 * The state every data hook keeps — `{ value, loading, error }` — and the
 * fetch lifecycle they share: clear the error and set loading, await the
 * service, then take its data or its error message, and stop loading.
 */
module FetchState {
  import opened Wrappers
  import opened Types

  datatype State<T> = State(value: T, loading: bool, error: Option<string>)

  /** `useState(initial)`, `useState(true)`, `useState(null)`. */
  function Initial<T>(value: T): State<T> {
    State(value, true, None)
  }

  /** `setLoading(true); setError(null)`: the state while the call is in
      flight. */
  function Start<T>(s: State<T>): (t: State<T>)
    ensures t.loading && t.error.None? && t.value == s.value
  {
    s.(loading := true, error := None)
  }

  /** `if (response.data) set(data) else if (response.error)
      setError(message); setLoading(false)`. The data the services return
      is always an object or an array, so it is always truthy. */
  function Settle<T>(s: State<T>, r: ApiResponse<T>): (t: State<T>)
    ensures !t.loading
    ensures r.Ok? ==> t.value == r.data && t.error == s.error
    ensures !r.Ok? ==> t.value == s.value
    ensures r.Err? ==> t.error == Some(r.error.message)
    ensures r.NoContent? ==> t.error == s.error
  {
    match r
    case Ok(d) => s.(value := d, loading := false)
    case NoContent => s.(loading := false)
    case Err(e) => s.(error := Some(e.message), loading := false)
  }

  /** A whole fetch: afterwards nothing is loading; a success replaces the
      value and leaves no error; a failure keeps the old value and holds
      the service's message. */
  function Fetch<T>(s: State<T>, r: ApiResponse<T>): (t: State<T>)
    ensures !t.loading
    ensures r.Ok? ==> t.value == r.data && t.error.None?
    ensures r.Err? ==> t.value == s.value && t.error == Some(r.error.message)
    ensures r.NoContent? ==> t.value == s.value && t.error.None?
  {
    Settle(Start(s), r)
  }

  /** A fetch forgets the previous loading flag and error, and repeating
      it with the same answer changes nothing more. */
  lemma FetchForgetsStatus<T>(s: State<T>, r: ApiResponse<T>, loading: bool, error: Option<string>)
    ensures Fetch(s.(loading := loading, error := error), r) == Fetch(s, r)
    ensures Fetch(Fetch(s, r), r) == Fetch(s, r)
  {
  }
}

=== FILE: message_service.dfy ===
/**
 * MessageService (services/messageService.ts): the stored chat messages of
 * each user.
 */
module MessageService {
  import opened Wrappers
  import opened Types
  import opened Store
  import Seqs

  const FetchFailed := "获取消息失败"
  const SendFailed := "发送消息失败"
  const DeleteFailed := "删除消息失败"
  const ClearFailed := "清空消息失败"

  /** `getUserMessages`' default `limit`. */
  const DefaultLimit := 50

  /** `.eq('user_id', userId)`, and its negation. */
  function OfUser(userId: string): Message -> bool {
    (m: Message) => m.userId == userId
  }

  function NotOfUser(userId: string): Message -> bool {
    (m: Message) => m.userId != userId
  }

  /** The user's messages, in table order. */
  function UserMessages(db: Db, userId: string): seq<Message> {
    Seqs.Filter(db.messages, OfUser(userId))
  }

  /** The user's messages, oldest first. */
  function OwnOldestFirst(db: Db, userId: string): (r: seq<Message>)
    ensures forall m :: m in r <==> m in db.messages && m.userId == userId
    ensures forall i, j :: 0 <= i < j < |r| ==> r[i].createdAt <= r[j].createdAt
    ensures forall m :: multiset(r)[m] == if m.userId == userId then multiset(db.messages)[m] else 0
    ensures |r| == |UserMessages(db, userId)|
  {
    var own := UserMessages(db, userId);
    var r := OldestFirst(own, (m: Message) => m.createdAt);
    forall m ensures multiset(r)[m] == if m.userId == userId then multiset(db.messages)[m] else 0 {
      Seqs.FilterCount(db.messages, OfUser(userId), m);
    }
    assert forall m :: m in r <==> m in multiset(own);
    assert |r| == |multiset(own)|;
    r
  }

  /** The creation time, as a sort key. */
  function SentAt(m: Message): int {
    m.createdAt
  }

  /** `getUserMessages(userId, limit)`: the user's oldest `limit` messages,
      oldest first, or all of them when there are fewer. A message left out
      is no older than any listed one, so once a user has `limit` messages
      later ones are never listed. */
  function GetUserMessages(db: Db, userId: string, limit: nat, fault: Option<StoreError>): (r: ApiResponse<seq<Message>>)
    ensures fault.Some? ==> r.Err? && r.error.message == FetchFailed && r.error.details == fault.value
    ensures fault.None? ==> r.Ok?
    ensures r.Ok? ==> |r.data| <= limit
    ensures r.Ok? ==> forall m :: m in r.data ==> m in db.messages && m.userId == userId
    ensures r.Ok? ==> forall i, j :: 0 <= i < j < |r.data| ==> r.data[i].createdAt <= r.data[j].createdAt
    ensures r.Ok? && |r.data| < limit ==> forall m :: m in db.messages && m.userId == userId ==> m in r.data
    ensures r.Ok? ==> forall m, k :: m in db.messages && m.userId == userId && m !in r.data && k in r.data ==>
                                     k.createdAt <= m.createdAt
    ensures r.Ok? ==> forall m :: multiset(r.data)[m] <= multiset(db.messages)[m]
    ensures r.Ok? && |r.data| < limit ==>
              forall m :: multiset(r.data)[m] == if m.userId == userId then multiset(db.messages)[m] else 0
  {
    match fault
    case Some(e) => Fail(FetchFailed, e)
    case None =>
      var r := Seqs.Take(OwnOldestFirst(db, userId), limit);
      OldestListed(db, userId, limit);
      Ok(r)
  }

  /** The user's first `limit` messages by age: each at most as often as it
      is stored (exactly as often when fewer than `limit` are listed), and
      listed before every message they leave out. */
  lemma OldestListed(db: Db, userId: string, limit: nat)
    ensures var r := Seqs.Take(OwnOldestFirst(db, userId), limit);
            && (forall m :: m in r ==> m in db.messages && m.userId == userId)
            && (forall m :: multiset(r)[m] <= multiset(db.messages)[m])
            && (|r| < limit ==>
                  forall m :: multiset(r)[m] == if m.userId == userId then multiset(db.messages)[m] else 0)
            && (forall m, k :: m in db.messages && m.userId == userId && m !in r && k in r ==>
                                k.createdAt <= m.createdAt)
  {
    var sorted := OwnOldestFirst(db, userId);
    var r := Seqs.Take(sorted, limit);
    assert forall m :: m in r ==> m in sorted;
    assert forall m :: multiset(r)[m] <= multiset(sorted)[m];
    assert Seqs.SortedBy(sorted, SentAt);
    forall m, k | m in db.messages && m.userId == userId && m !in r && k in r
      ensures k.createdAt <= m.createdAt
    {
      Seqs.TakeKeepsLeast(sorted, SentAt, limit, k, m);
    }
  }

  /** The insert both send operations make: one row with the given user,
      content and role, the store-assigned id `newId` and time `now`. An
      insert error (including a taken id) changes nothing. */
  function Send(db: Db, userId: string, content: string, role: Role, newId: string, now: int,
                fault: Option<StoreError>): (res: (Db, ApiResponse<Message>))
    ensures res.1.Ok? || res.1.Err?
    ensures res.1.Ok? <==> fault.None? && !IdTaken(db.messages, MessageId, newId)
    ensures res.1.Err? ==> res.0 == db && res.1.error.message == SendFailed
    ensures res.1.Ok? ==>
              && res.1.data.userId == userId && res.1.data.content == content && res.1.data.role == role
              && res.1.data.id == newId && res.1.data.createdAt == now
              && res.0 == db.(messages := db.messages + [res.1.data])
  {
    if fault.Some? then (db, Fail(SendFailed, fault.value))
    else if IdTaken(db.messages, MessageId, newId) then (db, Fail(SendFailed, UniqueViolation))
    else
      var m := Message(newId, userId, content, role, now);
      (db.(messages := db.messages + [m]), Ok(m))
  }

  /** `sendUserMessage(userId, content)`: stores the content with role
      'user'. */
  function SendUserMessage(db: Db, userId: string, content: string, newId: string, now: int,
                           fault: Option<StoreError>): (res: (Db, ApiResponse<Message>))
    ensures res.1.Ok? <==> fault.None? && !IdTaken(db.messages, MessageId, newId)
    ensures res.1.Err? ==> res.0 == db && res.1.error.message == SendFailed
    ensures res.1.Ok? ==> res.1.data == Message(newId, userId, content, User, now)
                          && res.0.messages == db.messages + [res.1.data]
  {
    Send(db, userId, content, User, newId, now, fault)
  }

  /** `sendAssistantMessage(userId, content)`: stores the content with role
      'assistant'. */
  function SendAssistantMessage(db: Db, userId: string, content: string, newId: string, now: int,
                                fault: Option<StoreError>): (res: (Db, ApiResponse<Message>))
    ensures res.1.Ok? <==> fault.None? && !IdTaken(db.messages, MessageId, newId)
    ensures res.1.Err? ==> res.0 == db && res.1.error.message == SendFailed
    ensures res.1.Ok? ==> res.1.data == Message(newId, userId, content, Assistant, now)
                          && res.0.messages == db.messages + [res.1.data]
  {
    Send(db, userId, content, Assistant, newId, now, fault)
  }

  /** `deleteMessage(id)`: removes the rows with that id and keeps every
      other row, in order; a store error changes nothing. */
  function DeleteMessage(db: Db, id: string, fault: Option<StoreError>): (res: (Db, ApiResponse<()>))
    ensures fault.Some? ==> res.0 == db && res.1.Err? && res.1.error.message == DeleteFailed
    ensures fault.None? ==> res.1.NoContent?
    ensures res.0 == db.(messages := res.0.messages)
    ensures Seqs.IsSubsequence(res.0.messages, db.messages)
    ensures fault.None? ==> forall m :: m in res.0.messages <==> m in db.messages && m.id != id
    ensures fault.None? ==> forall m :: multiset(res.0.messages)[m] == if m.id != id then multiset(db.messages)[m] else 0
  {
    match fault
    case Some(e) =>
      Seqs.SubsequenceReflexive(db.messages);
      (db, Fail(DeleteFailed, e))
    case None =>
      var keep := (m: Message) => m.id != id;
      Seqs.FilterIsSubsequence(db.messages, keep);
      forall m ensures multiset(Seqs.Filter(db.messages, keep))[m] == if m.id != id then multiset(db.messages)[m] else 0 {
        Seqs.FilterCount(db.messages, keep, m);
      }
      (db.(messages := Seqs.Filter(db.messages, keep)), NoContent)
  }

  /** `clearUserMessages(userId)`: removes exactly the user's rows; every
      other user's rows stay, in order. A store error changes nothing. */
  function ClearUserMessages(db: Db, userId: string, fault: Option<StoreError>): (res: (Db, ApiResponse<()>))
    ensures fault.Some? ==> res.0 == db && res.1.Err? && res.1.error.message == ClearFailed
    ensures fault.None? ==> res.1.NoContent?
    ensures res.0 == db.(messages := res.0.messages)
    ensures Seqs.IsSubsequence(res.0.messages, db.messages)
    ensures fault.None? ==> forall m :: m in res.0.messages <==> m in db.messages && m.userId != userId
    ensures fault.None? ==> forall m :: multiset(res.0.messages)[m] == if m.userId != userId then multiset(db.messages)[m] else 0
  {
    match fault
    case Some(e) =>
      Seqs.SubsequenceReflexive(db.messages);
      (db, Fail(ClearFailed, e))
    case None =>
      Seqs.FilterIsSubsequence(db.messages, NotOfUser(userId));
      forall m ensures multiset(Seqs.Filter(db.messages, NotOfUser(userId)))[m] == if m.userId != userId then multiset(db.messages)[m] else 0 {
        Seqs.FilterCount(db.messages, NotOfUser(userId), m);
      }
      (db.(messages := Seqs.Filter(db.messages, NotOfUser(userId))), NoContent)
  }

  /** A message sent by a user who has fewer than `limit` stored messages
      is among that user's listed messages afterwards. */
  lemma SentMessageIsListed(db: Db, userId: string, content: string, role: Role, newId: string, now: int, limit: nat)
    requires Send(db, userId, content, role, newId, now, None).1.Ok?
    requires |UserMessages(db, userId)| < limit
    ensures var (db', r) := Send(db, userId, content, role, newId, now, None);
            r.data in GetUserMessages(db', userId, limit, None).data
  {
    var (db', r) := Send(db, userId, content, role, newId, now, None);
    Seqs.FilterConcat(db.messages, [r.data], OfUser(userId));
    assert |UserMessages(db', userId)| <= limit;
  }

  /** A message sent later than every stored one, by a user who already has
      `limit` stored messages, is not among that user's listed messages
      afterwards: the list keeps the oldest. */
  lemma LateMessageIsNotListed(db: Db, userId: string, content: string, role: Role, newId: string, now: int, limit: nat)
    requires Send(db, userId, content, role, newId, now, None).1.Ok?
    requires forall m :: m in db.messages ==> m.createdAt < now
    requires |UserMessages(db, userId)| >= limit
    ensures var (db', r) := Send(db, userId, content, role, newId, now, None);
            r.data !in GetUserMessages(db', userId, limit, None).data
  {
    var (db', r) := Send(db, userId, content, role, newId, now, None);
    var m := r.data;
    var sorted := OwnOldestFirst(db', userId);
    Seqs.FilterConcat(db.messages, [m], OfUser(userId));
    assert |sorted| == |UserMessages(db, userId)| + 1;
    assert m !in db.messages;
    assert multiset(sorted)[m] <= multiset(db.messages + [m])[m] == 1;
    assert Seqs.SortedBy(sorted, SentAt);
    Seqs.TakeLeavesLargest(sorted, SentAt, limit, m);
  }

  /** After a message id is deleted, no user's list shows a message with
      that id, and every other message of the user is still stored. */
  lemma DeletedMessageIsGone(db: Db, id: string, userId: string, limit: nat)
    ensures var db' := DeleteMessage(db, id, None).0;
            && (forall m :: m in GetUserMessages(db', userId, limit, None).data ==> m.id != id)
            && (forall m :: m in UserMessages(db, userId) && m.id != id ==> m in UserMessages(db', userId))
  {
  }

  /** Clearing a user's messages empties that user's list ... */
  lemma ClearEmptiesUser(db: Db, userId: string, limit: nat)
    ensures GetUserMessages(ClearUserMessages(db, userId, None).0, userId, limit, None) == Ok([])
  {
    var db' := ClearUserMessages(db, userId, None).0;
    Seqs.FilterKeepsNone(db'.messages, OfUser(userId));
  }

  /** ... and leaves every other user's list as it was. */
  lemma ClearKeepsOthers(db: Db, userId: string, other: string, limit: nat)
    requires other != userId
    ensures GetUserMessages(ClearUserMessages(db, userId, None).0, other, limit, None)
            == GetUserMessages(db, other, limit, None)
  {
    Seqs.FilterFilter(db.messages, NotOfUser(userId), OfUser(other));
  }
}

=== FILE: messages_hook.dfy ===
/**
 * useMessages (hooks/useMessages.ts): a user's chat messages kept in
 * component state; sends append, clearing empties.
 */
module MessagesHook {
  import opened Wrappers
  import opened Types
  import opened Store
  import opened FetchState
  import opened MessageService

  type MessagesState = State<seq<Message>>

  /** What a mutation returns: `{ success: true, … }` or
      `{ success: false, error }`. */
  datatype Outcome = Succeeded | Failed(error: ApiError)

  /** `fetchMessages()`: `getUserMessages(userId)` with the default limit. */
  function Refetch(s: MessagesState, db: Db, userId: string, fault: Option<StoreError>): (t: MessagesState)
    ensures !t.loading
    ensures fault.None? ==> t.error.None? && t.value == GetUserMessages(db, userId, DefaultLimit, None).data
    ensures fault.Some? ==> t.value == s.value && t.error == Some(FetchFailed)
  {
    Fetch(s, GetUserMessages(db, userId, DefaultLimit, fault))
  }

  /** The effect on mount fetches only for a non-empty user; with an empty
      one the hook stays loading with no messages. */
  function Mount(db: Db, userId: string, fault: Option<StoreError>): (t: MessagesState)
    ensures userId == "" ==> t == Initial([])
    ensures userId != "" ==> !t.loading && (fault.None? ==> forall m :: m in t.value ==> m.userId == userId)
  {
    if userId == "" then Initial([]) else Refetch(Initial([]), db, userId, fault)
  }

  /** The hook's send: a stored message goes at the end of the list, which
      is otherwise unchanged; a failed send changes nothing. */
  function Append(s: MessagesState, db: Db, sent: (Db, ApiResponse<Message>)): (res: (Db, MessagesState, Outcome))
    requires sent.1.Ok? || sent.1.Err?
    requires sent.1.Err? ==> sent.0 == db
    ensures sent.1.Ok? ==> && res.0 == sent.0 && res.2.Succeeded?
                           && |res.1.value| == |s.value| + 1
                           && res.1.value[..|s.value|] == s.value && res.1.value[|s.value|] == sent.1.data
                           && res.1.loading == s.loading && res.1.error == s.error
    ensures sent.1.Err? ==> res == (db, s, Failed(sent.1.error))
  {
    if sent.1.Ok? then (sent.0, s.(value := s.value + [sent.1.data]), Succeeded)
    else (db, s, Failed(sent.1.error))
  }

  /** `sendUserMessage(content)`. */
  function SendUser(s: MessagesState, db: Db, userId: string, content: string, newId: string, now: int,
                    fault: Option<StoreError>): (res: (Db, MessagesState, Outcome))
    ensures res.2.Succeeded? <==> fault.None? && !IdTaken(db.messages, MessageId, newId)
    ensures res.2.Succeeded? ==> res.1 == s.(value := s.value + [Message(newId, userId, content, User, now)])
    ensures res.2.Failed? ==> res.0 == db && res.1 == s && res.2.error.message == SendFailed
  {
    Append(s, db, SendUserMessage(db, userId, content, newId, now, fault))
  }

  /** `sendAssistantMessage(content)`. */
  function SendAssistant(s: MessagesState, db: Db, userId: string, content: string, newId: string, now: int,
                         fault: Option<StoreError>): (res: (Db, MessagesState, Outcome))
    ensures res.2.Succeeded? <==> fault.None? && !IdTaken(db.messages, MessageId, newId)
    ensures res.2.Succeeded? ==> res.1 == s.(value := s.value + [Message(newId, userId, content, Assistant, now)])
    ensures res.2.Failed? ==> res.0 == db && res.1 == s && res.2.error.message == SendFailed
  {
    Append(s, db, SendAssistantMessage(db, userId, content, newId, now, fault))
  }

  /** A send keeps every earlier message where it was. */
  lemma SendKeepsEarlier(s: MessagesState, db: Db, userId: string, content: string, newId: string, now: int,
                         fault: Option<StoreError>)
    ensures var t := SendUser(s, db, userId, content, newId, now, fault).1;
            |t.value| >= |s.value| && t.value[..|s.value|] == s.value
    ensures var t := SendAssistant(s, db, userId, content, newId, now, fault).1;
            |t.value| >= |s.value| && t.value[..|s.value|] == s.value
  {
    var t := SendUser(s, db, userId, content, newId, now, fault).1;
    assert t.value == s.value || t.value[..|s.value|] == s.value;
    var u := SendAssistant(s, db, userId, content, newId, now, fault).1;
    assert u.value == s.value || u.value[..|s.value|] == s.value;
  }

  /** `clearMessages()`: the list is emptied only when the service reports
      no error. */
  function Clear(s: MessagesState, db: Db, userId: string, fault: Option<StoreError>): (res: (Db, MessagesState, Outcome))
    ensures fault.None? ==> res.1 == s.(value := []) && res.2 == Succeeded
    ensures fault.Some? ==> res.0 == db && res.1 == s && res.2.Failed? && res.2.error.message == ClearFailed
  {
    var (db', r) := ClearUserMessages(db, userId, fault);
    if !r.Err? then (db', s.(value := []), Succeeded) else (db', s, Failed(r.error))
  }

  /** After a successful clear the emptied list is what a refetch shows. */
  lemma ClearAgreesWithRefetch(s: MessagesState, db: Db, userId: string)
    ensures var (db', t, _) := Clear(s, db, userId, None);
            t.value == Refetch(t, db', userId, None).value
  {
    ClearEmptiesUser(db, userId, DefaultLimit);
  }
}

=== FILE: navigation.dfy ===
/**
 * The navigation controller of App.tsx: the current page and the selected
 * pet, the page each state renders, and the transitions the rendered page
 * offers through its callbacks.
 */
module Navigation {
  import opened Wrappers
  import opened Types

  datatype AppState = AppState(page: Page, selected: Option<Pet>)

  /** `useState<Page>('home')`, `useState<Pet | null>(null)`. */
  const Start := AppState(Home, None)

  /** The pages the tab bars link to (Home, Discovery, Messages and Profile
      only ever call `onTabChange` with one of these). */
  datatype Tab = HomeTab | DiscoveryTab | MessagesTab | ProfileTab

  function TabPage(t: Tab): Page {
    match t
    case HomeTab => Home
    case DiscoveryTab => Discovery
    case MessagesTab => Messages
    case ProfileTab => Profile
  }

  /** The callbacks App passes down. */
  datatype Event =
    | SelectPet(pet: Pet)   // onSelectPet: navigateToDetails(pet)
    | Adopt                 // PetDetails' onAdopt: navigateToForm(selectedPet)
    | Back                  // onBack of PetDetails, AdoptionForm and AIChat
    | Complete              // AdoptionForm's onComplete
    | ChangeTab(tab: Tab)   // onTabChange
    | StartAI               // onStartAI

  /** What `renderPage()` shows. */
  datatype View =
    | HomeView
    | DiscoveryView
    | MessagesView
    | DetailsView(pet: Pet)
    | FormView(pet: Pet)
    | ProfileView
    | AiChatView
    | Nothing               // `null`

  /** `renderPage()`: the details and form pages need the selected pet and
      render nothing without one. */
  function Render(s: AppState): (v: View)
    ensures v.Nothing? <==> (s.page == Details || s.page == Form) && s.selected.None?
    ensures v.DetailsView? ==> s.page == Details && s.selected == Some(v.pet)
    ensures v.FormView? ==> s.page == Form && s.selected == Some(v.pet)
  {
    match s.page
    case Home => HomeView
    case Discovery => DiscoveryView
    case Messages => MessagesView
    case Details => if s.selected.Some? then DetailsView(s.selected.value) else Nothing
    case Form => if s.selected.Some? then FormView(s.selected.value) else Nothing
    case Profile => ProfileView
    case AiChat => AiChatView
  }

  /** The callbacks the rendered page can fire. The AI chat page is handed
      `onSelectPet` but never calls it, so it offers only Back. A tab bar
      that links to its own page changes nothing, so every tab is offered on
      the four tab-bar pages. */
  predicate Offers(v: View, e: Event) {
    match e
    case SelectPet(_) => v.HomeView? || v.DiscoveryView? || v.ProfileView?
    case Adopt => v.DetailsView?
    case Back => v.DetailsView? || v.FormView? || v.AiChatView?
    case Complete => v.FormView?
    case ChangeTab(_) => v.HomeView? || v.DiscoveryView? || v.MessagesView? || v.ProfileView?
    case StartAI => v.HomeView? || v.DiscoveryView? || v.MessagesView?
  }

  /** One callback of the rendered page; a callback the page does not have
      cannot fire. Only selecting a pet changes the selection, and a state
      whose pages have their pet keeps that property. */
  function Step(s: AppState, e: Event): (r: AppState)
    ensures !Offers(Render(s), e) ==> r == s
    ensures e.SelectPet? && Offers(Render(s), e) ==> r.page == Details && r.selected == Some(e.pet)
    ensures !e.SelectPet? ==> r.selected == s.selected
    ensures Guarded(s) ==> Guarded(r)
  {
    var v := Render(s);
    if !Offers(v, e) then s
    else match e
      case SelectPet(p) => AppState(Details, Some(p))
      case Adopt => AppState(Form, Some(v.pet))
      case Back => if v.DetailsView? then s.(page := Home)
                   else if v.FormView? then s.(page := Details)
                   else s.(page := Home)
      case Complete => s.(page := Profile)
      case ChangeTab(t) => s.(page := TabPage(t))
      case StartAI => s.(page := AiChat)
  }

  /** Selecting a pet shows its details; adopting keeps that pet and opens
      the form. */
  lemma SelectThenAdopt(s: AppState, p: Pet)
    requires Offers(Render(s), SelectPet(p))
    ensures Step(s, SelectPet(p)) == AppState(Details, Some(p))
    ensures Step(Step(s, SelectPet(p)), Adopt) == AppState(Form, Some(p))
  {
  }

  /** Back from details goes home, back from the form returns to the
      details, completing the form opens the profile, and back from the AI
      chat goes home; none of them touches the selected pet. Start-AI from
      the home, discovery or messages page opens the AI chat. */
  lemma BackAndForth(s: AppState)
    ensures s.page == Details && s.selected.Some? ==> Step(s, Back) == s.(page := Home)
    ensures s.page == Form && s.selected.Some? ==>
              Step(s, Back) == s.(page := Details) && Step(s, Complete) == s.(page := Profile)
    ensures s.page == AiChat ==> Step(s, Back) == s.(page := Home)
    ensures s.page in {Home, Discovery, Messages} ==> Step(s, StartAI) == s.(page := AiChat)
    ensures Step(s, Back).selected == s.selected && Step(s, Complete).selected == s.selected
    ensures Step(s, StartAI).selected == s.selected
  {
  }

  /** On the AI chat page only Back does anything. */
  lemma AiChatOnlyGoesBack(s: AppState, e: Event)
    requires s.page == AiChat
    ensures e != Back ==> Step(s, e) == s
    ensures e == Back ==> Step(s, e) == s.(page := Home)
  {
  }

  /** Once a pet is selected some pet stays selected: the selection is only
      ever overwritten with a pet. */
  lemma SelectionNeverCleared(s: AppState, e: Event)
    requires s.selected.Some?
    ensures Step(s, e).selected.Some?
  {
  }

  /** The guard never fires in practice: a state on the details or form page
      has a selected pet. */
  predicate Guarded(s: AppState) {
    (s.page == Details || s.page == Form) ==> s.selected.Some?
  }

  function Run(s: AppState, events: seq<Event>): AppState
    decreases |events|
  {
    if |events| == 0 then s else Run(Step(s, events[0]), events[1..])
  }

  /** From the start, whatever the user does, the app never renders
      nothing. */
  lemma {:induction false} AlwaysRendersSomething(s: AppState, events: seq<Event>)
    requires Guarded(s)
    ensures Guarded(Run(s, events))
    ensures !Render(Run(s, events)).Nothing?
    decreases |events|
  {
    if |events| > 0 {
      var e := events[0];
      assert Guarded(Step(s, e)) by {
        match e
        case Adopt =>
        case _ =>
      }
      AlwaysRendersSomething(Step(s, e), events[1..]);
    }
  }

  lemma StartIsGuarded()
    ensures Guarded(Start) && Render(Start) == HomeView
  {
  }
}

=== FILE: pet_details.dfy ===
/**
 * The pet details page (pages/PetDetails.tsx): the pet's card and a short
 * adoption story written by the generative model on request.
 */
module PetDetails {
  import opened Wrappers
  import opened Types
  import Text

  /** The story when the model answers with no text. */
  const StoryFallback: string := "暂时无法生成故事，请稍后再试。"

  /** The story when the call throws. */
  const StoryFailed: string := "哎呀，AI 正在休息，请稍后点击试试。"

  /** The fixed text around the pet's name, breed, age and description in
      the story request. */
  const BeforeName: string := "写一个关于名字叫 "
  const BeforeBreed: string := " 的 "
  const BeforeAge: string := " 的简短感人故事。它今年 "
  const BeforeDescription: string := "，性格描述："
  const AfterDescription: string := "。故事应该温馨并鼓励人们领养它。字数在150字以内。"

  /** The request for a story about `p`. */
  function StoryPrompt(p: Pet): string {
    BeforeName + p.name + BeforeBreed + p.breed + BeforeAge + p.age + BeforeDescription + p.description + AfterDescription
  }

  /** The prompt names the pet, its breed and age, and quotes its
      description. */
  lemma StoryPromptMentions(p: Pet)
    ensures Text.Contains(StoryPrompt(p), p.name)
    ensures Text.Contains(StoryPrompt(p), p.breed)
    ensures Text.Contains(StoryPrompt(p), p.age)
    ensures Text.Contains(StoryPrompt(p), p.description)
  {
    Interleaved(BeforeName, p.name, BeforeBreed, p.breed, BeforeAge, p.age, BeforeDescription, p.description, AfterDescription);
  }

  /** Every field spliced into a template occurs in the result. */
  lemma Interleaved(a: string, w: string, b: string, x: string, c: string, y: string, d: string, z: string, e: string)
    ensures Text.Contains(a + w + b + x + c + y + d + z + e, w)
    ensures Text.Contains(a + w + b + x + c + y + d + z + e, x)
    ensures Text.Contains(a + w + b + x + c + y + d + z + e, y)
    ensures Text.Contains(a + w + b + x + c + y + d + z + e, z)
  {
    var s := a + w + b + x + c + y + d + z + e;
    Text.ContainsInfix(a, w, b + x + c + y + d + z + e);
    assert a + w + (b + x + c + y + d + z + e) == s;
    Text.ContainsInfix(a + w + b, x, c + y + d + z + e);
    assert a + w + b + x + (c + y + d + z + e) == s;
    Text.ContainsInfix(a + w + b + x + c, y, d + z + e);
    assert a + w + b + x + c + y + (d + z + e) == s;
    Text.ContainsInfix(a + w + b + x + c + y + d, z, e);
  }

  /** `aiStory` and `isGenerating`. */
  datatype Story = Story(text: Option<string>, generating: bool)

  const InitialStory := Story(None, false)

  /** JavaScript truthiness of `aiStory`: `null` and "" are both falsy. */
  predicate HasStory(s: Story) {
    s.text.Some? && s.text.value != ""
  }

  /** `generateStory()` starts: the card shows the spinner, and the earlier
      story is kept until the call settles. */
  function BeginStory(s: Story): (r: Story)
    ensures r.generating && r.text == s.text
    ensures forall p :: RenderStory(r, p) == Writing
  {
    s.(generating := true)
  }

  /** The call settles: the model's text, or a fixed fallback when it has
      none, or a fixed apology when it threw; generation ends either way. */
  function SettleStory(s: Story, g: Generation): (r: Story)
    ensures !r.generating && HasStory(r)
    ensures g.Replied? && g.text != "" ==> r.text == Some(g.text)
    ensures g.Replied? && g.text == "" ==> r.text == Some(StoryFallback)
    ensures g.Threw? ==> r.text == Some(StoryFailed)
  {
    match g
    case Replied(text) => Story(Some(OrElse(text, StoryFallback)), false)
    case Threw => Story(Some(StoryFailed), false)
  }

  /** What the story card shows. */
  datatype StoryView =
    | Writing                  // the spinner
    | Shown(text: string)      // the story with a regenerate button
    | Invite(petName: string)  // the call to action, with the generate button

  function RenderStory(s: Story, p: Pet): (v: StoryView)
    ensures s.generating <==> v.Writing?
    ensures v.Shown? ==> HasStory(s) && s.text == Some(v.text)
    ensures v.Invite? ==> !HasStory(s) && v.petName == p.name
  {
    if s.generating then Writing
    else if HasStory(s) then Shown(s.text.value)
    else Invite(p.name)
  }

  /** The generate button shows only when there is no story and none is
      being written. */
  predicate ShowsGenerate(s: Story) {
    !HasStory(s) && !s.generating
  }

  /** Generating from the start shows the spinner, then a non-empty story
      in place of the generate button; regenerating from a shown story
      replaces it the same way, so the generate button never comes back. */
  lemma StoryLifecycle(s: Story, p: Pet, g: Generation)
    requires !s.generating
    ensures RenderStory(BeginStory(s), p) == Writing
    ensures var t := SettleStory(BeginStory(s), g);
            && RenderStory(t, p).Shown?
            && !ShowsGenerate(t)
            && RenderStory(t, p).text == (if g.Replied? then OrElse(g.text, StoryFallback) else StoryFailed)
  {
  }

  /** The story card starts with the generate button. */
  lemma StartsWithInvite(p: Pet)
    ensures ShowsGenerate(InitialStory) && RenderStory(InitialStory, p) == Invite(p.name)
  {
  }
}

=== FILE: pet_service.dfy ===
/**
 * PetService (services/petService.ts): the `pets` queries. `getAllPets`
 * turns a `PetFilter` into a list of conjoined predicates; the model keeps
 * that list explicit (`Conditions`) and proves it means the same as a
 * direct, field-by-field reading of the filter (`Admits`).
 */
module PetService {
  import opened Wrappers
  import opened Types
  import opened Text
  import Seqs
  import opened Store

  const ListFailed := "获取宠物列表失败"
  const DetailFailed := "获取宠物详情失败"
  const UpdateFailed := "更新宠物信息失败"
  const RecommendFailed := "获取推荐宠物失败"
  const SearchFailed := "搜索宠物失败"

  /** `getRecommendedPets`' default `limit`. */
  const DefaultRecommendLimit := 6

  /** One predicate added to the `pets` query. */
  datatype Condition =
    | StatusIs(status: string)             // .eq('status', …)
    | BreedLike(breed: string)             // .ilike('breed', '%…%')
    | GenderIs(gender: Gender)             // .eq('gender', …)
    | PriceAtLeast(min: real)              // .gte('price', …)
    | PriceAtMost(max: real)               // .lte('price', …)
    | AnyTextLike(query: string)           // .or(name/breed/description ilike)
    | HasAllTags(tags: seq<string>)        // .contains('tags', …)

  /** The position of each kind of predicate in the order the query adds them. */
  function Rank(c: Condition): nat {
    match c
    case StatusIs(_) => 0
    case BreedLike(_) => 1
    case GenderIs(_) => 2
    case PriceAtLeast(_) => 3
    case PriceAtMost(_) => 4
    case AnyTextLike(_) => 5
    case HasAllTags(_) => 6
  }

  /** JavaScript truthiness of the optional filter fields: a missing field,
      the empty string, the number 0 and the empty list add nothing. */
  predicate GivenText(o: Option<string>) { o.Some? && o.value != "" }
  predicate GivenNumber(o: Option<real>) { o.Some? && o.value != 0.0 }
  predicate GivenTags(o: Option<seq<string>>) { o.Some? && |o.value| > 0 }

  /** `field ILIKE '%pattern%'`, read as a case-insensitive substring test. */
  predicate ILike(field: string, pattern: string) {
    Contains(Lower(field), Lower(pattern))
  }

  /** The search disjunction shared by `getAllPets` and `searchPets`. */
  predicate MatchesSearch(p: Pet, query: string) {
    ILike(p.name, query) || ILike(p.breed, query) || ILike(p.description, query)
  }

  /** What one predicate asks of a row. */
  predicate Holds(p: Pet, c: Condition) {
    match c
    case StatusIs(s) => PetStatusLabel(p.status) == s
    case BreedLike(b) => ILike(p.breed, b)
    case GenderIs(g) => p.gender == g
    case PriceAtLeast(m) => p.price >= m
    case PriceAtMost(m) => p.price <= m
    case AnyTextLike(q) => MatchesSearch(p, q)
    case HasAllTags(ts) => forall t :: t in ts ==> t in p.tags
  }

  /** The predicates are conjoined. */
  predicate HoldsAll(p: Pet, cs: seq<Condition>) {
    forall i :: 0 <= i < |cs| ==> Holds(p, cs[i])
  }

  /** Each field's predicate when that field is given, in the order the
      query adds them. */
  function Slots(f: PetFilter): seq<Option<Condition>> {
    [ if GivenText(f.status) then Some(StatusIs(f.status.value)) else None,
      if GivenText(f.breed) then Some(BreedLike(f.breed.value)) else None,
      if f.gender.Some? then Some(GenderIs(f.gender.value)) else None,
      if GivenNumber(f.minPrice) then Some(PriceAtLeast(f.minPrice.value)) else None,
      if GivenNumber(f.maxPrice) then Some(PriceAtMost(f.maxPrice.value)) else None,
      if GivenText(f.search) then Some(AnyTextLike(f.search.value)) else None,
      if GivenTags(f.tags) then Some(HasAllTags(f.tags.value)) else None ]
  }

  /** The predicates of the given fields, in order. */
  function Somes(slots: seq<Option<Condition>>): seq<Condition>
    decreases |slots|
  {
    if |slots| == 0 then []
    else (if slots[0].Some? then [slots[0].value] else []) + Somes(slots[1..])
  }

  /** The predicates `getAllPets` adds for a filter, in the order it adds
      them. */
  function Conditions(filters: Option<PetFilter>): seq<Condition> {
    match filters
    case None => []
    case Some(f) => Somes(Slots(f))
  }

  /** `c` is the predicate of a field of `f` that is given, and carries
      that field's value. */
  predicate FromGivenField(f: PetFilter, c: Condition) {
    match c
    case StatusIs(s) => GivenText(f.status) && s == f.status.value
    case BreedLike(b) => GivenText(f.breed) && b == f.breed.value
    case GenderIs(g) => f.gender == Some(g)
    case PriceAtLeast(m) => GivenNumber(f.minPrice) && m == f.minPrice.value
    case PriceAtMost(m) => GivenNumber(f.maxPrice) && m == f.maxPrice.value
    case AnyTextLike(q) => GivenText(f.search) && q == f.search.value
    case HasAllTags(ts) => GivenTags(f.tags) && ts == f.tags.value
  }

  /** Each kind of predicate comes after the kinds added before it. */
  predicate Increasing(cs: seq<Condition>) {
    forall i, j :: 0 <= i < j < |cs| ==> Rank(cs[i]) < Rank(cs[j])
  }

  /** Putting at most one predicate of kind `k` before predicates of later
      kinds keeps the order. */
  lemma PrependIncreasing(head: seq<Condition>, rest: seq<Condition>, k: nat)
    requires |head| <= 1 && forall c :: c in head ==> Rank(c) == k
    requires Increasing(rest) && forall c :: c in rest ==> k < Rank(c)
    ensures Increasing(head + rest)
  {
    var cs := head + rest;
    forall i, j | 0 <= i < j < |cs| ensures Rank(cs[i]) < Rank(cs[j]) {
      if i < |head| {
        assert cs[i] in head && cs[j] == rest[j - |head|] && cs[j] in rest;
      } else {
        assert cs[i] == rest[i - |head|] && cs[j] == rest[j - |head|];
      }
    }
  }

  /** A predicate is collected exactly when some slot holds it. */
  lemma {:induction false} SomesMembers(slots: seq<Option<Condition>>)
    ensures forall c :: c in Somes(slots) <==> Some(c) in slots
    decreases |slots|
  {
    if |slots| > 0 {
      SomesMembers(slots[1..]);
      assert slots == [slots[0]] + slots[1..];
    }
  }

  /** Slots whose kinds count up from `base` give predicates in kind order,
      none of a kind before `base`. */
  lemma {:induction false} SomesOrdered(slots: seq<Option<Condition>>, base: nat)
    requires forall i :: 0 <= i < |slots| && slots[i].Some? ==> Rank(slots[i].value) == base + i
    ensures Increasing(Somes(slots))
    ensures forall c :: c in Somes(slots) ==> base <= Rank(c)
    decreases |slots|
  {
    if |slots| > 0 {
      var rest := slots[1..];
      assert forall i :: 0 <= i < |rest| ==> rest[i] == slots[i + 1];
      SomesOrdered(rest, base + 1);
      var head: seq<Condition> := if slots[0].Some? then [slots[0].value] else [];
      PrependIncreasing(head, Somes(rest), base);
    }
  }

  /** Slot `i` holds a predicate of kind `i`. */
  lemma SlotRanks(f: PetFilter)
    ensures forall i :: 0 <= i < |Slots(f)| && Slots(f)[i].Some? ==> Rank(Slots(f)[i].value) == i
  {
    var sl := Slots(f);
    forall i | 0 <= i < |sl| && sl[i].Some? ensures Rank(sl[i].value) == i {
    }
  }

  /** Every slot's predicate is taken from a given field. */
  lemma SlotsFromGiven(f: PetFilter)
    ensures forall c :: Some(c) in Slots(f) ==> FromGivenField(f, c)
  {
    var sl := Slots(f);
    forall c | Some(c) in sl ensures FromGivenField(f, c) {
      var i :| 0 <= i < |sl| && sl[i] == Some(c);
    }
  }

  /** A filter's predicates follow the field order. */
  lemma ConditionsOrdered(f: PetFilter)
    ensures Increasing(Conditions(Some(f)))
  {
    SlotRanks(f);
    SomesOrdered(Slots(f), 0);
  }

  /** Each of a filter's predicates is taken from a given field. */
  lemma ConditionsFromGiven(f: PetFilter)
    ensures forall c :: c in Conditions(Some(f)) ==> FromGivenField(f, c)
  {
    SomesMembers(Slots(f));
    SlotsFromGiven(f);
  }

  /** Each given field's predicate is among the filter's predicates. */
  lemma GivenFieldsPresent(f: PetFilter)
    ensures var cs := Conditions(Some(f));
            && (GivenText(f.status) ==> StatusIs(f.status.value) in cs)
            && (GivenText(f.breed) ==> BreedLike(f.breed.value) in cs)
            && (f.gender.Some? ==> GenderIs(f.gender.value) in cs)
            && (GivenNumber(f.minPrice) ==> PriceAtLeast(f.minPrice.value) in cs)
            && (GivenNumber(f.maxPrice) ==> PriceAtMost(f.maxPrice.value) in cs)
            && (GivenText(f.search) ==> AnyTextLike(f.search.value) in cs)
            && (GivenTags(f.tags) ==> HasAllTags(f.tags.value) in cs)
  {
    var sl := Slots(f);
    SomesMembers(sl);
    assert sl[0] in sl && sl[1] in sl && sl[2] in sl && sl[3] in sl;
    assert sl[4] in sl && sl[5] in sl && sl[6] in sl;
  }

  /** Without filters the query has no predicates; with a filter, each given
      field adds its predicate carrying that field's value, every predicate
      comes from a given field (so a missing or falsy field adds none), and
      the predicates follow the field order, so no kind appears twice. */
  lemma ConditionsOnePerGivenField(filters: Option<PetFilter>)
    ensures filters.None? ==> Conditions(filters) == []
    ensures forall i, j :: 0 <= i < j < |Conditions(filters)| ==>
              Rank(Conditions(filters)[i]) < Rank(Conditions(filters)[j])
    ensures filters.Some? ==> forall c :: c in Conditions(filters) ==> FromGivenField(filters.value, c)
    ensures filters.Some? ==>
              var f, cs := filters.value, Conditions(filters);
              && (GivenText(f.status) ==> StatusIs(f.status.value) in cs)
              && (GivenText(f.breed) ==> BreedLike(f.breed.value) in cs)
              && (f.gender.Some? ==> GenderIs(f.gender.value) in cs)
              && (GivenNumber(f.minPrice) ==> PriceAtLeast(f.minPrice.value) in cs)
              && (GivenNumber(f.maxPrice) ==> PriceAtMost(f.maxPrice.value) in cs)
              && (GivenText(f.search) ==> AnyTextLike(f.search.value) in cs)
              && (GivenTags(f.tags) ==> HasAllTags(f.tags.value) in cs)
  {
    if filters.Some? {
      var f := filters.value;
      ConditionsOrdered(f);
      ConditionsFromGiven(f);
      GivenFieldsPresent(f);
    }
  }

  /** The filter read directly, field by field: the reference meaning of
      `getAllPets`' query. Price bounds are inclusive, the search looks at
      name, breed and description, and the pet must carry every requested
      tag. */
  predicate Admits(filters: Option<PetFilter>, p: Pet) {
    filters.None? ||
    var f := filters.value;
    && (GivenText(f.status) ==> PetStatusLabel(p.status) == f.status.value)
    && (GivenText(f.breed) ==> ILike(p.breed, f.breed.value))
    && (f.gender.Some? ==> p.gender == f.gender.value)
    && (GivenNumber(f.minPrice) ==> p.price >= f.minPrice.value)
    && (GivenNumber(f.maxPrice) ==> p.price <= f.maxPrice.value)
    && (GivenText(f.search) ==> MatchesSearch(p, f.search.value))
    && (GivenTags(f.tags) ==> forall t :: t in f.tags.value ==> t in p.tags)
  }

  /** A predicate of a given field holds of every pet the filter admits. */
  lemma GivenFieldHolds(f: PetFilter, p: Pet, c: Condition)
    requires Admits(Some(f), p) && FromGivenField(f, c)
    ensures Holds(p, c)
  {
    match c
    case StatusIs(_) =>
    case BreedLike(_) =>
    case GenderIs(_) =>
    case PriceAtLeast(_) =>
    case PriceAtMost(_) =>
    case AnyTextLike(_) =>
    case HasAllTags(_) =>
  }

  lemma HoldsOfMember(p: Pet, cs: seq<Condition>, c: Condition)
    requires HoldsAll(p, cs) && c in cs
    ensures Holds(p, c)
  {
    var i :| 0 <= i < |cs| && cs[i] == c;
  }

  /** A pet every built predicate holds of is admitted by the filter. */
  lemma AdmitsFromConditions(f: PetFilter, p: Pet)
    requires HoldsAll(p, Conditions(Some(f)))
    ensures Admits(Some(f), p)
  {
    ConditionsOnePerGivenField(Some(f));
    var cs := Conditions(Some(f));
    if GivenText(f.status) { HoldsOfMember(p, cs, StatusIs(f.status.value)); }
    if GivenText(f.breed) { HoldsOfMember(p, cs, BreedLike(f.breed.value)); }
    if f.gender.Some? { HoldsOfMember(p, cs, GenderIs(f.gender.value)); }
    if GivenNumber(f.minPrice) { HoldsOfMember(p, cs, PriceAtLeast(f.minPrice.value)); }
    if GivenNumber(f.maxPrice) { HoldsOfMember(p, cs, PriceAtMost(f.maxPrice.value)); }
    if GivenText(f.search) { HoldsOfMember(p, cs, AnyTextLike(f.search.value)); }
    if GivenTags(f.tags) { HoldsOfMember(p, cs, HasAllTags(f.tags.value)); }
  }

  /** Every built predicate holds of a pet the filter admits. */
  lemma ConditionsFromAdmits(f: PetFilter, p: Pet)
    requires Admits(Some(f), p)
    ensures HoldsAll(p, Conditions(Some(f)))
  {
    ConditionsFromGiven(f);
    var cs := Conditions(Some(f));
    forall i | 0 <= i < |cs|
      ensures Holds(p, cs[i])
    {
      assert cs[i] in cs;
      GivenFieldHolds(f, p, cs[i]);
    }
  }

  /** The conjunction of the built predicates is exactly the direct reading
      of the filter. */
  lemma ConditionsMeanAdmits(filters: Option<PetFilter>, p: Pet)
    ensures HoldsAll(p, Conditions(filters)) <==> Admits(filters, p)
  {
    if filters.Some? {
      if HoldsAll(p, Conditions(filters)) {
        AdmitsFromConditions(filters.value, p);
      }
      if Admits(filters, p) {
        ConditionsFromAdmits(filters.value, p);
      }
    }
  }

  /** The built predicates, as a test of one row. */
  function SatisfiesAll(filters: Option<PetFilter>): Pet -> bool {
    (p: Pet) => HoldsAll(p, Conditions(filters))
  }

  /** The rows `getAllPets` selects, before ordering. */
  function Selected(db: Db, filters: Option<PetFilter>): seq<Pet> {
    Seqs.Filter(db.pets, SatisfiesAll(filters))
  }

  /** `getAllPets(filters)`: on a store error, the error under its own
      message; otherwise exactly the pets the filter admits, newest first. */
  function GetAllPets(db: Db, filters: Option<PetFilter>, fault: Option<StoreError>): (r: ApiResponse<seq<Pet>>)
    ensures fault.Some? ==> r.Err? && r.error.message == ListFailed && r.error.details == fault.value
    ensures fault.None? ==> r.Ok?
    ensures r.Ok? ==> forall i, j :: 0 <= i < j < |r.data| ==> r.data[i].createdAt >= r.data[j].createdAt
    ensures r.Ok? ==> forall p :: p in r.data <==> p in db.pets && Admits(filters, p)
    ensures r.Ok? ==> forall p :: multiset(r.data)[p] == if Admits(filters, p) then multiset(db.pets)[p] else 0
  {
    match fault
    case Some(e) => Fail(ListFailed, e)
    case None =>
      var rows := Selected(db, filters);
      var r := NewestFirst(rows, (p: Pet) => p.createdAt);
      forall p ensures multiset(r)[p] == if Admits(filters, p) then multiset(db.pets)[p] else 0 {
        ConditionsMeanAdmits(filters, p);
        Seqs.FilterCount(db.pets, SatisfiesAll(filters), p);
      }
      forall p ensures p in r <==> p in db.pets && Admits(filters, p) {
        assert p in r <==> multiset(r)[p] > 0;
      }
      Ok(r)
  }

  /** `getPetById(id)`: the pet when exactly one row has that id; no row
      (or several) is the store's "no rows" error under this method's
      message. */
  function GetPetById(db: Db, id: string, fault: Option<StoreError>): (r: ApiResponse<Pet>)
    ensures r.Ok? || r.Err?
    ensures r.Ok? <==> fault.None? && LookupPet(db, id).Some?
    ensures r.Ok? ==> r.data in db.pets && r.data.id == id
    ensures r.Err? ==> r.error.message == DetailFailed
    ensures r.Err? && fault.None? ==> r.error.code == NoRowsCode
  {
    match fault
    case Some(e) => Fail(DetailFailed, e)
    case None =>
      match LookupPet(db, id)
      case Some(p) => Ok(p)
      case None => Fail(DetailFailed, NoRows)
  }

  /** `updatePet(id, { status })`, the one update the application makes:
      `UPDATE … WHERE id = $id` returning the single updated row. When not
      exactly one row has the id, or the store fails, nothing changes and
      the error comes back in the result; the call never throws. */
  function UpdatePetStatus(db: Db, id: string, status: PetStatus, fault: Option<StoreError>): (res: (Db, ApiResponse<Pet>))
    ensures res.1.Ok? || res.1.Err?
    ensures res.1.Err? ==> res.0 == db && res.1.error.message == UpdateFailed
    ensures res.1.Ok? <==> fault.None? && LookupPet(db, id).Some?
    ensures res.1.Ok? ==>
              && res.1.data == LookupPet(db, id).value.(status := status)
              && res.0 == db.(pets := res.0.pets)
              && |res.0.pets| == |db.pets|
              && forall i :: 0 <= i < |db.pets| ==>
                   res.0.pets[i] == (if db.pets[i].id == id then db.pets[i].(status := status) else db.pets[i])
  {
    match fault
    case Some(e) => (db, Fail(UpdateFailed, e))
    case None =>
      match LookupPet(db, id)
      case Some(p) => (db.(pets := UpdateWithId(db.pets, PetId, id, WithStatus(status))), Ok(p.(status := status)))
      case None => (db, Fail(UpdateFailed, NoRows))
  }

  /** `.eq('status', '待领养')`. */
  function IsAvailable(p: Pet): bool {
    p.status == Available
  }

  /** The pets that are 待领养, newest first. */
  function AvailableNewestFirst(db: Db): (r: seq<Pet>)
    ensures forall p :: p in r <==> p in db.pets && p.status == Available
    ensures forall i, j :: 0 <= i < j < |r| ==> r[i].createdAt >= r[j].createdAt
    ensures forall p :: multiset(r)[p] == if p.status == Available then multiset(db.pets)[p] else 0
  {
    var available := Seqs.Filter(db.pets, IsAvailable);
    var r := NewestFirst(available, (p: Pet) => p.createdAt);
    forall p ensures multiset(r)[p] == if p.status == Available then multiset(db.pets)[p] else 0 {
      Seqs.FilterCount(db.pets, IsAvailable, p);
    }
    assert forall p :: p in r <==> p in multiset(available);
    r
  }

  /** `getRecommendedPets(limit)`: the newest `limit` pets that are 待领养,
      or all of them when there are fewer. */
  function GetRecommendedPets(db: Db, limit: nat, fault: Option<StoreError>): (r: ApiResponse<seq<Pet>>)
    ensures fault.Some? ==> r.Err? && r.error.message == RecommendFailed
    ensures fault.None? ==> r.Ok?
    ensures r.Ok? ==> |r.data| <= limit
    ensures r.Ok? ==> forall p :: p in r.data ==> p in db.pets && p.status == Available
    ensures r.Ok? ==> forall i, j :: 0 <= i < j < |r.data| ==> r.data[i].createdAt >= r.data[j].createdAt
    ensures r.Ok? && |r.data| < limit ==>
              forall p :: p in db.pets && p.status == Available ==> p in r.data
    ensures r.Ok? ==> forall p :: multiset(r.data)[p] <= multiset(db.pets)[p]
    ensures r.Ok? && |r.data| < limit ==>
              forall p :: multiset(r.data)[p] == if p.status == Available then multiset(db.pets)[p] else 0
  {
    match fault
    case Some(e) => Fail(RecommendFailed, e)
    case None =>
      var r := Seqs.Take(AvailableNewestFirst(db), limit);
      NewestAvailable(db, limit);
      Ok(r)
  }

  /** The first `limit` available pets, newest first: each at most as often
      as it is stored, exactly as often when fewer than `limit` are kept. */
  lemma NewestAvailable(db: Db, limit: nat)
    ensures var r := Seqs.Take(AvailableNewestFirst(db), limit);
            && (forall p :: p in r ==> p in db.pets && p.status == Available)
            && (forall p :: multiset(r)[p] <= multiset(db.pets)[p])
            && (|r| < limit ==>
                  forall p :: multiset(r)[p] == if p.status == Available then multiset(db.pets)[p] else 0)
  {
    var sorted := AvailableNewestFirst(db);
    var r := Seqs.Take(sorted, limit);
    assert forall p :: p in r ==> p in sorted;
    assert forall p :: multiset(r)[p] <= multiset(sorted)[p];
  }

  /** The creation time, negated: ascending order on it is newest first. */
  function Age(p: Pet): int {
    -p.createdAt
  }

  /** A pet the recommendation leaves out is no newer than any it keeps. */
  lemma RecommendedAreNewest(db: Db, limit: nat, p: Pet, q: Pet)
    requires GetRecommendedPets(db, limit, None).Ok?
    requires p in GetRecommendedPets(db, limit, None).data
    requires q in db.pets && q.status == Available
    requires q !in GetRecommendedPets(db, limit, None).data
    ensures q.createdAt <= p.createdAt
  {
    var sorted := AvailableNewestFirst(db);
    assert Seqs.SortedBy(sorted, Age);
    Seqs.TakeKeepsLeast(sorted, Age, limit, p, q);
  }

  /** The search, as a test of one row. */
  function Matching(query: string): Pet -> bool {
    (p: Pet) => MatchesSearch(p, query)
  }

  /** `searchPets(query)`: the pets whose name, breed or description
      contains the query, ignoring case, newest first. */
  function SearchPets(db: Db, query: string, fault: Option<StoreError>): (r: ApiResponse<seq<Pet>>)
    ensures fault.Some? ==> r.Err? && r.error.message == SearchFailed
    ensures fault.None? ==> r.Ok?
    ensures r.Ok? ==> forall p :: p in r.data <==> p in db.pets && MatchesSearch(p, query)
    ensures r.Ok? ==> forall p :: multiset(r.data)[p] == if MatchesSearch(p, query) then multiset(db.pets)[p] else 0
    ensures r.Ok? ==> forall i, j :: 0 <= i < j < |r.data| ==> r.data[i].createdAt >= r.data[j].createdAt
  {
    match fault
    case Some(e) => Fail(SearchFailed, e)
    case None =>
      var rows := Seqs.Filter(db.pets, Matching(query));
      var r := NewestFirst(rows, (p: Pet) => p.createdAt);
      forall p ensures multiset(r)[p] == if MatchesSearch(p, query) then multiset(db.pets)[p] else 0 {
        Seqs.FilterCount(db.pets, Matching(query), p);
      }
      assert forall p :: p in r <==> p in multiset(rows);
      Ok(r)
  }

  lemma SomesSkipNone(rest: seq<Option<Condition>>)
    ensures Somes([None] + rest) == Somes(rest)
  {
    assert ([None] + rest)[1..] == rest;
  }

  /** The only predicate a search-only filter adds is the search, and only
      for a non-empty query. */
  lemma SearchOnlyConditions(query: string)
    ensures Conditions(Some(NoPetFilter.(search := Some(query)))) ==
              if query == "" then [] else [AnyTextLike(query)]
  {
    var f := NoPetFilter.(search := Some(query));
    var search: Option<Condition> := if query == "" then None else Some(AnyTextLike(query));
    var none: seq<Option<Condition>> := [None];
    var tail := [search] + none;
    assert Slots(f) == none + (none + (none + (none + (none + tail))));
    assert tail[1..] == none && none[1..] == [];
    SomesSkipNone(none + (none + (none + (none + tail))));
    SomesSkipNone(none + (none + (none + tail)));
    SomesSkipNone(none + (none + tail));
    SomesSkipNone(none + tail);
    SomesSkipNone(tail);
  }

  /** The empty query matches every pet. */
  lemma EmptyQueryMatches(p: Pet)
    ensures MatchesSearch(p, "")
  {
    assert Lower("") == "";
    assert "" <= Lower(p.name);
  }

  /** `searchPets(q)` returns the same list as `getAllPets({ search: q })`,
      including for the empty query, which matches every pet in both. */
  lemma SearchIsTheSearchFilter(db: Db, query: string)
    ensures SearchPets(db, query, None) == GetAllPets(db, Some(NoPetFilter.(search := Some(query))), None)
  {
    var filters := Some(NoPetFilter.(search := Some(query)));
    SearchOnlyConditions(query);
    forall p | p in db.pets
      ensures MatchesSearch(p, query) == HoldsAll(p, Conditions(filters))
    {
      if query == "" {
        EmptyQueryMatches(p);
      } else {
        var c := AnyTextLike(query);
        assert [c][0] == c;
        assert HoldsAll(p, [c]) <==> Holds(p, c);
      }
    }
    Seqs.FilterCongruent(db.pets, Matching(query), SatisfiesAll(filters));
  }
}

=== FILE: pets_hook.dfy ===
/**
 * usePets and usePet (hooks/usePets.ts): the pet list for a filter, and
 * one pet, kept in component state.
 */
module PetsHook {
  import opened Wrappers
  import opened Types
  import opened Store
  import opened FetchState
  import opened PetService

  type PetsState = State<seq<Pet>>

  /** The effect's dependency list: `filters?.status`, `filters?.breed`,
      `filters?.gender`, `filters?.search` (undefined without a filter). */
  function Deps(filters: Option<PetFilter>): (Option<string>, Option<string>, Option<Gender>, Option<string>) {
    match filters
    case None => (None, None, None, None)
    case Some(f) => (f.status, f.breed, f.gender, f.search)
  }

  /** The effect runs again when a dependency differs from the previous
      render's. */
  predicate DepsChanged(before: Option<PetFilter>, after: Option<PetFilter>) {
    Deps(before) != Deps(after)
  }

  /** `fetchPets()`: the whole filter object goes to `getAllPets`. */
  function Refetch(s: PetsState, db: Db, filters: Option<PetFilter>, fault: Option<StoreError>): (t: PetsState)
    ensures !t.loading
    ensures fault.None? ==> t.error.None? && forall p :: p in t.value <==> p in db.pets && Admits(filters, p)
    ensures fault.None? ==> t.value == GetAllPets(db, filters, None).data
    ensures fault.None? ==> forall p :: multiset(t.value)[p] == if Admits(filters, p) then multiset(db.pets)[p] else 0
    ensures fault.Some? ==> t.value == s.value && t.error == Some(PetService.ListFailed)
  {
    Fetch(s, GetAllPets(db, filters, fault))
  }

  /** The first render always fetches. */
  function Mount(db: Db, filters: Option<PetFilter>, fault: Option<StoreError>): PetsState {
    Refetch(Initial([]), db, filters, fault)
  }

  /** A later render with new filters: it fetches only when a dependency
      changed, and otherwise keeps the list it has. */
  function Rerender(s: PetsState, db: Db, before: Option<PetFilter>, after: Option<PetFilter>,
                    fault: Option<StoreError>): (t: PetsState)
    ensures !DepsChanged(before, after) ==> t == s
    ensures DepsChanged(before, after) && fault.None? ==>
              forall p :: p in t.value <==> p in db.pets && Admits(after, p)
  {
    if DepsChanged(before, after) then Refetch(s, db, after, fault) else s
  }

  /** Changing only the price bounds or the tags does not refetch, so the
      list can keep a pet the new filter rejects: after the minimum price is
      raised above a listed pet's price, that pet is still shown. */
  lemma PriceChangeKeepsStaleList(db: Db, pet: Pet, min: real)
    requires pet in db.pets
    requires min != 0.0 && pet.price < min
    ensures var before := Some(NoPetFilter);
            var after := Some(NoPetFilter.(minPrice := Some(min)));
            && pet in Rerender(Mount(db, before, None), db, before, after, None).value
            && !Admits(after, pet)
  {
    var before := Some(NoPetFilter);
    var after := Some(NoPetFilter.(minPrice := Some(min)));
    assert Admits(before, pet);
    assert Deps(before) == Deps(after);
  }

  type PetState = State<Option<Pet>>

  /** `usePet(id)` on mount: `null` and loading at first; it fetches only for
      a non-empty id. */
  function MountPet(db: Db, id: string, fault: Option<StoreError>): (t: PetState)
    ensures id == "" ==> t == Initial(None)
    ensures id != "" ==> !t.loading
    ensures id != "" ==> (t.value.Some? <==> fault.None? && LookupPet(db, id).Some?)
    ensures id != "" && t.value.None? ==> t.error == Some(PetService.DetailFailed)
    ensures t.value.Some? ==> t.value.value in db.pets && t.value.value.id == id
  {
    if id == "" then Initial(None) else Fetch(Initial(None), SomeData(GetPetById(db, id, fault)))
  }
}

=== FILE: seqs.dfy ===
/**
 * Sequence operations shared by the store's query semantics and the hooks'
 * list reconciliation: order-preserving filtering, ordering by a key, and
 * `limit`.
 */
module Seqs {

  /** `a` is `b` with some elements left out, the rest in their order. */
  predicate IsSubsequence<T(==)>(a: seq<T>, b: seq<T>)
    decreases |b|
  {
    && |a| <= |b|
    && (|a| == 0
        || (a[0] == b[0] && IsSubsequence(a[1..], b[1..]))
        || IsSubsequence(a, b[1..]))
  }

  /** Every sequence is a subsequence of itself. */
  lemma {:induction false} SubsequenceReflexive<T>(s: seq<T>)
    ensures IsSubsequence(s, s)
    decreases |s|
  {
    if |s| > 0 {
      SubsequenceReflexive(s[1..]);
    }
  }

  /** `s.filter(p)`. */
  function Filter<T(==)>(s: seq<T>, p: T -> bool): (r: seq<T>)
    ensures |r| <= |s|
    ensures forall i :: 0 <= i < |r| ==> r[i] in s && p(r[i])
    ensures forall i :: 0 <= i < |s| && p(s[i]) ==> s[i] in r
    decreases |s|
  {
    if |s| == 0 then []
    else if p(s[0]) then [s[0]] + Filter(s[1..], p)
    else Filter(s[1..], p)
  }

  /** Filtering keeps the kept elements in their order. */
  lemma {:induction false} FilterIsSubsequence<T>(s: seq<T>, p: T -> bool)
    ensures IsSubsequence(Filter(s, p), s)
    decreases |s|
  {
    if |s| > 0 {
      FilterIsSubsequence(s[1..], p);
    }
  }

  /** No two positions of `s` have the same key. */
  predicate UniqueBy<T, K(==)>(s: seq<T>, key: T -> K) {
    forall i, j :: 0 <= i < j < |s| ==> key(s[i]) != key(s[j])
  }

  /** Filtering a list whose keys are unique leaves them unique. */
  lemma {:induction false} FilterKeepsUniqueBy<T, K>(s: seq<T>, p: T -> bool, key: T -> K)
    requires UniqueBy(s, key)
    ensures UniqueBy(Filter(s, p), key)
    decreases |s|
  {
    if |s| > 0 {
      var tail := s[1..];
      assert UniqueBy(tail, key) by {
        forall i, j | 0 <= i < j < |tail| ensures key(tail[i]) != key(tail[j]) {
          assert tail[i] == s[i + 1] && tail[j] == s[j + 1];
        }
      }
      FilterKeepsUniqueBy(tail, p, key);
      var rest := Filter(tail, p);
      if p(s[0]) {
        var r := [s[0]] + rest;
        forall i, j | 0 <= i < j < |r| ensures key(r[i]) != key(r[j]) {
          assert r[j] == rest[j - 1] && r[j] in tail;
          if i == 0 {
            var k :| 0 <= k < |tail| && tail[k] == r[j];
            assert s[k + 1] == r[j];
          } else {
            assert r[i] == rest[i - 1];
          }
        }
      }
    }
  }

  /** Filtering keeps each element the predicate accepts as often as it
      occurs, and no other. */
  lemma {:induction false} FilterCount<T>(s: seq<T>, p: T -> bool, x: T)
    ensures multiset(Filter(s, p))[x] == if p(x) then multiset(s)[x] else 0
    decreases |s|
  {
    if |s| > 0 {
      assert s == [s[0]] + s[1..];
      assert multiset(s) == multiset{s[0]} + multiset(s[1..]);
      FilterCount(s[1..], p, x);
    }
  }

  /** An element found at two positions occurs at least twice. */
  lemma TwoPositions<T>(s: seq<T>, i: nat, j: nat)
    requires i < j < |s| && s[i] == s[j]
    ensures multiset(s)[s[i]] >= 2
  {
    assert s == s[..j] + s[j..];
    assert s[i] == s[..j][i] && s[j] == s[j..][0];
    assert multiset(s) == multiset(s[..j]) + multiset(s[j..]);
  }

  /** Filtering with a predicate that keeps everything changes nothing. */
  lemma {:induction false} FilterKeepsAll<T>(s: seq<T>, p: T -> bool)
    requires forall x :: x in s ==> p(x)
    ensures Filter(s, p) == s
    decreases |s|
  {
    if |s| > 0 {
      FilterKeepsAll(s[1..], p);
    }
  }

  /** Filtering with a predicate that keeps nothing leaves nothing. */
  lemma {:induction false} FilterKeepsNone<T>(s: seq<T>, p: T -> bool)
    requires forall i :: 0 <= i < |s| ==> !p(s[i])
    ensures Filter(s, p) == []
    decreases |s|
  {
    if |s| > 0 {
      FilterKeepsNone(s[1..], p);
    }
  }

  /** Filtering a three-element sequence keeps each element on its own. */
  lemma FilterThree<T>(a: T, b: T, c: T, p: T -> bool)
    ensures Filter([a, b, c], p)
            == (if p(a) then [a] else []) + (if p(b) then [b] else []) + (if p(c) then [c] else [])
  {
    assert [a, b, c][1..] == [b, c];
    assert [b, c][1..] == [c];
    assert [c][1..] == [];
    assert Filter([c], p) == (if p(c) then [c] else []);
    assert Filter([b, c], p) == (if p(b) then [b] else []) + Filter([c], p);
    assert Filter([a, b, c], p) == (if p(a) then [a] else []) + Filter([b, c], p);
  }

  /** Filtering distributes over concatenation. */
  lemma {:induction false} FilterConcat<T>(a: seq<T>, b: seq<T>, p: T -> bool)
    ensures Filter(a + b, p) == Filter(a, p) + Filter(b, p)
    decreases |a|
  {
    if |a| == 0 {
      assert a + b == b;
    } else {
      assert (a + b)[1..] == a[1..] + b;
      FilterConcat(a[1..], b, p);
    }
  }

  /** Filtering out one element that every other element passes removes
      just that element. */
  lemma FilterDropsOne<T>(a: seq<T>, x: T, b: seq<T>, p: T -> bool)
    requires forall y :: y in a ==> p(y)
    requires forall y :: y in b ==> p(y)
    requires !p(x)
    ensures Filter(a + [x] + b, p) == a + b
  {
    assert Filter(a + [x], p) == a by {
      FilterConcat(a, [x], p);
      FilterKeepsAll(a, p);
      assert Filter([x], p) == [];
      assert a + [] == a;
    }
    assert Filter(b, p) == b by {
      FilterKeepsAll(b, p);
    }
    FilterConcat(a + [x], b, p);
  }

  /** Filtering twice, with a second predicate stronger than the first, is
      filtering once with the second. */
  lemma {:induction false} FilterFilter<T>(s: seq<T>, p: T -> bool, q: T -> bool)
    requires forall i :: 0 <= i < |s| && q(s[i]) ==> p(s[i])
    ensures Filter(Filter(s, p), q) == Filter(s, q)
    decreases |s|
  {
    if |s| > 0 {
      FilterFilter(s[1..], p, q);
    }
  }

  /** Filtering depends only on the predicate's values on the elements. */
  lemma {:induction false} FilterCongruent<T>(s: seq<T>, p: T -> bool, q: T -> bool)
    requires forall x :: x in s ==> p(x) == q(x)
    ensures Filter(s, p) == Filter(s, q)
    decreases |s|
  {
    if |s| > 0 {
      FilterCongruent(s[1..], p, q);
    }
  }

  /** The elements of `s` in non-decreasing order of `key`. */
  predicate SortedBy<T>(s: seq<T>, key: T -> int) {
    forall i, j :: 0 <= i < j < |s| ==> key(s[i]) <= key(s[j])
  }

  /** The head of a sorted sequence has the least key. */
  lemma SortedHeadLeast<T>(s: seq<T>, key: T -> int)
    requires SortedBy(s, key) && |s| > 0
    ensures forall y :: y in s ==> key(s[0]) <= key(y)
  {
    forall y | y in s
      ensures key(s[0]) <= key(y)
    {
      var k :| 0 <= k < |s| && s[k] == y;
    }
  }

  /** An element no larger than every element of a sorted sequence can go
      in front of it. */
  lemma ConsSorted<T>(x: T, s: seq<T>, key: T -> int)
    requires SortedBy(s, key)
    requires forall y :: y in s ==> key(x) <= key(y)
    ensures SortedBy([x] + s, key)
  {
    var r := [x] + s;
    forall i, j | 0 <= i < j < |r| ensures key(r[i]) <= key(r[j]) {
      assert r[j] == s[j - 1] && r[j] in s;
      if i > 0 {
        assert r[i] == s[i - 1];
      }
    }
  }

  /** Inserting a larger element into the tail of a sorted sequence keeps
      every element at least the head. */
  lemma HeadBoundsInsert<T>(x: T, s: seq<T>, rest: seq<T>, key: T -> int)
    requires SortedBy(s, key) && |s| > 0 && key(s[0]) < key(x)
    requires multiset(rest) == multiset(s[1..]) + multiset{x}
    ensures forall y :: y in rest ==> key(s[0]) <= key(y)
  {
    SortedHeadLeast(s, key);
    forall y | y in rest ensures key(s[0]) <= key(y) {
      assert y in multiset(rest);
      if y != x {
        assert y in multiset(s[1..]);
        assert y in s;
      }
    }
  }

  /** Inserts `x` into a sorted sequence before the first element with a
      larger key. */
  function InsertBy<T(==)>(x: T, s: seq<T>, key: T -> int): (r: seq<T>)
    requires SortedBy(s, key)
    ensures SortedBy(r, key)
    ensures multiset(r) == multiset(s) + multiset{x}
    decreases |s|
  {
    if |s| == 0 then [x]
    else if key(x) <= key(s[0]) then
      SortedHeadLeast(s, key);
      ConsSorted(x, s, key);
      [x] + s
    else
      assert SortedBy(s[1..], key);
      var rest := InsertBy(x, s[1..], key);
      HeadBoundsInsert(x, s, rest, key);
      ConsSorted(s[0], rest, key);
      assert s == [s[0]] + s[1..];
      [s[0]] + rest
  }

  /** `ORDER BY key`: a permutation of `s`, sorted by `key`. */
  function SortBy<T(==)>(s: seq<T>, key: T -> int): (r: seq<T>)
    ensures SortedBy(r, key)
    ensures multiset(r) == multiset(s)
    decreases |s|
  {
    if |s| == 0 then []
    else
      assert s == [s[0]] + s[1..];
      InsertBy(s[0], SortBy(s[1..], key), key)
  }

  /** `LIMIT n`: the first `n` elements, or all of them when there are fewer. */
  function Take<T>(s: seq<T>, n: nat): (r: seq<T>)
    ensures |r| <= n && |r| <= |s|
    ensures r == s[..|r|]
    ensures |r| == n || r == s
    ensures multiset(r) <= multiset(s)
  {
    if n < |s| then
      assert s == s[..n] + s[n..];
      s[..n]
    else s
  }

  /** In a sorted sequence, an element the first `n` leave out has a key no
      smaller than that of any element they keep. */
  lemma TakeKeepsLeast<T>(s: seq<T>, key: T -> int, n: nat, kept: T, left: T)
    requires SortedBy(s, key)
    requires kept in Take(s, n) && left in s && left !in Take(s, n)
    ensures key(kept) <= key(left)
  {
    var r := Take(s, n);
    var i :| 0 <= i < |r| && r[i] == kept;
    var j :| 0 <= j < |s| && s[j] == left;
    assert s[i] == kept;
  }

  /** In a sorted sequence, an element that occurs once and has a larger
      key than every other element is not among the first `n` when there
      are more than `n`. */
  lemma TakeLeavesLargest<T>(s: seq<T>, key: T -> int, n: nat, x: T)
    requires SortedBy(s, key) && n < |s|
    requires multiset(s)[x] <= 1
    requires forall y :: y in s && y != x ==> key(y) < key(x)
    ensures x !in Take(s, n)
  {
    var r := Take(s, n);
    if x in r {
      var i :| 0 <= i < |r| && r[i] == x;
      assert s[i] == x;
      var last := |s| - 1;
      assert key(s[i]) <= key(s[last]);
      TwoPositions(s, i, last);
      assert false;
    }
  }

  /** `s.map(f)`. */
  function Map<A, B>(s: seq<A>, f: A -> B): (r: seq<B>)
    ensures |r| == |s| && forall i :: 0 <= i < |s| ==> r[i] == f(s[i])
  {
    seq(|s|, i requires 0 <= i < |s| => f(s[i]))
  }
}

=== FILE: store.dfy ===
/**
 * The hosted relational store, as an in-memory value: four tables whose
 * rows carry their creation time. Each service call reads or writes this
 * value; a call can also fail outright, which the services receive as a
 * `fault` parameter (`Some(error)` when the store reports an error).
 */
module Store {
  import opened Wrappers
  import opened Types
  import Seqs

  datatype Db = Db(
    pets: seq<Pet>,
    applications: seq<ApplicationRow>,
    favorites: seq<FavoriteRow>,
    messages: seq<Message>)

  /** PostgREST's code for a single-row request (`.single()`) whose query did
      not match exactly one row. */
  const NoRowsCode := "PGRST116"
  const NoRows := StoreError(NoRowsCode, "JSON object requested, multiple (or no) rows returned")

  /** PostgreSQL's code for an insert whose primary key is already taken. */
  const UniqueViolationCode := "23505"
  const UniqueViolation := StoreError(UniqueViolationCode, "duplicate key value violates unique constraint")

  /** No two rows share an id. */
  predicate UniqueIds<T>(rows: seq<T>, id: T -> string) {
    forall i, j :: 0 <= i < j < |rows| ==> id(rows[i]) != id(rows[j])
  }

  /** `ORDER BY created_at DESC`. */
  function NewestFirst<T(==)>(rows: seq<T>, created: T -> int): (r: seq<T>)
    ensures forall i, j :: 0 <= i < j < |r| ==> created(r[i]) >= created(r[j])
    ensures multiset(r) == multiset(rows)
  {
    var r := Seqs.SortBy(rows, (x: T) => -created(x));
    assert forall i, j :: 0 <= i < j < |r| ==> -created(r[i]) <= -created(r[j]);
    r
  }

  /** `ORDER BY created_at ASC`. */
  function OldestFirst<T(==)>(rows: seq<T>, created: T -> int): (r: seq<T>)
    ensures forall i, j :: 0 <= i < j < |r| ==> created(r[i]) <= created(r[j])
    ensures multiset(r) == multiset(rows)
  {
    Seqs.SortBy(rows, created)
  }

  /** The row has id `x`. */
  function HasId<T>(id: T -> string, x: string): T -> bool {
    (r: T) => id(r) == x
  }

  /** The rows whose id is `x`. */
  function WithId<T(==)>(rows: seq<T>, id: T -> string, x: string): seq<T> {
    Seqs.Filter(rows, HasId(id, x))
  }

  /** With unique ids, at most one row has a given id. */
  lemma {:induction false} AtMostOneWithId<T>(rows: seq<T>, id: T -> string, x: string)
    requires UniqueIds(rows, id)
    ensures |WithId(rows, id, x)| <= 1
    decreases |rows|
  {
    if |rows| > 0 {
      var rest := rows[1..];
      assert UniqueIds(rest, id);
      AtMostOneWithId(rest, id, x);
      if id(rows[0]) == x {
        assert forall k :: 0 <= k < |rest| ==> id(rest[k]) != x;
        Seqs.FilterKeepsNone(rest, HasId(id, x));
      }
    }
  }

  /** Some row has id `x`. */
  predicate IdTaken<T>(rows: seq<T>, id: T -> string, x: string) {
    exists i :: 0 <= i < |rows| && id(rows[i]) == x
  }

  /** `.eq('id', x).single()`: the row when exactly one row has id `x`,
      otherwise nothing (the store's "no rows" error). */
  function Single<T(==)>(rows: seq<T>, id: T -> string, x: string): (r: Option<T>)
    ensures r.Some? <==> |WithId(rows, id, x)| == 1
    ensures r.Some? ==> r.value in rows && id(r.value) == x
  {
    var found := WithId(rows, id, x);
    if |found| == 1 then Some(found[0]) else None
  }

  /** With unique ids, the single-row read finds every row by its id, and
      finds nothing for an id no row has. */
  lemma SingleFindsUnique<T>(rows: seq<T>, id: T -> string, row: T)
    requires UniqueIds(rows, id)
    requires row in rows
    ensures Single(rows, id, id(row)) == Some(row)
  {
    AtMostOneWithId(rows, id, id(row));
    assert row in WithId(rows, id, id(row));
  }

  lemma SingleMissesAbsent<T>(rows: seq<T>, id: T -> string, x: string)
    requires !IdTaken(rows, id, x)
    ensures Single(rows, id, x).None?
  {
    Seqs.FilterKeepsNone(rows, (r: T) => id(r) == x);
  }

  /** Appending a row with a fresh id keeps the ids unique. */
  lemma AppendKeepsUnique<T>(rows: seq<T>, id: T -> string, row: T)
    requires UniqueIds(rows, id)
    requires !IdTaken(rows, id, id(row))
    ensures UniqueIds(rows + [row], id)
  {
  }

  /** `UPDATE … WHERE id = $x`: applies `f` to the rows whose id is `x`. */
  function UpdateWithId<T>(rows: seq<T>, id: T -> string, x: string, f: T -> T): (r: seq<T>)
    ensures |r| == |rows|
    ensures forall i :: 0 <= i < |rows| && id(rows[i]) == x ==> r[i] == f(rows[i])
    ensures forall i :: 0 <= i < |rows| && id(rows[i]) != x ==> r[i] == rows[i]
  {
    seq(|rows|, i requires 0 <= i < |rows| => if id(rows[i]) == x then f(rows[i]) else rows[i])
  }

  /** After an id-preserving update, the rows with id `x` are the old ones,
      updated, in their order. */
  lemma {:induction false} UpdatedWithId<T>(rows: seq<T>, id: T -> string, x: string, f: T -> T)
    requires forall i :: 0 <= i < |rows| ==> id(f(rows[i])) == id(rows[i])
    ensures WithId(UpdateWithId(rows, id, x, f), id, x) == Seqs.Map(WithId(rows, id, x), f)
    decreases |rows|
  {
    if |rows| > 0 {
      var u := UpdateWithId(rows, id, x, f);
      var tail := UpdateWithId(rows[1..], id, x, f);
      assert u[1..] == tail;
      UpdatedWithId(rows[1..], id, x, f);
      var found := WithId(rows[1..], id, x);
      if id(rows[0]) == x {
        assert WithId(rows, id, x) == [rows[0]] + found;
        assert Seqs.Map([rows[0]] + found, f) == [f(rows[0])] + Seqs.Map(found, f);
      }
    }
  }

  /** An update that keeps ids keeps them unique. */
  lemma UpdateKeepsUnique<T>(rows: seq<T>, id: T -> string, x: string, f: T -> T)
    requires UniqueIds(rows, id)
    requires forall i :: 0 <= i < |rows| ==> id(f(rows[i])) == id(rows[i])
    ensures UniqueIds(UpdateWithId(rows, id, x, f), id)
  {
  }

  /** The id accessors of the four tables, as function values. */
  function PetId(p: Pet): string { p.id }
  function ApplicationId(a: ApplicationRow): string { a.id }
  function FavoriteId(f: FavoriteRow): string { f.id }
  function MessageId(m: Message): string { m.id }

  /** The pets whose id is `id`. */
  function PetsWithId(db: Db, id: string): seq<Pet> {
    WithId(db.pets, PetId, id)
  }

  /** `pets WHERE id = $id`, `.single()`: the pet when exactly one row has
      that id, otherwise nothing. */
  function LookupPet(db: Db, id: string): (r: Option<Pet>)
    ensures r.Some? <==> |PetsWithId(db, id)| == 1
    ensures r.Some? ==> r.value in db.pets && r.value.id == id
  {
    Single(db.pets, PetId, id)
  }

  /** `{ status }`, the one pet update the application makes. */
  function WithStatus(status: PetStatus): Pet -> Pet {
    (q: Pet) => q.(status := status)
  }

  /** Setting a pet's status keeps it the single pet with its id. */
  lemma LookupAfterStatus(db: Db, id: string, status: PetStatus)
    requires LookupPet(db, id).Some?
    ensures LookupPet(db.(pets := UpdateWithId(db.pets, PetId, id, WithStatus(status))), id)
              == Some(LookupPet(db, id).value.(status := status))
  {
    UpdatedWithId(db.pets, PetId, id, WithStatus(status));
  }

  /** With unique pet ids, a pet is found exactly when it is in the table,
      and the lookup returns that very row. */
  lemma LookupFindsUniquePet(db: Db, p: Pet)
    requires UniqueIds(db.pets, PetId)
    requires p in db.pets
    ensures LookupPet(db, p.id) == Some(p)
  {
    SingleFindsUnique(db.pets, PetId, p);
  }
}

=== FILE: text.dfy ===
/**
 * The string primitives the application relies on: JavaScript's `trim`,
 * `toLowerCase`, `includes` and `Array.prototype.join`, over `seq<char>`.
 */
module Text {

  /** The code points `String.prototype.trim` strips: ECMAScript WhiteSpace
      (tab, vertical tab, form feed, the byte order mark and every space
      separator) and LineTerminator. */
  predicate IsSpace(c: char) {
    || c == ' ' || c == '\t' || c == '\n' || c == '\r'
    || c == '\U{000B}' || c == '\U{000C}' || c == '\U{00A0}' || c == '\U{1680}'
    || ('\U{2000}' <= c <= '\U{200A}')
    || c == '\U{2028}' || c == '\U{2029}' || c == '\U{202F}' || c == '\U{205F}'
    || c == '\U{3000}' || c == '\U{FEFF}'
  }

  /** Every character is white space (the empty string is blank). */
  predicate Blank(s: string) {
    forall i :: 0 <= i < |s| ==> IsSpace(s[i])
  }

  /** How many white-space characters `s` starts with. */
  function LeadingSpaces(s: string): (k: nat)
    ensures k <= |s|
    ensures forall i :: 0 <= i < k ==> IsSpace(s[i])
    ensures k == |s| || !IsSpace(s[k])
    decreases |s|
  {
    if |s| > 0 && IsSpace(s[0]) then
      var k := LeadingSpaces(s[1..]);
      assert forall i :: 1 <= i < 1 + k ==> s[i] == s[1..][i - 1];
      1 + k
    else 0
  }

  /** Where the white space that `s` ends with begins. */
  function TrailingStart(s: string): (k: nat)
    ensures k <= |s|
    ensures forall i :: k <= i < |s| ==> IsSpace(s[i])
    ensures k == 0 || !IsSpace(s[k - 1])
    decreases |s|
  {
    if |s| > 0 && IsSpace(s[|s| - 1]) then TrailingStart(s[..|s| - 1]) else |s|
  }

  /** Drops the leading white space. */
  function TrimStart(s: string): (r: string)
    ensures r == [] || !IsSpace(r[0])
  {
    s[LeadingSpaces(s)..]
  }

  /** Drops the trailing white space. */
  function TrimEnd(s: string): (r: string)
    ensures r == [] || !IsSpace(r[|r| - 1])
  {
    s[..TrailingStart(s)]
  }

  /** `s.trim()`. */
  function Trim(s: string): string {
    TrimEnd(TrimStart(s))
  }

  /** `!s.trim()` holds exactly for the blank strings. */
  lemma TrimEmptyIffBlank(s: string)
    ensures Trim(s) == [] <==> Blank(s)
  {
    var a := LeadingSpaces(s);
    var t := s[a..];
    var b := TrailingStart(t);
    if b == 0 {
      assert a == |s|;
    }
  }

  /** A string that starts with a visible character is not blank. */
  lemma VisibleFirstNotBlank(s: string)
    requires |s| > 0 && !IsSpace(s[0])
    ensures Trim(s) != []
  {
    TrimEmptyIffBlank(s);
  }

  /** Case mapping of one character; only the ASCII letters have a
      lower-case form in this model. */
  function LowerChar(c: char): char {
    if 'A' <= c <= 'Z' then (c as int + 32) as char else c
  }

  /** `s.toLowerCase()`. */
  function Lower(s: string): string {
    seq(|s|, i requires 0 <= i < |s| => LowerChar(s[i]))
  }

  /** `hay.includes(needle)`: `needle` occurs in `hay` as a contiguous block. */
  predicate Contains(hay: string, needle: string)
    decreases |hay|
  {
    needle <= hay || (|hay| > 0 && Contains(hay[1..], needle))
  }

  lemma {:induction false} ContainsPrepend(a: string, b: string, needle: string)
    requires Contains(b, needle)
    ensures Contains(a + b, needle)
    decreases |a|
  {
    if a == [] {
      assert a + b == b;
    } else {
      assert (a + b)[1..] == a[1..] + b;
      ContainsPrepend(a[1..], b, needle);
    }
  }

  lemma {:induction false} ContainsAppend(a: string, b: string, needle: string)
    requires Contains(a, needle)
    ensures Contains(a + b, needle)
    decreases |a|
  {
    if needle <= a {
      assert needle <= a + b;
    } else {
      assert (a + b)[1..] == a[1..] + b;
      ContainsAppend(a[1..], b, needle);
    }
  }

  /** A string contains every block it is built around. */
  lemma ContainsInfix(x: string, y: string, z: string)
    ensures Contains(x + y + z, y)
  {
    assert y <= y + z;
    ContainsPrepend(x, y + z, y);
    assert x + (y + z) == x + y + z;
  }

  /** `parts.join(sep)`. */
  function Join(parts: seq<string>, sep: string): string
    decreases |parts|
  {
    if |parts| == 0 then ""
    else if |parts| == 1 then parts[0]
    else parts[0] + sep + Join(parts[1..], sep)
  }

  /** Joining keeps every part, verbatim. */
  lemma {:induction false} JoinContainsEach(parts: seq<string>, sep: string, i: nat)
    requires i < |parts|
    ensures Contains(Join(parts, sep), parts[i])
    decreases |parts|
  {
    if |parts| == 1 {
      ContainsInfix("", parts[0], "");
      assert "" + parts[0] + "" == parts[0];
    } else if i == 0 {
      ContainsInfix("", parts[0], sep + Join(parts[1..], sep));
      assert "" + parts[0] + (sep + Join(parts[1..], sep)) == Join(parts, sep);
    } else {
      JoinContainsEach(parts[1..], sep, i - 1);
      ContainsPrepend(parts[0] + sep, Join(parts[1..], sep), parts[i]);
    }
  }

  /** Joining keeps the parts in order: a part added at the end comes after
      everything joined so far. */
  lemma {:induction false} JoinSnoc(parts: seq<string>, p: string, sep: string)
    requires |parts| > 0
    ensures Join(parts + [p], sep) == Join(parts, sep) + sep + p
    decreases |parts|
  {
    if |parts| > 1 {
      assert (parts + [p])[1..] == parts[1..] + [p];
      JoinSnoc(parts[1..], p, sep);
    }
  }
}

=== FILE: toast.dfy ===
/**
 * The toast list of useToast (components/Toast.tsx): showing a toast
 * appends it under an id, closing one removes the toasts with its id.
 *
 * The hook's ids are `Date.now().toString()`. Distinct clock readings give
 * distinct decimal strings, so the model keeps the reading itself as the id.
 */
module Toasts {
  import Seqs

  datatype ToastType = Success | Error | Warning | Info

  datatype Toast = Toast(id: nat, kind: ToastType, message: string)

  /** The container shows each toast for 5000 ms before closing it. */
  const ContainerDuration: nat := 5000

  /** The toasts `removeToast(id)` keeps. */
  function Keeps(id: nat): Toast -> bool {
    (t: Toast) => t.id != id
  }

  /** A toast's id. */
  function IdOf(t: Toast): nat {
    t.id
  }

  /** `removeToast(id)`: every toast with that id goes, the rest stay in
      order. */
  function RemoveToast(toasts: seq<Toast>, id: nat): (r: seq<Toast>)
    ensures Seqs.IsSubsequence(r, toasts)
    ensures forall t :: t in r <==> t in toasts && t.id != id
    ensures forall t :: multiset(r)[t] == if t.id != id then multiset(toasts)[t] else 0
  {
    Seqs.FilterIsSubsequence(toasts, Keeps(id));
    forall t ensures multiset(Seqs.Filter(toasts, Keeps(id)))[t] == if t.id != id then multiset(toasts)[t] else 0 {
      Seqs.FilterCount(toasts, Keeps(id), t);
    }
    Seqs.Filter(toasts, Keeps(id))
  }

  /** No two toasts share an id. */
  predicate UniqueIds(toasts: seq<Toast>) {
    forall i, j :: 0 <= i < j < |toasts| ==> toasts[i].id != toasts[j].id
  }

  /** `showToast(type, message)` as written: the toast's id is the clock
      reading `now`, whatever ids are already in use. */
  function ShowToastAt(toasts: seq<Toast>, now: nat, kind: ToastType, message: string): (r: seq<Toast>)
    ensures |r| == |toasts| + 1 && r[..|toasts|] == toasts && r[|toasts|] == Toast(now, kind, message)
  {
    toasts + [Toast(now, kind, message)]
  }

  /** Two toasts shown within the same millisecond get the same id: the list
      no longer has unique ids, and closing either one closes both. */
  lemma SameMillisecondCollides()
    ensures var shown := ShowToastAt(ShowToastAt([], 7, Success, "已收藏"), 7, Error, "添加收藏失败");
            && |shown| == 2
            && !UniqueIds(shown)
            && RemoveToast(shown, 7) == []
  {
    var shown := ShowToastAt(ShowToastAt([], 7, Success, "已收藏"), 7, Error, "添加收藏失败");
    assert shown == [Toast(7, Success, "已收藏")] + [Toast(7, Error, "添加收藏失败")];
    Seqs.FilterKeepsNone(shown, (t: Toast) => t.id != 7);
  }

  /** The largest id in use (0 for no toasts). */
  function MaxId(toasts: seq<Toast>): (m: nat)
    ensures forall t :: t in toasts ==> t.id <= m
    decreases |toasts|
  {
    if |toasts| == 0 then 0
    else
      var rest := MaxId(toasts[1..]);
      assert forall t :: t in toasts ==> t == toasts[0] || t in toasts[1..];
      if toasts[0].id > rest then toasts[0].id else rest
  }

  /** The id a new toast gets: the clock reading when it is newer than every
      id in use, and otherwise one past the largest. */
  function FreshId(toasts: seq<Toast>, now: nat): (id: nat)
    ensures forall t :: t in toasts ==> t.id < id
    ensures id >= now
  {
    var m := MaxId(toasts);
    if |toasts| == 0 || now > m then now else m + 1
  }

  /** `showToast(type, message)` with ids that cannot collide. */
  function ShowToast(toasts: seq<Toast>, now: nat, kind: ToastType, message: string): (r: seq<Toast>)
    ensures |r| == |toasts| + 1 && r[..|toasts|] == toasts
    ensures r[|toasts|].kind == kind && r[|toasts|].message == message
    ensures forall t :: t in toasts ==> t.id != r[|toasts|].id
    ensures UniqueIds(toasts) ==> UniqueIds(r)
  {
    var t := Toast(FreshId(toasts, now), kind, message);
    assert forall i :: 0 <= i < |toasts| ==> toasts[i] in toasts;
    toasts + [t]
  }

  /** Closing the toast just shown removes it and nothing else. */
  lemma {:induction false} CloseUndoesShow(toasts: seq<Toast>, now: nat, kind: ToastType, message: string)
    ensures var r := ShowToast(toasts, now, kind, message);
            RemoveToast(r, r[|toasts|].id) == toasts
  {
    var r := ShowToast(toasts, now, kind, message);
    var id := r[|toasts|].id;
    var keep := (t: Toast) => t.id != id;
    assert r == toasts + [r[|toasts|]];
    Seqs.FilterConcat(toasts, [r[|toasts|]], keep);
    Seqs.FilterKeepsAll(toasts, keep);
    Seqs.FilterKeepsNone([r[|toasts|]], keep);
  }

  /** With unique ids, closing a toast removes exactly one entry. */
  lemma {:induction false} CloseRemovesOne(toasts: seq<Toast>, i: nat)
    requires UniqueIds(toasts) && i < |toasts|
    ensures RemoveToast(toasts, toasts[i].id) == toasts[..i] + toasts[i + 1..]
  {
    var id := toasts[i].id;
    var keep := (t: Toast) => t.id != id;
    var before, after := toasts[..i], toasts[i + 1..];
    assert toasts == before + [toasts[i]] + after;
    assert forall x :: x in before ==> keep(x) by {
      forall x | x in before ensures keep(x) {
        var k :| 0 <= k < i && before[k] == x;
        assert toasts[k] == x;
      }
    }
    assert forall x :: x in after ==> keep(x) by {
      forall x | x in after ensures keep(x) {
        var k :| 0 <= k < |after| && after[k] == x;
        assert toasts[i + 1 + k] == x;
      }
    }
    Seqs.FilterDropsOne(before, toasts[i], after, keep);
  }

  /** `success`, `error`, `warning`, `info`: each appends one toast of its
      kind with the message, under an id no toast in the list has. */
  function ShowSuccess(toasts: seq<Toast>, now: nat, message: string): (r: seq<Toast>)
    ensures |r| == |toasts| + 1 && r[..|toasts|] == toasts
    ensures r[|toasts|].kind == Success && r[|toasts|].message == message
    ensures forall t :: t in toasts ==> t.id != r[|toasts|].id
  {
    ShowToast(toasts, now, Success, message)
  }

  function ShowError(toasts: seq<Toast>, now: nat, message: string): (r: seq<Toast>)
    ensures |r| == |toasts| + 1 && r[..|toasts|] == toasts
    ensures r[|toasts|].kind == Error && r[|toasts|].message == message
    ensures forall t :: t in toasts ==> t.id != r[|toasts|].id
  {
    ShowToast(toasts, now, Error, message)
  }

  function ShowWarning(toasts: seq<Toast>, now: nat, message: string): (r: seq<Toast>)
    ensures |r| == |toasts| + 1 && r[..|toasts|] == toasts
    ensures r[|toasts|].kind == Warning && r[|toasts|].message == message
    ensures forall t :: t in toasts ==> t.id != r[|toasts|].id
  {
    ShowToast(toasts, now, Warning, message)
  }

  function ShowInfo(toasts: seq<Toast>, now: nat, message: string): (r: seq<Toast>)
    ensures |r| == |toasts| + 1 && r[..|toasts|] == toasts
    ensures r[|toasts|].kind == Info && r[|toasts|].message == message
    ensures forall t :: t in toasts ==> t.id != r[|toasts|].id
  {
    ShowToast(toasts, now, Info, message)
  }

  /** A run of shows and closes starting from no toasts keeps the ids
      unique. */
  datatype ToastEvent = Show(now: nat, kind: ToastType, message: string) | Close(id: nat)

  function Apply(toasts: seq<Toast>, e: ToastEvent): seq<Toast> {
    match e
    case Show(now, kind, message) => ShowToast(toasts, now, kind, message)
    case Close(id) => RemoveToast(toasts, id)
  }

  function ApplyAll(toasts: seq<Toast>, events: seq<ToastEvent>): seq<Toast>
    decreases |events|
  {
    if |events| == 0 then toasts else ApplyAll(Apply(toasts, events[0]), events[1..])
  }

  /** Removing toasts keeps the remaining ids unique. */
  lemma RemoveKeepsUnique(toasts: seq<Toast>, id: nat)
    requires UniqueIds(toasts)
    ensures UniqueIds(RemoveToast(toasts, id))
  {
    assert Seqs.UniqueBy(toasts, IdOf);
    Seqs.FilterKeepsUniqueBy(toasts, Keeps(id), IdOf);
  }

  lemma {:induction false} RunKeepsUnique(toasts: seq<Toast>, events: seq<ToastEvent>)
    requires UniqueIds(toasts)
    ensures UniqueIds(ApplyAll(toasts, events))
    decreases |events|
  {
    if |events| > 0 {
      if events[0].Close? {
        RemoveKeepsUnique(toasts, events[0].id);
      }
      RunKeepsUnique(Apply(toasts, events[0]), events[1..]);
    }
  }
}

=== FILE: types.dfy ===
/**
 * The entities of the adoption app (types-extended.ts) and the rows of the
 * four store tables they are read from. Enumerated string types become
 * datatypes with their stored label; free strings stay `string`.
 */
module Types {
  import opened Wrappers

  /** The seven pages of the single-page app. */
  datatype Page = Home | Details | Form | Profile | AiChat | Discovery | Messages

  function PageName(p: Page): string {
    match p
    case Home => "home"
    case Details => "details"
    case Form => "form"
    case Profile => "profile"
    case AiChat => "ai-chat"
    case Discovery => "discovery"
    case Messages => "messages"
  }

  function ParsePage(s: string): (r: Option<Page>)
    ensures r.Some? ==> PageName(r.value) == s
  {
    if s == "home" then Some(Home)
    else if s == "details" then Some(Details)
    else if s == "form" then Some(Form)
    else if s == "profile" then Some(Profile)
    else if s == "ai-chat" then Some(AiChat)
    else if s == "discovery" then Some(Discovery)
    else if s == "messages" then Some(Messages)
    else None
  }

  /** The page names are seven distinct strings: every page reads back as
      itself, and exactly seven strings name a page. */
  lemma PageNamesRoundTrip(p: Page)
    ensures ParsePage(PageName(p)) == Some(p)
    ensures |set q: Page | true :: PageName(q)| == 7
  {
    var names := set q: Page | true :: PageName(q);
    assert names == {"home", "details", "form", "profile", "ai-chat", "discovery", "messages"} by {
      forall n | n in names
        ensures n in {"home", "details", "form", "profile", "ai-chat", "discovery", "messages"}
      {
        var q: Page :| PageName(q) == n;
      }
      assert PageName(Home) in names && PageName(Details) in names && PageName(Form) in names;
      assert PageName(Profile) in names && PageName(AiChat) in names;
      assert PageName(Discovery) in names && PageName(Messages) in names;
    }
  }

  /** A pet's gender, '公' or '母'. */
  datatype Gender = Male | Female

  function GenderLabel(g: Gender): string {
    match g
    case Male => "公"
    case Female => "母"
  }

  /** A pet's adoption status: '待领养', '审核中' or '已通过'. */
  datatype PetStatus = Available | UnderReview | Adopted

  function PetStatusLabel(s: PetStatus): string {
    match s
    case Available => "待领养"
    case UnderReview => "审核中"
    case Adopted => "已通过"
  }

  function ParsePetStatus(text: string): (r: Option<PetStatus>)
    ensures r.Some? ==> PetStatusLabel(r.value) == text
  {
    if text == "待领养" then Some(Available)
    else if text == "审核中" then Some(UnderReview)
    else if text == "已通过" then Some(Adopted)
    else None
  }

  /** Only the three labels are pet statuses, and each reads back as itself. */
  lemma PetStatusRoundTrip(s: PetStatus)
    ensures ParsePetStatus(PetStatusLabel(s)) == Some(s)
  {}

  /** An application's status: '审核中', '已通过', '已完成' or '已拒绝'. */
  datatype AppStatus = InReview | Approved | Completed | Rejected

  function AppStatusLabel(s: AppStatus): string {
    match s
    case InReview => "审核中"
    case Approved => "已通过"
    case Completed => "已完成"
    case Rejected => "已拒绝"
  }

  function ParseAppStatus(text: string): (r: Option<AppStatus>)
    ensures r.Some? ==> AppStatusLabel(r.value) == text
  {
    if text == "审核中" then Some(InReview)
    else if text == "已通过" then Some(Approved)
    else if text == "已完成" then Some(Completed)
    else if text == "已拒绝" then Some(Rejected)
    else None
  }

  /** The four application labels are distinct: each reads back as itself. */
  lemma AppStatusRoundTrip(s: AppStatus)
    ensures ParseAppStatus(AppStatusLabel(s)) == Some(s)
  {}

  /** Who wrote a chat message. */
  datatype Role = User | Assistant

  /** A row of `pets`. `createdAt` is the row's creation time, which the
      store orders by. */
  datatype Pet = Pet(
    id: string,
    name: string,
    breed: string,
    age: string,
    gender: Gender,
    weight: string,
    distance: string,
    location: string,
    image: string,
    tags: seq<string>,
    description: string,
    status: PetStatus,
    price: real,
    createdAt: int)

  /** A row of `applications`; it refers to its pet by `petId`. */
  datatype ApplicationRow = ApplicationRow(
    id: string,
    petId: string,
    userName: string,
    userEmail: string,
    userPhone: string,
    houseType: string,
    ownershipType: string,
    experience: string,
    reason: string,
    status: AppStatus,
    createdAt: int,
    updatedAt: int)

  /** An application as the services return it: the row, the pet looked up
      by `petId` (None when the lookup found nothing) and the progress
      derived from the status. */
  datatype Application = Application(row: ApplicationRow, pet: Option<Pet>, progress: int)

  /** A row of `favorites`. */
  datatype FavoriteRow = FavoriteRow(id: string, userId: string, petId: string, createdAt: int)

  /** A favorite with its pet attached (None when the lookup found nothing). */
  datatype Favorite = Favorite(row: FavoriteRow, pet: Option<Pet>)

  /** A row of `messages`. */
  datatype Message = Message(id: string, userId: string, content: string, role: Role, createdAt: int)

  /** What the adoption form submits. There is deliberately no status field:
      the service chooses the initial status. */
  datatype AdoptionFormData = AdoptionFormData(
    petId: string,
    userName: string,
    userEmail: string,
    userPhone: string,
    houseType: string,
    ownershipType: string,
    experience: string,
    reason: string)

  /** An error reported by the store: its code and its text. */
  datatype StoreError = StoreError(code: string, message: string)

  /** The error half of `ApiResponse`: a per-operation message, with the
      store's code and the store error itself kept for diagnostics. */
  datatype ApiError = ApiError(message: string, code: string, details: StoreError)

  /** `ApiResponse<T>`: data and error are both optional and never both
      present, so a service answers with data, with nothing (`{}`, the
      success of a delete), or with an error. */
  datatype ApiResponse<T> = Ok(data: T) | NoContent | Err(error: ApiError)

  /** Wraps a store error under an operation's own message. */
  function Fail<T>(message: string, cause: StoreError): ApiResponse<T> {
    Err(ApiError(message, cause.code, cause))
  }

  /** `response.data`: present only on a success that carries data. */
  function DataOf<T>(r: ApiResponse<T>): (d: Option<T>)
    ensures d.Some? <==> r.Ok?
  {
    if r.Ok? then Some(r.data) else None
  }

  /** The same response with its data made optional, for state that holds
      "the item, or null". */
  function SomeData<T>(r: ApiResponse<T>): (o: ApiResponse<Option<T>>)
    ensures o.Ok? <==> r.Ok?
    ensures o.Ok? ==> o.data == Some(r.data)
    ensures o.Err? <==> r.Err?
    ensures o.Err? ==> o.error == r.error
  {
    match r
    case Ok(d) => Ok(Some(d))
    case NoContent => NoContent
    case Err(e) => Err(e)
  }

  /** `PetFilter`: every field may be left out. */
  datatype PetFilter = PetFilter(
    breed: Option<string>,
    status: Option<string>,
    minPrice: Option<real>,
    maxPrice: Option<real>,
    gender: Option<Gender>,
    tags: Option<seq<string>>,
    search: Option<string>)

  const NoPetFilter := PetFilter(None, None, None, None, None, None, None)

  /** What a call to the generative model gives back: the response's text
      (the empty string when it has none), or a thrown error. */
  datatype Generation = Replied(text: string) | Threw

  /** `text || fallback`: the text, unless it is empty. */
  function OrElse(text: string, fallback: string): (r: string)
    ensures text != "" ==> r == text
    ensures text == "" ==> r == fallback
  {
    if text == "" then fallback else text
  }
}

=== FILE: wrappers.dfy ===
/** The optional-value wrapper used for JavaScript's `undefined`/`null` fields. */
module Wrappers {

  datatype Option<+T> = None | Some(value: T) {

    /** The value, or `default` when there is none. */
    function GetOr(default: T): T {
      match this
      case Some(v) => v
      case None => default
    }
  }
}
